=== FILE: README.md ===
# Walker routing and walker-tracking sensors for CARLA

This project is a Dafny model of the pedestrian tooling built around the CARLA
simulator. It covers two parts.

The Python scenario side:
- spawning a walker at a spawn index, shifted onto the sidewalk zone the index belongs to;
- steering a walker towards a spawn point;
- the walker manager that moves walkers along their routes and tears them down at the end;
- the scenario executor that spawns the vehicles and walkers of a configuration and
  cleans up when something escapes.

The Unreal-side sensors:
- the walker detection sensor's map of tracked walkers: newest-timestamp-wins updates,
  20-second pruning, a rotating line trace, and location and flag getters;
- the variant whose entries carry a "detected by own vehicle" flag;
- the two V2V broadcasters that copy one sensor's map into the sensors of nearby vehicles;
- the safe-distance sensor's time-to-live relay, in which every walker datum is passed on
  for at most three hops;
- the box geometry and the overlap filter of the safe-distance sensor.

The engine is never called. What the engine answers is an input:
- the actor a spawn request returns;
- a walker's location;
- the line-trace hit;
- overlapping actors, and the actors attached to them;
- the current time;
- the map's iteration order;
- the map's spawn points, which `spawn_walker` reads for itself and which need not be
  the list the executor was built with;
- whether the engine calls that the executor makes outside its per-entry handlers raise
  (`ScenarioExecutor.WorldFaults`).

Vectors are over exact reals. A Euclidean length needs a square root. It is taken as a
parameter `sqrt` and is required only to behave as one (`Geometry.IsSqrt`).

Modules:
- `Errors`: Python exceptions as `Result` values.
- `Geometry`: vectors and transforms.
- `WalkerUtils`, `WalkerRouteManager`, `ScenarioExecutor`: the Python files.
- `TrackedMaps`: the pruning shared by every tracked map.
- `WalkerDetection`: the plain detection sensor.
- `FlaggedWalkerDetection`: the flagged detection sensor.
- `V2VTopology`: recipients and targets shared by both broadcasters.
- `V2VConcluded`: the broadcaster in ConcludedSensor/.
- `V2VRoot`: the broadcaster at the repository root.
- `SafeDistanceRelay`: the root safe-distance sensor.
- `SafeDistanceBox`: the safe-distance sensor in SafeDistanceSensor/.

Behaviour of the code worth knowing, where it departs from what the repository describes or from what a reader might expect:
- `add_walker` does not validate the route. An empty route is stored and removed on the
  next update (`WalkerRouteManager.EmptyRouteLeavesAtOnce`).
- A finished walker leaves the manager on the same tick it arrives at its last point,
  not on a later one.
- In the flagged sensor, a relayed report stamped with the current frame's time that
  arrives before the trace blocks the own-detection flag for that frame, because an
  update needs a strictly newer timestamp (`FlaggedWalkerDetection.PrePhysTick` states
  this case as written).

## Model

| member | source | states |
|---|---|---|
| WalkerUtils.WalkerOffset | ScenarioTown02Maker/utils/walker_utils.py:10-28 | the offset is horizontal, and is zero exactly for indices in no sidewalk zone (in particular for every negative index) |
| WalkerUtils.ZonesDisjoint | ScenarioTown02Maker/utils/walker_utils.py:4-7 | the four sidewalk zones are pairwise disjoint, so the chain of tests in the offset lookup never depends on its order |
| WalkerUtils.OffsetByZone | ScenarioTown02Maker/utils/walker_utils.py:20-28 | an index in the left, right, top or bottom zone gets that zone's offset |
| WalkerUtils.GetWalkerLocation | ScenarioTown02Maker/utils/walker_utils.py:30-56 | the lookup succeeds exactly for Python-valid list indices, otherwise it raises IndexError; a non-negative index yields the spawn point moved by its zone offset, and a negative one counts from the end |
| WalkerUtils.UnavailableIndexKeepsOffset | ScenarioTown02Maker/utils/walker_utils.py:4-8 | index 42 is refused for spawning although it lies in the right sidewalk zone |
| WalkerUtils.IsValidWalkerSpawnIndex | ScenarioTown02Maker/utils/walker_utils.py:58-72 | an accepted index lies in 0..100 and is not unavailable, an in-range index is refused only when unavailable, and every accepted index falls in a sidewalk zone with a non-zero offset |
| WalkerUtils.ValidIndexHasZone | ScenarioTown02Maker/utils/walker_utils.py:58-72 | every index accepted for spawning lies in some zone and so gets a non-zero offset |
| WalkerUtils.SpawnWalker | ScenarioTown02Maker/utils/walker_utils.py:74-113 | the checks raise in source order (blueprint, missing index, invalid index, empty map); the spawn succeeds exactly when all checks pass and the engine returns an actor, placed at the offset spawn point |
| WalkerUtils.ValidationPrecedesSpawn | ScenarioTown02Maker/utils/walker_utils.py:90-103 | when a check fails, the engine's answer to the spawn request makes no difference |
| WalkerUtils.SpawnBoundIgnoresMap | ScenarioTown02Maker/utils/walker_utils.py:68-72 | an index above 100 is refused however many spawn points the map has |
| WalkerUtils.WalkerGoToLocation | ScenarioTown02Maker/utils/walker_utils.py:115-171 | a missing walker or index and a non-integer index raise ValueError; otherwise the control keeps the requested speed and does not jump |
| WalkerUtils.GoToLocationSteersToDestination | ScenarioTown02Maker/utils/walker_utils.py:145-169 | the control's direction is the unit vector towards the destination on the ground (z = 0), scaling back to the offset, and is zero only when the walker is already there |
| WalkerRouteManager.AddWalker | ScenarioTown02Maker/utils/walker_route_manager.py:9-23 | the new entry is appended with its cursor at the start of the route; earlier entries are unchanged |
| WalkerRouteManager.ArrivedIffWithinSquaredThreshold | ScenarioTown02Maker/utils/walker_route_manager.py:44-47 | a walker has arrived exactly when its squared distance to the target is at most 4 (distance at most 2 metres) |
| WalkerRouteManager.StepTask | ScenarioTown02Maker/utils/walker_route_manager.py:32-60 | one entry: the cursor advances exactly on arrival; a command is sent exactly when the walker is short of its target, with the entry's speed, no jump, and the unit direction from the walker to the ground-level target; an entry is marked for removal exactly when its cursor has passed the route's end; a route index inside the list never raises; an index outside Python's range raises IndexError; a negative index the lookup accepts raises ValueError exactly when the walker has not yet arrived |
| WalkerRouteManager.SweepTasks | ScenarioTown02Maker/utils/walker_route_manager.py:32-60 | every entry keeps its walker, route and speed; each cursor moves by at most one; cursors stay within the route; the loop gets through every entry exactly when no step raises |
| WalkerRouteManager.SweepStopsAtFirstFailure | ScenarioTown02Maker/utils/walker_route_manager.py:32-60 | the loop stops at the first entry whose step raises and raises that failure; every entry before it stepped without raising |
| WalkerRouteManager.SweepStepsVisitedEntries | ScenarioTown02Maker/utils/walker_route_manager.py:32-60 | entries before the failing one hold the state their step gave them, since they are updated in place; the failing entry and those after it are untouched |
| WalkerRouteManager.SweepSendsStepCommands | ScenarioTown02Maker/utils/walker_route_manager.py:55-57 | every visited entry whose step produced a command has it sent, addressed to that entry's walker |
| WalkerRouteManager.SweepCommandsComeFromSteps | ScenarioTown02Maker/utils/walker_route_manager.py:55-57 | every command sent comes from the step of a visited entry, addressed to that entry's walker |
| WalkerRouteManager.SweepMarksOnlyFinished | ScenarioTown02Maker/utils/walker_route_manager.py:51-60 | every walker marked for removal belongs to an entry that has finished its route |
| WalkerRouteManager.SweepMarksAllFinished | ScenarioTown02Maker/utils/walker_route_manager.py:51-60 | after a full pass every entry that has finished its route is marked |
| WalkerRouteManager.Teardown | ScenarioTown02Maker/utils/walker_route_manager.py:62-69 | destroy is attempted exactly for the marked walkers that are alive, and at most once for a walker whose destroy succeeds |
| WalkerRouteManager.RemoveWalkers | ScenarioTown02Maker/utils/walker_route_manager.py:71-72 | an entry survives exactly when its walker was not marked |
| WalkerRouteManager.RemoveWalkersKeepsOrder | ScenarioTown02Maker/utils/walker_route_manager.py:71-72 | the survivors keep their relative order |
| WalkerRouteManager.SurvivorsUnfinished | ScenarioTown02Maker/utils/walker_route_manager.py:51-72 | after a full pass every entry whose walker was not marked is short of its route's end and comes from an old entry with its cursor only advanced |
| WalkerRouteManager.UpdateWalkers | ScenarioTown02Maker/utils/walker_route_manager.py:25-72 | the commands of the first loop are sent even when it raises, and its exception escapes before anything is destroyed or removed; after a full pass an entry stays exactly when its walker was not marked, the survivors keep their order and none has finished its route, and exactly the marked walkers that are alive are destroyed, at most once unless the destroy raises |
| WalkerRouteManager.UpdateEmptyIsNoop | ScenarioTown02Maker/utils/walker_route_manager.py:30-72 | updating an empty manager sends nothing and destroys nothing |
| WalkerRouteManager.EmptyRouteLeavesAtOnce | ScenarioTown02Maker/utils/walker_route_manager.py:58-72 | an entry added with an empty route is dropped, and its walker destroyed if alive, on the next update that does not raise |
| ScenarioExecutor.SpawnPointAt | ScenarioTown02Maker/scenario/scenario_executor.py:38-39 | a missing key raises KeyError, a null one TypeError, an out-of-range one IndexError; otherwise the subscript follows Python's list indexing |
| ScenarioExecutor.VehicleStep | ScenarioTown02Maker/scenario/scenario_executor.py:37-69 | a vehicle that spawns is registered even if a later step fails, followed by its sensors exactly when attaching them (and the tick after) did not raise; autopilot is set exactly when attaching sensors did not raise; an entry that does not spawn changes nothing |
| ScenarioExecutor.WalkerStep | ScenarioTown02Maker/scenario/scenario_executor.py:77-92 | a spawned walker is registered, and handed to the manager with its route and speed (default 1.4) exactly when its entry has a route |
| ScenarioExecutor.RunVehicles | ScenarioTown02Maker/scenario/scenario_executor.py:36-69 | the vehicle loop only appends to the registry and leaves the managed walkers alone |
| ScenarioExecutor.RunWalkers | ScenarioTown02Maker/scenario/scenario_executor.py:76-92 | the walker loop only appends to the registry, and the manager gains exactly one entry per walker that spawned with a route, in configuration order (RoutedTasks) |
| ScenarioExecutor.RoutedTasksComplete | ScenarioTown02Maker/scenario/scenario_executor.py:84-90 | every walker that spawns with a route is among the manager entries the loop adds |
| ScenarioExecutor.RoutedTasksSound | ScenarioTown02Maker/scenario/scenario_executor.py:84-90 | every manager entry the loop adds is the spawned walker, route, cursor 0 and speed (default 1.4) of an entry with a route |
| ScenarioExecutor.AppendedFromRoutes | ScenarioTown02Maker/scenario/scenario_executor.py:76-92 | each entry appended by the walker loop comes from a walker that spawned with a route |
| ScenarioExecutor.EverySpawnedVehicleRegistered | ScenarioTown02Maker/scenario/scenario_executor.py:36-69 | a failure in one vehicle entry does not keep any vehicle that spawns out of the registry |
| ScenarioExecutor.EverySpawnedWalkerRegistered | ScenarioTown02Maker/scenario/scenario_executor.py:76-92 | every walker that spawns is in the registry after the loop |
| ScenarioExecutor.WalkerManagedIffRouted | ScenarioTown02Maker/scenario/scenario_executor.py:84-90 | a spawned walker is registered, and is managed exactly when its entry has a route |
| ScenarioExecutor.CleanupCalls | ScenarioTown02Maker/scenario/scenario_executor.py:109-117 | only registered live actors are touched; each live one with `stop` is stopped, and each live one is destroyed unless its stop raised; a stop comes right before its destroy; a failing stop means no destroy |
| ScenarioExecutor.Cleanup | ScenarioTown02Maker/scenario/scenario_executor.py:109-118 | the registry is emptied whatever happened, and only registered actors are touched |
| ScenarioExecutor.CleanupIdempotent | ScenarioTown02Maker/scenario/scenario_executor.py:109-118 | a second cleanup finds nothing to do |
| ScenarioExecutor.Prepare | ScenarioTown02Maker/scenario/scenario_executor.py:19-34 | a spectator whose spawn point is found is moved there and its sensors, when attached, are registered before the spawn-point check; a failed lookup or attach is the failure raised; otherwise, without spawn points the run fails with RuntimeError |
| ScenarioExecutor.Abort | ScenarioTown02Maker/scenario/scenario_executor.py:105-117 | the outer handler cleans up the state reached, emptying the registry and tearing down every live registered actor (stop when it has one, then destroy unless the stop raised), and re-raises the same exception |
| ScenarioExecutor.RunScenario | ScenarioTown02Maker/scenario/scenario_executor.py:36-107 | after the spawn-point check: a null vehicle list raises TypeError before any vehicle; otherwise the cross factor is set; a later failure tears down every live actor registered before and every spawned live vehicle, and, after the walker loop, every spawned live walker; a run that does not raise registers every spawned vehicle and walker and gives the manager exactly the routed walkers |
| ScenarioExecutor.AfterVehicles | ScenarioTown02Maker/scenario/scenario_executor.py:72-107 | after the vehicle loop the run raises exactly when the cross-factor call or its tick raises, the walker list is null, or listing the actors raises; the cross-factor failure comes first; cleanup then tears down every live actor registered before and, on a listing failure, every walker the loop spawned; without a raise every spawned walker is registered and the manager gains exactly the routed ones |
| ScenarioExecutor.Execute | ScenarioTown02Maker/scenario/scenario_executor.py:15-117 | an exception escapes exactly when the spectator set-up or spawn-point check fails, an entry list is null, the cross-factor call or its tick raises, or listing the actors raises, and the first of these is re-raised; cleanup runs exactly then and tears down every live actor registered before, the spectator's sensors, and every spawned vehicle and walker the run got to; the cross factor is set once the vehicle loop has run; without spawn points no autopilot is set; a run that does not raise keeps the old registry as a prefix, registers every spawned vehicle and walker, and gives the manager exactly the routed walkers |
| ScenarioExecutor.ExecuteManagesRoutedWalkers | ScenarioTown02Maker/scenario/scenario_executor.py:76-92 | after a run that does not raise, every walker that spawned with a route is managed, and every new manager entry comes from such a walker |
| TrackedMaps.PruneStale | ConcludedSensor/WalkerDetectionSensor.cpp:59-73 | an entry survives exactly when it is at most 20 seconds old, and survivors are unchanged |
| TrackedMaps.EnumerationLength | ConcludedSensor/WalkerDetectionSensor.cpp:62 | iterating a map visits as many keys as it has entries |
| WalkerDetection.UpdateWalkerData | ConcludedSensor/WalkerDetectionSensor.cpp:116-124 | an absent walker is inserted and a strictly newer report replaces the entry; anything else leaves the map unchanged; no timestamp decreases |
| TrackedMaps.Snapshot | ConcludedSensor/V2VBroadcast.cpp:114-139 | the reports read off a map name exactly its keys, once per entry, each with that entry's location and timestamp |
| WalkerDetection.ExtendsTransitive | ConcludedSensor/WalkerDetectionSensor.cpp:116-124 | "no entry lost, no timestamp going back" composes across updates |
| WalkerDetection.CoversExtended | ConcludedSensor/WalkerDetectionSensor.cpp:116-124 | a map that holds every report at least as recent keeps doing so under later updates |
| WalkerDetection.CoversSnapshot | ConcludedSensor/WalkerDetectionSensor.cpp:126-129 | a map covering a snapshot of another holds every walker of the other at least as recently |
| WalkerDetection.Merge | ConcludedSensor/WalkerDetectionSensor.cpp:116-124 | applying reports in turn: the keys gained are exactly the reported ids; unreported entries are unchanged; every report ends up held at least as recently; every entry is either the one held before or a report's location and timestamp under the reported id |
| WalkerDetection.MergeExtends | ConcludedSensor/WalkerDetectionSensor.cpp:116-124 | merging extends the map and covers the reports |
| WalkerDetection.MergeOfOlderIsIdentity | ConcludedSensor/WalkerDetectionSensor.cpp:119-123 | reports no newer than what the map holds change nothing |
| WalkerDetection.MergeIntoItselfIsIdentity | ConcludedSensor/WalkerDetectionSensor.cpp:116-124 | merging a map's own snapshot back into it is the identity |
| WalkerDetection.StepAngle | ConcludedSensor/WalkerDetectionSensor.cpp:105-110 | below a full turn the angle advances by 360 degrees per second of the frame time; at or past 360 it restarts at 0, so an overshoot is dropped rather than carried over; it stays in [0, 360) |
| WalkerDetection.SweepStaysInOneTurn | ConcludedSensor/WalkerDetectionSensor.cpp:105-110 | over any sequence of non-negative frame times the angle stays in [0, 360) |
| WalkerDetection.PrePhysTick | ConcludedSensor/WalkerDetectionSensor.cpp:52-124 | after a tick nothing stale remains; for every walker other than the one hit, the entry survives exactly when it is fresh and is then unchanged; a hit walker with no entry or an older one gets the impact point stamped now, while an entry stamped at or after now stays as it is; no other key appears; without a walker hit the tick is pure pruning; the angle steps |
| WalkerDetection.WorldLocations | ConcludedSensor/WalkerDetectionSensor.cpp:147-154 | one location per entry, in the map's iteration order, and every entry's location is present |
| WalkerDetection.RelativeLocations | ConcludedSensor/WalkerDetectionSensor.cpp:131-145 | without an owner the list is empty, otherwise it has one position per entry |
| WalkerDetection.RelativeIsWorldMinusOwner | ConcludedSensor/WalkerDetectionSensor.cpp:131-154 | each relative location is the world location minus the owner's location, position by position |
| FlaggedWalkerDetection.UpdateWalkerData | WDS_withLogs/WalkerDetectionSensor.cpp:116-179 | an absent walker is inserted with the given flag; a strictly newer report updates location and timestamp and ORs the flag; anything else changes nothing; a set flag is never cleared, and a report without the flag sets none |
| FlaggedWalkerDetection.ExtendsTransitive | WDS_withLogs/WalkerDetectionSensor.cpp:150-164 | "no entry lost, no timestamp going back, flags unchanged" composes |
| FlaggedWalkerDetection.CoversExtended | WDS_withLogs/WalkerDetectionSensor.cpp:150-164 | coverage of reports survives later extensions |
| FlaggedWalkerDetection.CoversSnapshot | WDS_withLogs/WalkerDetectionSensor.cpp:181-184 | a map covering a snapshot of another holds every walker of the other at least as recently |
| FlaggedWalkerDetection.Relay | ConcludedSensor/V2VBroadcast.cpp:137-141 | relayed reports (flag false) add exactly the reported ids, keep unreported entries, cover every report, and leave every flag as it was, new entries unflagged; every entry is either the one held before or carries a report's location and timestamp |
| FlaggedWalkerDetection.RelayExtends | ConcludedSensor/V2VBroadcast.cpp:137-141 | relaying extends the map and covers the reports |
| FlaggedWalkerDetection.RelayOfOlderIsIdentity | WDS_withLogs/WalkerDetectionSensor.cpp:165-169 | reports no newer than what the map holds change nothing |
| FlaggedWalkerDetection.RelayIntoItselfIsIdentity | WDS_withLogs/WalkerDetectionSensor.cpp:116-179 | relaying a map's own snapshot back into it is the identity |
| FlaggedWalkerDetection.PrePhysTick | WDS_withLogs/WalkerDetectionSensor.cpp:52-179 | nothing stale remains; for every walker other than the one hit, the entry survives exactly when it is fresh and is then unchanged; a walker hit is held; an absent or older entry for it gets the impact point, is flagged and stamped now; an entry already stamped at or after now is left as it is, flag included; without a hit the tick is pure pruning |
| FlaggedWalkerDetection.DetectedFlags | WDS_withLogs/WalkerDetectionSensor.cpp:212-231 | one flag per entry in iteration order, and some flag is true exactly when some entry is flagged |
| FlaggedWalkerDetection.RelayLeavesFlags | WDS_withLogs/WalkerDetectionSensor.cpp:150-164 | after a relay the flags read back are exactly the flags the map had before, false for walkers it did not know |
| V2VTopology.Configure | ConcludedSensor/V2VBroadcast.cpp:57-62 | the radius is the attribute's value, 1000 when absent, and the sphere gets the same radius |
| V2VTopology.SetBroadcastRadius | ConcludedSensor/V2VBroadcast.cpp:90-94 | the radius and the sphere's radius both become the new value; nothing else changes |
| V2VTopology.LastRadiusWins | V2VBroadcast.cpp:97-101 | of two radius settings only the last one counts |
| V2VTopology.Recipients | ConcludedSensor/V2VBroadcast.cpp:120-122 | the recipients are exactly the overlapping vehicles other than the owner |
| V2VTopology.TargetsOf | ConcludedSensor/V2VBroadcast.cpp:128-135 | the targets of a vehicle are exactly its attached broadcasters' sensors |
| V2VTopology.Targets | ConcludedSensor/V2VBroadcast.cpp:125-135 | a sensor is targeted exactly when some recipient carries a broadcaster pointing at it |
| V2VTopology.RecipientTargeted | ConcludedSensor/V2VBroadcast.cpp:120-135 | a broadcaster on any non-owner overlapping vehicle is targeted |
| V2VTopology.OwnerNotTargeted | V2VBroadcast.cpp:127-141 | every target comes from a vehicle other than the owner |
| V2VTopology.SelectionsAgreeOnOneSensor | V2VBroadcast.cpp:40-50 | with exactly one detection sensor attached, the first-found and the last-valid selections pick the same one |
| V2VConcluded.SetOwner | ConcludedSensor/V2VBroadcast.cpp:64-88 | the owner is recorded; an invalid owner leaves the sensor as it was; otherwise the last valid detection sensor attached is chosen, and none found leaves it unchanged |
| V2VConcluded.BeginPlay | ConcludedSensor/V2VBroadcast.cpp:20-30 | the broadcast timer runs; nothing else changes |
| V2VConcluded.RelayToAll | ConcludedSensor/V2VBroadcast.cpp:125-143 | exactly the targeted sensors receive the reports and come to cover them; every sensor only extends, gains only reported walkers, keeps the entry of every unreported walker, and each entry it changes carries a report's location and timestamp |
| V2VConcluded.RelayToAllKeepsUpToDate | ConcludedSensor/V2VBroadcast.cpp:137-141 | a sensor that already holds every report as recently is unchanged |
| V2VTopology.Resolved | ConcludedSensor/V2VBroadcast.cpp:133-139 | every target resolves to its sensor, in order, none lost and none added |
| V2VConcluded.PeriodicBroadcast | ConcludedSensor/V2VBroadcast.cpp:101-144 | no sensor or an empty map is a no-op; the sender is unchanged; only targeted sensors change, by extension; each of them ends up holding every walker of the sender at least as recently; every sensor gains only walkers the sender holds, keeps the entries of walkers the sender lacks, and each entry it changes carries the sender's location and timestamp for that walker |
| V2VConcluded.BroadcastReachesRecipients | ConcludedSensor/V2VBroadcast.cpp:120-143 | a broadcaster attached to any overlapping non-owner vehicle ends up knowing every walker the sender knows, at least as recently |
| V2VRoot.SetOwner | V2VBroadcast.cpp:92-95 | only the owner changes |
| V2VRoot.SetWalkerDetectionSensor | V2VBroadcast.cpp:103-106 | only the sensor changes |
| V2VRoot.BeginPlay | V2VBroadcast.cpp:20-58 | without an owner nothing happens; otherwise the timer runs and the first detection sensor attached is chosen, none leaving the sensor unchanged |
| V2VRoot.MergeToAll | V2VBroadcast.cpp:132-151 | exactly the targeted sensors receive the reports and come to cover them; every sensor only extends, gains only reported walkers, keeps the entry of every unreported walker, and each entry it changes is a report's location and timestamp under the reported id |
| V2VRoot.MergeToAllKeepsUpToDate | V2VBroadcast.cpp:144-148 | a sensor that already holds every report as recently is unchanged |
| V2VRoot.PeriodicBroadcast | V2VBroadcast.cpp:108-151 | no sensor or an empty map is a no-op; the sender is unchanged; only targeted sensors change, by extension; each of them ends up holding every walker of the sender at least as recently; every sensor gains only walkers the sender holds, keeps the entries of walkers the sender lacks, and each entry it changes is the sender's location and timestamp under that walker's id |
| V2VRoot.BroadcastReachesRecipients | V2VBroadcast.cpp:127-151 | a broadcaster attached to any overlapping non-owner vehicle ends up knowing every walker the sender knows, at least as recently |
| SafeDistanceRelay.SensorsAmong | SafeDistanceSensor.cpp:147-171 | the recipients are exactly the sensors the cast finds among the overlapping vehicles, the owner excluded |
| SafeDistanceRelay.Neighbours | SafeDistanceSensor.cpp:147-171 | a sensor's neighbours are exactly the sensors of the vehicles overlapping it, other than its owner |
| SafeDistanceRelay.Store | SafeDistanceSensor.cpp:181-205 | an absent walker is inserted and a strictly newer datum replaces the entry; anything else leaves the map unchanged; afterwards the walker is held at least as recently |
| SafeDistanceRelay.SoundCompose | SafeDistanceSensor.cpp:141-233 | two relay cascades in a row keep every sensor, lose no entry, leave every sensor reached holding the walker, and leave the walker's entry everywhere either as it was or a copy of the sighting |
| SafeDistanceRelay.SoundForOriginal | SafeDistanceSensor.cpp:225-231 | what a cascade of a decremented copy guarantees holds for the original datum |
| SafeDistanceRelay.Receive | SafeDistanceSensor.cpp:177-213 | the receiving sensor is reached first; with time-to-live 0 or less nothing is forwarded; otherwise every neighbour gets the datum with its time-to-live one lower; every sensor reached holds the walker; no entry anywhere is lost; no other walker's entry is added or changed; the walker's entry in every map is either the one it held or carries the datum's location and timestamp |
| SafeDistanceRelay.Forward | SafeDistanceSensor.cpp:217-233 | an exhausted datum is dropped; otherwise every neighbour gets a copy one hop shorter, and every copy delivered has a lower time-to-live |
| SafeDistanceRelay.Broadcast | SafeDistanceSensor.cpp:141-173 | every recipient receives the datum as given, and the cascade is sound |
| SafeDistanceRelay.DetectionHopsBounded | SafeDistanceSensor.cpp:271-277 | a detection travels at most three hops |
| SafeDistanceRelay.DetectOne | SafeDistanceSensor.cpp:249-277 | the owner's own sighting starts nothing; any other walker starts a sound cascade at the sensor itself, with time-to-live 3 and the current time |
| SafeDistanceRelay.DetectAll | SafeDistanceSensor.cpp:245-279 | every walker overlapping the sensor, the owner excepted, is held at least as recently as now; no sensor loses an entry; every delivery has a time-to-live between 0 and 3; every entry of every map is the one it held or a sighting's location stamped now under the sighted walker's id |
| SafeDistanceRelay.DetectAllRelaysOnlyDetected | SafeDistanceSensor.cpp:249-277 | every delivery concerns a sighted walker other than the owner; the owner is never relayed |
| SafeDistanceRelay.DetectAllKeepsOthers | SafeDistanceSensor.cpp:249-277 | in every sensor's map only the sighted walkers other than the owner gain or change entries; the owner gains none |
| SafeDistanceRelay.PrePhysTick | SafeDistanceSensor.cpp:237-307 | every sensor, the ticking one included, gains entries only for the walkers sighted, the owner excepted, and keeps every other walker's entry as it was (the ticking one then prunes); every entry anywhere is the one held before or a sighting's location stamped now; the other sensors only extend; the ticking sensor drops every stale entry, keeps the fresh ones, and holds every walker it sees |
| SafeDistanceBox.Set | SafeDistanceSensor/SafeDistanceSensor.cpp:49-80 | the box reaches from the back distance behind to the front distance ahead, and the lateral distance to each side, in centimetres; its height is fixed |
| SafeDistanceBox.DefaultBox | SafeDistanceSensor/SafeDistanceSensor.cpp:53-67 | with no attributes the box is centred at (25, 0, -100) with half-extent (75, 50, 50) |
| SafeDistanceBox.SetExtentNonNegative | SafeDistanceSensor/SafeDistanceSensor.cpp:60-64 | the box's extent is non-negative exactly when front plus back, and lateral, are |
| SafeDistanceBox.SetOwner | SafeDistanceSensor/SafeDistanceSensor.cpp:82-89 | the extent grows by the owner's bounding-box extent; the location does not move |
| SafeDistanceBox.OwnedBoxSpan | SafeDistanceSensor/SafeDistanceSensor.cpp:82-89 | an owned box reaches the owner's half-length beyond the configured distances, and a second SetOwner grows it again |
| SafeDistanceBox.WithoutOwner | SafeDistanceSensor/SafeDistanceSensor.cpp:95-99 | the overlapping actors other than the owner |
| SafeDistanceBox.PrePhysTick | SafeDistanceSensor/SafeDistanceSensor.cpp:91-114 | an event is sent exactly when some overlapping actor is not the owner, and it lists exactly those actors |

## Left out

- ProximityGuard and RouteAssigner have no code among the modelled files, and are not part of this model.
- Engine I/O is replaced by inputs: spawning, locations, line traces, overlap queries, attached actors, timers and the clock. Each member takes what the engine would answer as a parameter.
- Floating point: every float is an exact real, and the square root is a parameter. Rounding in the 20-second test and in the angle sweep is not modelled.
- Locks: `FScopeLock` sections are atomic steps. Concurrent interleavings of broadcasts and ticks are not modelled.
- Logging: `print` and `UE_LOG`, the debug lines, and the executor's listing of managed vehicles (scenario_executor.py:95-103) are left out, because they change no state. Only whether `get_actors` raises is kept.
- The opaque helpers `spawn_vehicle`, `attach_sensors_to_vehicle` and `vehicle_route` are reduced to their answers. `set_autopilot` and `distance_to_leading_vehicle` are treated as never raising.
- An explicit `"speed": null` in a walker entry is read as absent.
- WalkerStep: an explicit `"go_to_point": null` is read like a missing key, so the walker is registered but not managed. The code instead hands the walker to the manager with no route, and every later `update_walkers` that reaches that entry raises TypeError on `len(route)`; manager entries always carry a route list here.
- Execute: a null `scenario_config` makes each vehicle entry raise after its autopilot is set, inside the per-entry handler; the model reads it as absent and uses the default gap of 10 metres.
- An empty spectator dictionary is treated like a missing one, because both are falsy.
- A failed `destroy` leaves the actor alive; how CARLA reports a half-destroyed actor is not modelled.
- Route entries are integers. A non-integer entry reaches `walker_go_to_location` only through a path this model does not produce.
- `apply_control`'s effect on the walker is the returned control; the walker's motion is not simulated.
- GetSensorDefinition and the attribute plumbing for `trace_range` are left out. The trace range is a field with its constructor default of 1000.
- EndPlay and the timer clearing are left out; they only stop the timer.
- The concluded broadcaster calls the four-argument update, while the other broadcaster calls the three-argument one. The headers shipped with each variant do not agree with these calls. Each broadcaster is modelled against the detection sensor whose signature its calls match.
- The root SafeDistanceSensor.cpp uses a time-to-live field that SafeDistanceSensor.h does not declare; the model gives the relayed datum that field.
- `Cast<ASafeDistanceSensor>(Vehicle)` is the map `sensorOf` from vehicle actors to sensors. In the engine a vehicle is not itself a sensor, so that map may well be empty.
- A recipient broadcaster whose detection sensor is null would be dereferenced in the source. The model requires every targeted sensor to exist (`TargetsResolvable`) instead of modelling a crash.
- The sphere's radius before `Set` runs is not modelled separately; `Configure` sets both at once.
- The location getters' exposure to Blueprints is not modelled; only their results are.
- WalkerDetection.RelativeLocations: states the length only; the positions are stated by `RelativeIsWorldMinusOwner`.
- SafeDistanceRelay.DetectionHopsBounded: counts hops through the time-to-live carried by each delivery, not through a separate hop counter.
- Map iteration order is a parameter `order` that lists every key once. Which order the engine actually uses is not modelled.

=== FILE: errors.dfy ===
/** The failures the scenario scripts raise, and the Python exception class of each. */
module Errors {

  /** Python exception classes that appear in the scenario scripts. `CollaboratorError`
      stands for whatever an opaque collaborator (sensor attachment, route assignment,
      autopilot) may raise; its class is not visible in the code. */
  datatype PyException = ValueError | IndexError | RuntimeError | KeyError | TypeError | CollaboratorError

  /** Why an operation failed. */
  datatype Failure =
    | BlueprintMissing             // walker blueprint not found in the library
    | SpawnIndexMissing            // walker spawn index is None
    | SpawnIndexInvalid(index: int)
    | NoSpawnPoints                // the map publishes no spawn points
    | IndexOutOfRange(index: int)  // a spawn-point list subscript out of range
    | SpawnRejected                // the engine returned no actor
    | WalkerMissing                // no walker, or no route index, was given
    | RouteIndexNotInt
    | SpawnPointsNotList
    | RouteIndexOutOfRange(index: int)
    | MissingKey                   // a required key is absent from a config dictionary
    | NullSubscript                // a spawn-point list subscripted with None
    | CollaboratorRaised           // an opaque collaborator raised
    | NotIterable                  // a loop over a configuration list that is None

  function ClassOf(f: Failure): PyException {
    match f
    case BlueprintMissing => ValueError
    case SpawnIndexMissing => ValueError
    case SpawnIndexInvalid(_) => ValueError
    case NoSpawnPoints => RuntimeError
    case IndexOutOfRange(_) => IndexError
    case SpawnRejected => RuntimeError
    case WalkerMissing => ValueError
    case RouteIndexNotInt => ValueError
    case SpawnPointsNotList => ValueError
    case RouteIndexOutOfRange(_) => ValueError
    case MissingKey => KeyError
    case NullSubscript => TypeError
    case CollaboratorRaised => CollaboratorError
    case NotIterable => TypeError
  }

  datatype Option<+T> = None | Some(value: T)

  /** A value, or the failure that a Python function would have raised instead. */
  datatype Result<+T> = Ok(value: T) | Err(failure: Failure) {

    predicate IsFailure() {
      Err?
    }

    function PropagateFailure<U>(): Result<U>
      requires Err?
    {
      Err(failure)
    }

    function Extract(): T
      requires Ok?
    {
      value
    }
  }

  /** A dictionary entry that may be absent, present with None, or present with a value. */
  datatype Field<+T> = Absent | Null | Given(value: T)
}

=== FILE: geometry.dfy ===
/** Vectors and transforms of the simulator, over exact reals.

    The simulator works in single- or double-precision floats; this model uses
    Dafny reals throughout. Square roots are never computed: a member that needs
    a Euclidean length receives the square-root routine as a parameter `sqrt`
    and requires only that it behaves as one (`IsSqrt`).
 */
module Geometry {

  /** Simulator actors are identified by their integer id. */
  type ActorId = int

  datatype Vec3 = Vec3(x: real, y: real, z: real)

  datatype Rotation = Rotation(pitch: real, yaw: real, roll: real)

  /** A location plus an orientation, as in carla.Transform. */
  datatype Transform = Transform(location: Vec3, rotation: Rotation)

  const Zero: Vec3 := Vec3(0.0, 0.0, 0.0)

  function Add(a: Vec3, b: Vec3): Vec3 {
    Vec3(a.x + b.x, a.y + b.y, a.z + b.z)
  }

  function Sub(a: Vec3, b: Vec3): Vec3 {
    Vec3(a.x - b.x, a.y - b.y, a.z - b.z)
  }

  function Scale(v: Vec3, k: real): Vec3 {
    Vec3(v.x * k, v.y * k, v.z * k)
  }

  /** Componentwise division by a non-zero scalar. */
  function Div(v: Vec3, k: real): Vec3
    requires k != 0.0
  {
    Vec3(v.x / k, v.y / k, v.z / k)
  }

  /** The square of a real. Products are kept behind `Sq` and `Mul` so that every
      fact about them is stated about the same terms. */
  function Sq(a: real): real {
    a * a
  }

  /** The squared Euclidean length. */
  function NormSq(v: Vec3): real {
    Sq(v.x) + Sq(v.y) + Sq(v.z)
  }

  /** The squared Euclidean distance between two points. */
  function DistSq(a: Vec3, b: Vec3): real {
    NormSq(Sub(a, b))
  }

  /** `sqrt` is a square root on the non-negative reals. */
  ghost predicate IsSqrt(sqrt: real -> real) {
    forall x :: 0.0 <= x ==> 0.0 <= sqrt(x) && Sq(sqrt(x)) == x
  }

  function Mul(a: real, b: real): real {
    a * b
  }

  lemma MulPos(a: real, b: real)
    requires 0.0 < a && 0.0 < b
    ensures 0.0 < Mul(a, b)
  {}

  /** A real square is non-negative and vanishes only at zero. */
  lemma SquareFacts(a: real)
    ensures 0.0 <= Sq(a)
    ensures a != 0.0 ==> 0.0 < Sq(a)
  {
    if a > 0.0 {
      MulPos(a, a);
      assert Sq(a) == Mul(a, a);
    } else if a < 0.0 {
      MulPos(-a, -a);
      assert Sq(a) == Mul(-a, -a);
    }
  }

  /** For non-negative reals, squaring preserves strict order. */
  lemma SquareStrict(a: real, b: real)
    requires 0.0 <= a < b
    ensures Sq(a) < Sq(b)
  {
    MulPos(b - a, b + a);
    assert Sq(b) - Sq(a) == Mul(b - a, b + a);
  }

  /** A squared length is non-negative and is zero exactly for the zero vector. */
  lemma NormSqNonNegative(v: Vec3)
    ensures 0.0 <= NormSq(v)
    ensures v != Zero ==> 0.0 < NormSq(v)
    ensures v == Zero ==> NormSq(v) == 0.0
  {
    SquareFacts(v.x);
    SquareFacts(v.y);
    SquareFacts(v.z);
  }

  /** A squared distance is never negative. */
  lemma DistSqNonNegative(a: Vec3, b: Vec3)
    ensures 0.0 <= DistSq(a, b)
  {
    NormSqNonNegative(Sub(a, b));
  }

  /** A square root is at most `bound` exactly when its argument is at most `bound` squared. */
  lemma SqrtAtMost(sqrt: real -> real, x: real, bound: real)
    requires IsSqrt(sqrt)
    requires 0.0 <= x && 0.0 <= bound
    ensures sqrt(x) <= bound ==> x <= Sq(bound)
    ensures x <= Sq(bound) ==> sqrt(x) <= bound
  {
    var s := sqrt(x);
    assert 0.0 <= s && Sq(s) == x;
    if s < bound {
      SquareStrict(s, bound);
    } else if bound < s {
      SquareStrict(bound, s);
    }
  }

  /** A square root is zero exactly at zero. */
  lemma SqrtZero(sqrt: real -> real, x: real)
    requires IsSqrt(sqrt)
    requires 0.0 <= x
    ensures 0.0 <= sqrt(x)
    ensures x == 0.0 ==> sqrt(x) == 0.0
    ensures x != 0.0 ==> 0.0 < sqrt(x)
  {
    var s := sqrt(x);
    assert 0.0 <= s && Sq(s) == x;
    SquareFacts(s);
  }

  /** Cancelling a positive factor. */
  lemma Cancel(n: real, k: real)
    requires 0.0 < k && Mul(n, k) == k
    ensures n == 1.0
  {
    if n < 1.0 {
      MulPos(1.0 - n, k);
    } else if n > 1.0 {
      MulPos(n - 1.0, k);
    }
  }

  /** Dividing by a non-zero `m` and multiplying back is the identity, also on squares. */
  lemma DivSquare(a: real, m: real)
    requires m != 0.0
    ensures Mul(a / m, m) == a
    ensures Mul(Sq(a / m), Sq(m)) == Sq(a)
  {
    var q := a / m;
    assert Mul(q, m) == a;
    assert Mul(Sq(q), Sq(m)) == Sq(Mul(q, m));
  }

  /** Dividing by the length gives a unit vector that scales back to the original. */
  lemma DivByLength(v: Vec3, m: real)
    requires m > 0.0 && Sq(m) == NormSq(v)
    ensures NormSq(Div(v, m)) == 1.0
    ensures Scale(Div(v, m), m) == v
  {
    var d := Div(v, m);
    DivSquare(v.x, m);
    DivSquare(v.y, m);
    DivSquare(v.z, m);
    SquareFacts(m);
    assert Mul(NormSq(d), Sq(m)) == Mul(Sq(d.x), Sq(m)) + Mul(Sq(d.y), Sq(m)) + Mul(Sq(d.z), Sq(m));
    Cancel(NormSq(d), Sq(m));
  }

  /** A vector divided by its length, or the zero vector when the length is zero. */
  function Direction(v: Vec3, sqrt: real -> real): Vec3 {
    var magnitude := sqrt(NormSq(v));
    if magnitude > 0.0 then Div(v, magnitude) else Zero
  }

  /** The direction of a vector is the zero vector exactly when the vector is. */
  lemma DirectionZero(v: Vec3, sqrt: real -> real)
    requires IsSqrt(sqrt)
    ensures Direction(v, sqrt) == Zero <==> v == Zero
  {
    NormSqNonNegative(v);
    SqrtZero(sqrt, NormSq(v));
    if v != Zero {
      DivByLength(v, sqrt(NormSq(v)));
    }
  }

  /** The direction of a non-zero vector has unit length and, scaled by the vector's
      length, gives back the vector. */
  lemma DirectionUnit(v: Vec3, sqrt: real -> real)
    requires IsSqrt(sqrt)
    requires v != Zero
    ensures NormSq(Direction(v, sqrt)) == 1.0
    ensures Scale(Direction(v, sqrt), sqrt(NormSq(v))) == v
  {
    NormSqNonNegative(v);
    SqrtZero(sqrt, NormSq(v));
    DivByLength(v, sqrt(NormSq(v)));
  }
}

=== FILE: safe_distance_box.dfy ===
/** The box-shaped safe-distance sensor of SafeDistanceSensor/SafeDistanceSensor.cpp: the
    front, back and lateral distances (metres) become an overlap box (centimetres) around
    the vehicle, and every tick the vehicles inside it, other than the owner, are sent. */
module SafeDistanceBox {
  import opened Geometry
  import opened Errors

  const MetresToCentimetres: real := 100.0

  /** The attribute defaults, in metres. */
  const DefaultFront: real := 1.0
  const DefaultBack: real := 0.5
  const DefaultLateral: real := 0.5

  /** The fixed vertical placement of the box, in centimetres. */
  const BoxZOffset: real := -100.0
  const BoxZExtent: real := 50.0

  /** The three attributes as given, absent when not set. */
  datatype Attributes = Attributes(front: Option<real>, back: Option<real>, lateral: Option<real>)

  /** The box relative to the sensor: the centre and the half-size along each axis. */
  datatype BoxShape = BoxShape(location: Vec3, extent: Vec3)

  function OrDefault(value: Option<real>, default: real): real {
    if value.Some? then value.value else default
  }

  function Front(a: Attributes): real { OrDefault(a.front, DefaultFront) }
  function Back(a: Attributes): real { OrDefault(a.back, DefaultBack) }
  function Lateral(a: Attributes): real { OrDefault(a.lateral, DefaultLateral) }

  /** Set: centre the box halfway between the back and front limits, half as long as
      their sum, as wide as the lateral distance on each side, and at a fixed height. */
  function Set(a: Attributes): (r: BoxShape)
    ensures r.location.x - r.extent.x == -MetresToCentimetres * Back(a)
    ensures r.location.x + r.extent.x == MetresToCentimetres * Front(a)
    ensures r.location.y == 0.0 && r.extent.y == MetresToCentimetres * Lateral(a)
    ensures r.location.z == BoxZOffset && r.extent.z == BoxZExtent
  {
    var front := Front(a);
    var back := Back(a);
    var locationX := MetresToCentimetres * (front - back) / 2.0;
    var extentX := MetresToCentimetres * (front + back) / 2.0;
    var extentY := MetresToCentimetres * Lateral(a);
    BoxShape(Vec3(locationX, 0.0, BoxZOffset), Vec3(extentX, extentY, BoxZExtent))
  }

  /** With no attribute given, the box reaches 100 cm ahead, 50 cm behind and 50 cm to
      each side: a 75 cm half-length centred 25 cm ahead. */
  lemma DefaultBox()
    ensures Set(Attributes(None, None, None)) == BoxShape(Vec3(25.0, 0.0, -100.0), Vec3(75.0, 50.0, 50.0))
  {
  }

  /** The box is a real box (no negative half-size along X or Y) exactly when the
      distances allow it: back and front do not cross and the lateral distance is not
      negative. */
  lemma SetExtentNonNegative(a: Attributes)
    ensures 0.0 <= Set(a).extent.x <==> 0.0 <= Front(a) + Back(a)
    ensures 0.0 <= Set(a).extent.y <==> 0.0 <= Lateral(a)
  {
  }

  /** SetOwner: the owner's bounding-box half-size is added to the current one. */
  function SetOwner(box: BoxShape, ownerExtent: Vec3): (r: BoxShape)
    ensures r.location == box.location
    ensures Sub(r.extent, box.extent) == ownerExtent
  {
    BoxShape(box.location, Add(ownerExtent, box.extent))
  }

  /** After Set and SetOwner the box reaches along X from the back distance plus the
      owner's half-length behind the sensor to the front distance plus that half-length
      ahead of it; SetOwner applied again grows the box again. */
  lemma OwnedBoxSpan(a: Attributes, ownerExtent: Vec3)
    ensures SetOwner(Set(a), ownerExtent).location.x - SetOwner(Set(a), ownerExtent).extent.x
      == -MetresToCentimetres * Back(a) - ownerExtent.x
    ensures SetOwner(Set(a), ownerExtent).location.x + SetOwner(Set(a), ownerExtent).extent.x
      == MetresToCentimetres * Front(a) + ownerExtent.x
    ensures SetOwner(SetOwner(Set(a), ownerExtent), ownerExtent).extent
      == Add(Set(a).extent, Scale(ownerExtent, 2.0))
  {
  }

  /** The overlapping actors other than the owner, in the same order. */
  function WithoutOwner(overlapping: seq<ActorId>, owner: Option<ActorId>): (r: seq<ActorId>)
    ensures forall a :: a in r <==> a in overlapping && Some(a) != owner
    decreases |overlapping|
  {
    if overlapping == [] then
      []
    else
      var rest := WithoutOwner(overlapping[1..], owner);
      assert forall a :: a in overlapping <==> a == overlapping[0] || a in overlapping[1..];
      if Some(overlapping[0]) == owner then rest else [overlapping[0]] + rest
  }

  /** PrePhysTick: the overlapping vehicles (in the engine's listing order) without the
      owner are sent as one event when there is at least one; otherwise nothing is sent. */
  function PrePhysTick(overlapping: seq<ActorId>, owner: Option<ActorId>): (sent: Option<seq<ActorId>>)
    ensures sent.Some? ==> exists a :: a in overlapping && Some(a) != owner
    ensures sent.None? ==> forall a :: a in overlapping ==> Some(a) == owner
    ensures sent.Some? ==> forall a :: a in sent.value <==> a in overlapping && Some(a) != owner
  {
    var detected := WithoutOwner(overlapping, owner);
    if |detected| > 0 then
      var first := detected[0];
      assert first in overlapping && Some(first) != owner;
      Some(detected)
    else
      assert detected == [];
      None
  }
}

=== FILE: safe_distance_relay.dfy ===
/** The walker relay of the repository-root SafeDistanceSensor.cpp. A sensor records the
    walkers overlapping its sphere with a time-to-live of 3, and every datum it receives
    is stored (when new or newer) and passed on, with the time-to-live one lower, to the
    sensors of the vehicles around it, until the time-to-live runs out. */
module SafeDistanceRelay {
  import opened Geometry
  import opened Errors
  import opened TrackedMaps

  /** A relayed datum: walker id, location, timestamp and remaining time-to-live. */
  datatype WalkerDatum = WalkerDatum(walkerId: int, location: Vec3, timestamp: real, ttl: int)

  type Tracked = map<int, WalkerDatum>

  /** The time-to-live a detection starts with. */
  const OriginTtl: int := 3

  type NodeId = int

  /** One sensor: the vehicle that owns it, and the vehicles overlapping its sphere in the
      order the engine lists them. */
  datatype Node = Node(owner: Option<ActorId>, overlappingVehicles: seq<ActorId>)

  /** The sensors, and which vehicle actors the engine's cast turns into a sensor. */
  datatype Network = Network(nodes: map<NodeId, Node>, sensorOf: map<ActorId, NodeId>)

  /** The per-sensor maps cover exactly the network's sensors, and every cast lands on one. */
  predicate WellFormed(net: Network, maps: map<NodeId, Tracked>) {
    && maps.Keys == net.nodes.Keys
    && forall a :: a in net.sensorOf ==> net.sensorOf[a] in net.nodes
  }

  /** The sensors reached from a list of overlapping vehicles, skipping the owner. */
  function SensorsAmong(net: Network, vehicles: seq<ActorId>, owner: Option<ActorId>): (r: seq<NodeId>)
    ensures forall m :: m in r <==>
      exists a :: a in vehicles && Some(a) != owner && a in net.sensorOf && net.sensorOf[a] == m
    decreases |vehicles|
  {
    if vehicles == [] then
      []
    else
      var a := vehicles[0];
      var rest := SensorsAmong(net, vehicles[1..], owner);
      assert forall x :: x in vehicles <==> x == a || x in vehicles[1..];
      if Some(a) != owner && a in net.sensorOf then [net.sensorOf[a]] + rest else rest
  }

  /** BroadcastWalkerData's recipients for sensor `n`: the sensors of the overlapping
      vehicles other than its owner. */
  function Neighbours(net: Network, n: NodeId): (r: seq<NodeId>)
    requires n in net.nodes
    requires forall a :: a in net.sensorOf ==> net.sensorOf[a] in net.nodes
    ensures forall m :: m in r ==> m in net.nodes
    ensures forall m :: m in r <==>
      exists a :: a in net.nodes[n].overlappingVehicles && Some(a) != net.nodes[n].owner && a in net.sensorOf && net.sensorOf[a] == m
  {
    SensorsAmong(net, net.nodes[n].overlappingVehicles, net.nodes[n].owner)
  }

  /** `m` holds the datum's walker, at least as recent as the datum. */
  predicate Holds(m: Tracked, d: WalkerDatum) {
    d.walkerId in m && d.timestamp <= m[d.walkerId].timestamp
  }

  /** `after` extends `before`: no entry is lost and no timestamp goes back. */
  predicate Extends(before: Tracked, after: Tracked) {
    && before.Keys <= after.Keys
    && (forall k :: k in before ==> before[k].timestamp <= after[k].timestamp)
  }

  /** The storing half of ReceiveWalkerData: insert an absent id, replace a present one
      only with a strictly newer timestamp. */
  function Store(m: Tracked, d: WalkerDatum): (r: Tracked)
    ensures r.Keys == m.Keys + {d.walkerId}
    ensures forall k :: k in m && k != d.walkerId ==> r[k] == m[k]
    ensures d.walkerId !in m ==> r[d.walkerId] == d
    ensures d.walkerId in m && d.timestamp > m[d.walkerId].timestamp ==> r[d.walkerId] == d
    ensures d.walkerId in m && d.timestamp <= m[d.walkerId].timestamp ==> r == m
    ensures Extends(m, r) && Holds(r, d)
  {
    if d.walkerId !in m || d.timestamp > m[d.walkerId].timestamp then m[d.walkerId := d] else m
  }

  /** A datum reaching a sensor. */
  datatype Delivery = Delivery(node: NodeId, datum: WalkerDatum)

  /** What a cascade of receives leaves behind: the maps and every delivery, in order. */
  datatype Cascade = Cascade(maps: map<NodeId, Tracked>, deliveries: seq<Delivery>)

  /** Two data report the same sighting, whatever their time-to-live. */
  predicate SameSighting(a: WalkerDatum, b: WalkerDatum) {
    a.walkerId == b.walkerId && a.location == b.location && a.timestamp == b.timestamp
  }

  /** What every cascade started by datum `d` from `maps` guarantees: the same sensors,
      no entry lost and no timestamp going back, every delivery a copy of the same
      sighting with a time-to-live no higher than `d`'s (and not negative when `d`'s is
      not), every sensor reached holding the walker at least as recent as `d`, no entry
      of any other walker touched, and the walker's entry in every map either the one it
      held before or a copy of `d`'s sighting. */
  predicate Sound(maps: map<NodeId, Tracked>, d: WalkerDatum, c: Cascade) {
    && c.maps.Keys == maps.Keys
    && (forall m :: m in maps ==> Extends(maps[m], c.maps[m]))
    && (forall m :: m in maps ==> c.maps[m].Keys <= maps[m].Keys + {d.walkerId})
    && (forall m, k :: m in maps && k in maps[m] && k != d.walkerId ==> c.maps[m][k] == maps[m][k])
    && (forall m :: m in maps && d.walkerId in c.maps[m] ==>
          || (d.walkerId in maps[m] && c.maps[m][d.walkerId] == maps[m][d.walkerId])
          || SameSighting(c.maps[m][d.walkerId], d))
    && (forall i :: 0 <= i < |c.deliveries| ==>
          c.deliveries[i].node in c.maps && SameSighting(c.deliveries[i].datum, d)
          && c.deliveries[i].datum.ttl <= d.ttl && (0 <= d.ttl ==> 0 <= c.deliveries[i].datum.ttl))
    && (forall i :: 0 <= i < |c.deliveries| ==> Holds(c.maps[c.deliveries[i].node], d))
  }

  /** One cascade after another is still sound. */
  lemma SoundCompose(maps: map<NodeId, Tracked>, d: WalkerDatum, first: Cascade, second: Cascade)
    requires Sound(maps, d, first) && Sound(first.maps, d, second)
    ensures Sound(maps, d, Cascade(second.maps, first.deliveries + second.deliveries))
  {
    var all := first.deliveries + second.deliveries;
    forall i | 0 <= i < |all|
      ensures all[i].node in second.maps && Holds(second.maps[all[i].node], d)
    {
      if i < |first.deliveries| {
        assert all[i] == first.deliveries[i];
        assert Holds(first.maps[all[i].node], d);
      } else {
        assert all[i] == second.deliveries[i - |first.deliveries|];
      }
    }
  }

  /** A cascade sound for a relayed copy with a lower time-to-live is sound for the
      original. */
  lemma SoundForOriginal(maps: map<NodeId, Tracked>, relayed: WalkerDatum, d: WalkerDatum, c: Cascade)
    requires SameSighting(relayed, d) && relayed.ttl <= d.ttl && (0 <= d.ttl ==> 0 <= relayed.ttl)
    requires Sound(maps, relayed, c)
    ensures Sound(maps, d, c)
  {
  }

  /** The remaining number of forwarding hops of a datum. */
  function Hops(d: WalkerDatum): nat {
    if d.ttl > 0 then d.ttl else 0
  }

  /** ReceiveWalkerData at sensor `n`: store, then forward, whether or not the map changed. */
  function Receive(net: Network, maps: map<NodeId, Tracked>, n: NodeId, d: WalkerDatum): (c: Cascade)
    requires WellFormed(net, maps) && n in maps
    ensures Sound(maps, d, c)
    ensures |c.deliveries| >= 1 && c.deliveries[0] == Delivery(n, d)
    ensures d.ttl <= 0 ==> c == Cascade(maps[n := Store(maps[n], d)], [Delivery(n, d)])
    ensures d.ttl > 0 ==> forall m :: m in Neighbours(net, n) ==> Delivery(m, d.(ttl := d.ttl - 1)) in c.deliveries
    decreases Hops(d), 2, 0
  {
    var stored := maps[n := Store(maps[n], d)];
    var forwarded := Forward(net, stored, n, d);
    var first := Cascade(stored, [Delivery(n, d)]);
    StoreSound(maps, n, d);
    SoundCompose(maps, d, first, forwarded);
    ReachesAfterHead(d.ttl > 0, Neighbours(net, n), d.(ttl := d.ttl - 1), first.deliveries, forwarded.deliveries);
    Cascade(forwarded.maps, first.deliveries + forwarded.deliveries)
  }

  /** Storing a datum at one sensor is a sound one-delivery cascade. */
  lemma StoreSound(maps: map<NodeId, Tracked>, n: NodeId, d: WalkerDatum)
    requires n in maps
    ensures Sound(maps, d, Cascade(maps[n := Store(maps[n], d)], [Delivery(n, d)]))
  {
    var stored := maps[n := Store(maps[n], d)];
    assert forall m :: m in maps ==> Extends(maps[m], stored[m]);
    assert Holds(stored[n], d);
  }

  /** A delivery list that reaches every neighbour still does once deliveries are put in
      front of it. */
  lemma ReachesAfterHead(relayed: bool, targets: seq<NodeId>, d: WalkerDatum, head: seq<Delivery>, tail: seq<Delivery>)
    requires relayed ==> forall m :: m in targets ==> Delivery(m, d) in tail
    ensures relayed ==> forall m :: m in targets ==> Delivery(m, d) in head + tail
  {
  }

  /** ForwardWalkerData: nothing once the time-to-live is used up; otherwise a copy with
      one less is broadcast and the datum itself is left as it was. */
  function Forward(net: Network, maps: map<NodeId, Tracked>, n: NodeId, d: WalkerDatum): (c: Cascade)
    requires WellFormed(net, maps) && n in maps
    ensures Sound(maps, d, c)
    ensures d.ttl <= 0 ==> c == Cascade(maps, [])
    ensures d.ttl > 0 ==> forall i :: 0 <= i < |c.deliveries| ==> c.deliveries[i].datum.ttl < d.ttl
    ensures d.ttl > 0 ==> forall m :: m in Neighbours(net, n) ==> Delivery(m, d.(ttl := d.ttl - 1)) in c.deliveries
    decreases Hops(d), 1, 0
  {
    if d.ttl <= 0 then
      Cascade(maps, [])
    else
      var relayed := d.(ttl := d.ttl - 1);
      var c := Broadcast(net, maps, Neighbours(net, n), relayed);
      SoundForOriginal(maps, relayed, d, c);
      c
  }

  /** BroadcastWalkerData: every recipient receives the datum in turn. */
  function Broadcast(net: Network, maps: map<NodeId, Tracked>, recipients: seq<NodeId>, d: WalkerDatum): (c: Cascade)
    requires WellFormed(net, maps) && forall i :: 0 <= i < |recipients| ==> recipients[i] in maps
    ensures Sound(maps, d, c)
    ensures forall m :: m in recipients ==> Delivery(m, d) in c.deliveries
    decreases Hops(d) + 1, 0, |recipients|
  {
    if recipients == [] then
      Cascade(maps, [])
    else
      var first := Receive(net, maps, recipients[0], d);
      var rest := Broadcast(net, first.maps, recipients[1..], d);
      SoundCompose(maps, d, first, rest);
      assert forall m :: m in recipients ==> m == recipients[0] || m in recipients[1..];
      assert first.deliveries[0] == Delivery(recipients[0], d);
      Cascade(rest.maps, first.deliveries + rest.deliveries)
  }

  /** A detection travels at most three hops: every copy of it that reaches a sensor has
      a time-to-live between 0 and 3, that is, it was forwarded 3 - ttl times. */
  lemma DetectionHopsBounded(net: Network, maps: map<NodeId, Tracked>, n: NodeId, walker: ActorId,
                             location: Vec3, now: real)
    requires WellFormed(net, maps) && n in maps
    ensures forall i :: 0 <= i < |Receive(net, maps, n, WalkerDatum(walker, location, now, OriginTtl)).deliveries| ==>
      var hops := OriginTtl - Receive(net, maps, n, WalkerDatum(walker, location, now, OriginTtl)).deliveries[i].datum.ttl;
      0 <= hops <= 3
  {
    var c := Receive(net, maps, n, WalkerDatum(walker, location, now, OriginTtl));
    assert Sound(maps, WalkerDatum(walker, location, now, OriginTtl), c);
  }

  /** A walker overlapping the sensor's sphere, with its location. */
  datatype Sighting = Sighting(walker: ActorId, location: Vec3)

  /** The walkers sighted, the owner excepted. */
  function Detected(sightings: seq<Sighting>, owner: Option<ActorId>): set<ActorId> {
    set s | s in sightings && Some(s.walker) != owner :: s.walker
  }

  /** One sighting: a walker other than the owner starts a cascade with time-to-live 3,
      stamped with the current time; the owner's own sighting starts nothing. */
  function DetectOne(net: Network, maps: map<NodeId, Tracked>, n: NodeId, s: Sighting, now: real): (c: Cascade)
    requires WellFormed(net, maps) && n in maps
    ensures Some(s.walker) == net.nodes[n].owner ==> c == Cascade(maps, [])
    ensures Some(s.walker) != net.nodes[n].owner ==>
              && Sound(maps, WalkerDatum(s.walker, s.location, now, OriginTtl), c)
              && |c.deliveries| >= 1 && c.deliveries[0] == Delivery(n, WalkerDatum(s.walker, s.location, now, OriginTtl))
    ensures forall i :: 0 <= i < |c.deliveries| ==> c.deliveries[i].datum.walkerId == s.walker
  {
    if Some(s.walker) != net.nodes[n].owner then Receive(net, maps, n, WalkerDatum(s.walker, s.location, now, OriginTtl))
    else Cascade(maps, [])
  }

  /** Entry `v` of walker `k` is what a sighting of `k` (not the owner) stores: the
      sighting's location, stamped `now`. */
  predicate SightedEntry(sightings: seq<Sighting>, owner: Option<ActorId>, k: int, v: WalkerDatum, now: real) {
    exists s :: s in sightings && Some(s.walker) != owner && s.walker == k
      && v.walkerId == k && v.location == s.location && v.timestamp == now
  }

  /** Every entry of every map of `after` is the entry it held in `before`, or what a
      sighting stores. */
  predicate StoredFromSightings(before: map<NodeId, Tracked>, after: map<NodeId, Tracked>, sightings: seq<Sighting>,
                                owner: Option<ActorId>, now: real) {
    forall m, k :: m in before && m in after && k in after[m] ==>
      || (k in before[m] && after[m][k] == before[m][k])
      || SightedEntry(sightings, owner, k, after[m][k], now)
  }

  /** What the detection loop guarantees, from `maps` to cascade `c`: the same sensors, no
      entry lost and no timestamp going back, every sighted walker (the owner excepted) in
      sensor `n`'s map at least as recent as `now`, every delivery's time-to-live between
      0 and 3, and every entry of every map the one it held or what a sighting stores. */
  predicate DetectionSound(maps: map<NodeId, Tracked>, c: Cascade, n: NodeId, owner: Option<ActorId>,
                           sightings: seq<Sighting>, now: real) {
    && c.maps.Keys == maps.Keys
    && (forall m :: m in maps ==> Extends(maps[m], c.maps[m]))
    && (forall s :: s in sightings && Some(s.walker) != owner ==>
          n in c.maps && s.walker in c.maps[n] && now <= c.maps[n][s.walker].timestamp)
    && (forall i :: 0 <= i < |c.deliveries| ==> 0 <= c.deliveries[i].datum.ttl <= OriginTtl)
    && StoredFromSightings(maps, c.maps, sightings, owner, now)
  }

  /** The detection loop of PrePhysTick: every sighting except the owner starts a cascade
      with time-to-live 3, stamped with the current time. */
  function DetectAll(net: Network, maps: map<NodeId, Tracked>, n: NodeId, sightings: seq<Sighting>, now: real): (c: Cascade)
    requires WellFormed(net, maps) && n in maps
    ensures DetectionSound(maps, c, n, net.nodes[n].owner, sightings, now)
    decreases |sightings|
  {
    if sightings == [] then
      Cascade(maps, [])
    else
      var first := DetectOne(net, maps, n, sightings[0], now);
      var rest := DetectAll(net, first.maps, n, sightings[1..], now);
      DetectStep(net, maps, n, sightings, now, first, rest);
      Cascade(rest.maps, first.deliveries + rest.deliveries)
  }

  /** One sighting's cascade followed by the rest of the loop is sound for the whole loop. */
  lemma DetectStep(net: Network, maps: map<NodeId, Tracked>, n: NodeId, sightings: seq<Sighting>, now: real,
                   first: Cascade, rest: Cascade)
    requires WellFormed(net, maps) && n in maps && sightings != []
    requires first == DetectOne(net, maps, n, sightings[0], now)
    requires DetectionSound(first.maps, rest, n, net.nodes[n].owner, sightings[1..], now)
    ensures DetectionSound(maps, Cascade(rest.maps, first.deliveries + rest.deliveries), n, net.nodes[n].owner, sightings, now)
  {
    var s := sightings[0];
    var owner := net.nodes[n].owner;
    assert first.maps.Keys == maps.Keys;
    forall m | m in maps ensures Extends(maps[m], rest.maps[m]) {
      assert Extends(maps[m], first.maps[m]);
    }
    assert Some(s.walker) != owner ==> n in first.maps && s.walker in first.maps[n] && now <= first.maps[n][s.walker].timestamp by {
      if Some(s.walker) != owner {
        assert Holds(first.maps[first.deliveries[0].node], WalkerDatum(s.walker, s.location, now, OriginTtl));
      }
    }
    forall x | x in sightings && Some(x.walker) != owner
      ensures n in rest.maps && x.walker in rest.maps[n] && now <= rest.maps[n][x.walker].timestamp
    {
      if x != s {
        assert x in sightings[1..];
      }
    }
    TtlsWithin(first.deliveries, rest.deliveries);
    DetectStepStored(maps, first, rest.maps, s, sightings, owner, now);
  }

  /** Two delivery lists whose time-to-live values lie between 0 and 3 join into one. */
  lemma TtlsWithin(a: seq<Delivery>, b: seq<Delivery>)
    requires forall i :: 0 <= i < |a| ==> 0 <= a[i].datum.ttl <= OriginTtl
    requires forall i :: 0 <= i < |b| ==> 0 <= b[i].datum.ttl <= OriginTtl
    ensures forall i :: 0 <= i < |a + b| ==> 0 <= (a + b)[i].datum.ttl <= OriginTtl
  {
    forall i | |a| <= i < |a + b|
      ensures 0 <= (a + b)[i].datum.ttl <= OriginTtl
    {
      assert (a + b)[i] == b[i - |a|];
    }
  }

  /** Pruning one sensor's map keeps every map's entries stored from before or from a
      sighting. */
  lemma PruneKeepsStored(maps: map<NodeId, Tracked>, after: map<NodeId, Tracked>, n: NodeId,
                         sightings: seq<Sighting>, owner: Option<ActorId>, now: real)
    requires n in after
    requires StoredFromSightings(maps, after, sightings, owner, now)
    ensures StoredFromSightings(maps, after[n := FreshEntries(after[n], Stamp, now)], sightings, owner, now)
  {
    var pruned := after[n := FreshEntries(after[n], Stamp, now)];
    forall m, k | m in maps && m in pruned && k in pruned[m]
      ensures (k in maps[m] && pruned[m][k] == maps[m][k]) || SightedEntry(sightings, owner, k, pruned[m][k], now)
    {
      assert k in after[m] && pruned[m][k] == after[m][k];
    }
  }

  /** The stored-data half of DetectStep. */
  lemma DetectStepStored(maps: map<NodeId, Tracked>, first: Cascade, after: map<NodeId, Tracked>, s: Sighting,
                         sightings: seq<Sighting>, owner: Option<ActorId>, now: real)
    requires sightings != [] && s == sightings[0]
    requires Some(s.walker) == owner ==> first == Cascade(maps, [])
    requires Some(s.walker) != owner ==> Sound(maps, WalkerDatum(s.walker, s.location, now, OriginTtl), first)
    requires StoredFromSightings(first.maps, after, sightings[1..], owner, now)
    ensures StoredFromSightings(maps, after, sightings, owner, now)
  {
    forall m, k | m in maps && m in after && k in after[m]
      ensures (k in maps[m] && after[m][k] == maps[m][k]) || SightedEntry(sightings, owner, k, after[m][k], now)
    {
      var v := after[m][k];
      if SightedEntry(sightings[1..], owner, k, v, now) {
        var x :| x in sightings[1..] && Some(x.walker) != owner && x.walker == k
          && v.walkerId == k && v.location == x.location && v.timestamp == now;
        assert x in sightings;
      } else if Some(s.walker) != owner {
        assert m in first.maps && k in first.maps[m] && v == first.maps[m][k];
        if k == s.walker && !(k in maps[m] && first.maps[m][k] == maps[m][k]) {
          assert SameSighting(first.maps[m][k], WalkerDatum(s.walker, s.location, now, OriginTtl));
          assert s in sightings;
        }
      }
    }
  }

  /** Every delivery of `a + b` concerns a walker of `ids` when every delivery of `a`
      and of `b` does. */
  lemma WalkersAmong(a: seq<Delivery>, b: seq<Delivery>, ids: set<ActorId>)
    requires forall i :: 0 <= i < |a| ==> a[i].datum.walkerId in ids
    requires forall i :: 0 <= i < |b| ==> b[i].datum.walkerId in ids
    ensures forall i :: 0 <= i < |a + b| ==> (a + b)[i].datum.walkerId in ids
  {
    forall i | |a| <= i < |a + b|
      ensures (a + b)[i].datum.walkerId in ids
    {
      assert (a + b)[i] == b[i - |a|];
    }
  }

  /** Only the walkers sighted, the owner excepted, are relayed: the owner's own
      sighting starts no cascade. */
  lemma {:induction false} DetectAllRelaysOnlyDetected(net: Network, maps: map<NodeId, Tracked>, n: NodeId,
                                                       sightings: seq<Sighting>, now: real)
    requires WellFormed(net, maps) && n in maps
    ensures var c := DetectAll(net, maps, n, sightings, now);
            forall i :: 0 <= i < |c.deliveries| ==> c.deliveries[i].datum.walkerId in Detected(sightings, net.nodes[n].owner)
    ensures var c := DetectAll(net, maps, n, sightings, now);
            net.nodes[n].owner.Some? ==>
              forall i :: 0 <= i < |c.deliveries| ==> c.deliveries[i].datum.walkerId != net.nodes[n].owner.value
    decreases |sightings|
  {
    var c := DetectAll(net, maps, n, sightings, now);
    var owner := net.nodes[n].owner;
    var here := Detected(sightings, owner);
    if sightings != [] {
      var s := sightings[0];
      var first := DetectOne(net, maps, n, s, now);
      var rest := DetectAll(net, first.maps, n, sightings[1..], now);
      assert c == Cascade(rest.maps, first.deliveries + rest.deliveries);
      DetectAllRelaysOnlyDetected(net, first.maps, n, sightings[1..], now);
      var sub := Detected(sightings[1..], owner);
      assert sub <= here by {
        assert forall x :: x in sightings[1..] ==> x in sightings;
      }
      assert forall i :: 0 <= i < |DetectAll(net, first.maps, n, sightings[1..], now).deliveries| ==>
               DetectAll(net, first.maps, n, sightings[1..], now).deliveries[i].datum.walkerId in Detected(sightings[1..], net.nodes[n].owner);
      assert forall i :: 0 <= i < |rest.deliveries| ==> rest.deliveries[i].datum.walkerId in sub;
      if Some(s.walker) != owner {
        var d := WalkerDatum(s.walker, s.location, now, OriginTtl);
        assert Sound(maps, d, first);
        assert s.walker in here by {
          assert s in sightings;
        }
        assert forall i :: 0 <= i < |first.deliveries| ==> first.deliveries[i].datum.walkerId == s.walker;
      } else {
        assert first.deliveries == [];
      }
      assert forall i :: 0 <= i < |first.deliveries| ==> first.deliveries[i].datum.walkerId in here;
      assert forall i :: 0 <= i < |rest.deliveries| ==> rest.deliveries[i].datum.walkerId in here;
      var all := first.deliveries + rest.deliveries;
      WalkersAmong(first.deliveries, rest.deliveries, here);
      assert c.deliveries == all;
    }
    assert owner.Some? ==> owner.value !in here;
  }

  /** Only the walkers sighted, the owner excepted, gain or change entries, in any
      sensor's map: the owner's own sighting adds no entry. */
  lemma {:induction false} DetectAllKeepsOthers(net: Network, maps: map<NodeId, Tracked>, n: NodeId,
                                                sightings: seq<Sighting>, now: real)
    requires WellFormed(net, maps) && n in maps
    ensures var c := DetectAll(net, maps, n, sightings, now);
            forall m :: m in maps ==> c.maps[m].Keys <= maps[m].Keys + Detected(sightings, net.nodes[n].owner)
    ensures var c := DetectAll(net, maps, n, sightings, now);
            forall m, k :: m in maps && k in maps[m] && k !in Detected(sightings, net.nodes[n].owner) ==>
              k in c.maps[m] && c.maps[m][k] == maps[m][k]
    ensures var c := DetectAll(net, maps, n, sightings, now);
            net.nodes[n].owner.Some? ==>
              forall m :: m in maps && net.nodes[n].owner.value !in maps[m] ==> net.nodes[n].owner.value !in c.maps[m]
    decreases |sightings|
  {
    var c := DetectAll(net, maps, n, sightings, now);
    var owner := net.nodes[n].owner;
    var here := Detected(sightings, owner);
    if sightings != [] {
      var s := sightings[0];
      var first := DetectOne(net, maps, n, s, now);
      var rest := DetectAll(net, first.maps, n, sightings[1..], now);
      assert c == Cascade(rest.maps, first.deliveries + rest.deliveries);
      DetectAllKeepsOthers(net, first.maps, n, sightings[1..], now);
      assert Detected(sightings[1..], owner) <= here by {
        assert forall x :: x in sightings[1..] ==> x in sightings;
      }
      assert Some(s.walker) != owner ==> s.walker in here;
      assert first.maps.Keys == maps.Keys;
      forall m | m in maps
        ensures c.maps[m].Keys <= maps[m].Keys + here
      {
        assert first.maps[m].Keys <= maps[m].Keys + here;
      }
      forall m, k | m in maps && k in maps[m] && k !in here
        ensures k in c.maps[m] && c.maps[m][k] == maps[m][k]
      {
        assert k in first.maps[m] && first.maps[m][k] == maps[m][k];
      }
    }
    assert owner.Some? ==> owner.value !in here;
  }

  function Stamp(d: WalkerDatum): real {
    d.timestamp
  }

  /** PrePhysTick of sensor `n`: detect and relay, then prune the sensor's own map of the
      entries older than 20 seconds. Other sensors' maps only gain entries or newer ones. */
  function PrePhysTick(net: Network, maps: map<NodeId, Tracked>, n: NodeId, sightings: seq<Sighting>, now: real): (r: map<NodeId, Tracked>)
    requires WellFormed(net, maps) && n in maps
    ensures r.Keys == maps.Keys
    ensures forall m :: m in maps && m != n ==> Extends(maps[m], r[m])
    ensures forall k :: k in r[n] ==> !IsStale(r[n][k].timestamp, now)
    ensures forall k :: k in maps[n] && !IsStale(maps[n][k].timestamp, now) ==>
      k in r[n] && maps[n][k].timestamp <= r[n][k].timestamp
    ensures forall s :: s in sightings && Some(s.walker) != net.nodes[n].owner ==> s.walker in r[n]
    // Every sensor, this one included, gains entries only for the walkers sighted, the
    // owner excepted; an entry of any other walker is the one it held before.
    ensures forall m :: m in maps ==> r[m].Keys <= maps[m].Keys + Detected(sightings, net.nodes[n].owner)
    ensures forall m, k :: m in maps && k in r[m] && k !in Detected(sightings, net.nodes[n].owner) ==>
              k in maps[m] && r[m][k] == maps[m][k]
    ensures net.nodes[n].owner.Some? ==>
              forall m :: m in maps && net.nodes[n].owner.value !in maps[m] ==> net.nodes[n].owner.value !in r[m]
    // Every entry any sensor holds afterwards is the one it held before, or a sighting's
    // location stamped with the current time.
    ensures StoredFromSightings(maps, r, sightings, net.nodes[n].owner, now)
  {
    var c := DetectAll(net, maps, n, sightings, now);
    DetectAllKeepsOthers(net, maps, n, sightings, now);
    PruneKeepsStored(maps, c.maps, n, sightings, net.nodes[n].owner, now);
    c.maps[n := FreshEntries(c.maps[n], Stamp, now)]
  }
}

=== FILE: scenario_executor.dfy ===
/** ScenarioExecutor (ScenarioTown02Maker/scenario/scenario_executor.py): an actor
    registry filled while a scenario configuration is played out, with per-actor
    failure containment, and a cleanup that runs before any escaping exception is
    re-raised.

    The engine and the opaque helpers are reduced to their answers, given with each
    configuration entry: whether a blueprint exists, which actor a spawn request
    returns, which sensors attaching returns or whether it raises, whether route
    assignment raises. What the executor asks of the engine is returned as a list of
    calls. */
module ScenarioExecutor {
  import opened Geometry
  import opened Errors
  import opened WalkerUtils
  import opened WalkerRouteManager

  /** Speed given to a walker whose configuration names none, in metres per second. */
  const DefaultWalkerSpeed: real := 1.4
  /** Gap to the leading vehicle when the scenario configuration names none, in metres. */
  const DefaultLeadingDistance: real := 10.0
  /** Share of pedestrians allowed to cross the road. */
  const PedestriansCrossFactor: real := 1.0

  /** The spectator entry. `sensors` is what attaching the sensor set returns, or the
      failure raised by attaching it or by the tick that follows (either leaves the
      sensors unregistered); it is consulted only when `attachSensors` is set. */
  datatype SpectatorConfig = SpectatorConfig(spawnPoint: Field<int>, attachSensors: bool,
                                             sensors: Result<seq<ActorId>>)

  /** One vehicle entry together with the answers it receives: whether its blueprint
      exists, the actor spawned (None when the engine returns nothing), and the sensors
      attached, or the failure raised by attaching them or by the tick that follows.
      Route assignment is the last step of an entry, so whether it raises changes
      nothing the executor keeps. */
  datatype VehicleConfig = VehicleConfig(spawnPoint: Field<int>, modelFound: bool, spawned: Option<ActorId>,
                                         attachSensors: bool, sensors: Result<seq<ActorId>>)

  /** One walker entry: its spawn index, its route (`go_to_point`; None when the key is
      missing) and optional speed, and the engine's answers to the blueprint lookup and
      the spawn request. */
  datatype WalkerConfig = WalkerConfig(spawnPoint: Field<int>, goToPoint: Option<seq<int>>, speed: Option<real>,
                                       blueprintFound: bool, spawned: Option<ActorId>)

  /** A scenario. A missing, null or empty spectator entry is `None`. A missing vehicle
      or walker list is read as empty; a null one cannot be iterated. */
  datatype Config = Config(spectator: Option<SpectatorConfig>, vehicles: Field<seq<VehicleConfig>>,
                           walkers: Field<seq<WalkerConfig>>, leadingDistance: Option<real>)

  /** The engine calls outside the per-entry handlers that may raise: setting the
      pedestrian cross factor or the tick after it, and listing the world's actors. */
  datatype WorldFaults = WorldFaults(crossFactor: Option<Failure>, actorListing: Option<Failure>)

  /** Calls the executor makes on the engine and on the traffic manager. */
  datatype EngineCall =
    | MoveSpectator(to: Transform)
    | Autopilot(vehicle: ActorId)
    | LeadingDistance(vehicle: ActorId, metres: real)
    | AssignRoute(vehicle: ActorId)
    | CrossFactor(factor: real)
    | Stop(actor: ActorId)
    | Destroy(actor: ActorId)

  /** The executor's state: the registry of spawned actors, and the walker manager's
      entries. */
  datatype Executor = Executor(registry: seq<ActorId>, managed: seq<WalkerTask>)

  /** Subscripting the spawn-point list with a configuration value: a missing key raises
      KeyError, None raises TypeError, and an integer follows Python's list subscript. */
  function SpawnPointAt(spawnPoints: seq<Transform>, f: Field<int>): (r: Result<Transform>)
    ensures f.Absent? ==> r == Err(MissingKey)
    ensures f.Null? ==> r == Err(NullSubscript)
    ensures f.Given? ==> (r.Ok? <==> -|spawnPoints| <= f.value < |spawnPoints|)
    ensures f.Given? && r.Err? ==> ClassOf(r.failure) == IndexError
    ensures r.Ok? && 0 <= f.value ==> r.value == spawnPoints[f.value]
    ensures |spawnPoints| == 0 ==> r.Err?
  {
    match f
    case Absent => Err(MissingKey)
    case Null => Err(NullSubscript)
    case Given(i) =>
      if -|spawnPoints| <= i < |spawnPoints| then Ok(PyIndex(spawnPoints, i)) else Err(IndexOutOfRange(i))
  }

  /** The actor a vehicle entry spawns, when it gets that far. */
  function VehicleSpawned(spawnPoints: seq<Transform>, cfg: VehicleConfig): Option<ActorId> {
    if SpawnPointAt(spawnPoints, cfg.spawnPoint).Ok? && cfg.modelFound then cfg.spawned else None
  }

  /** The walker a walker entry spawns, when it gets that far. Walkers are placed on the
      map's own spawn points, which the executor does not share. */
  function WalkerSpawned(mapSpawnPoints: seq<Transform>, cfg: WalkerConfig): Option<ActorId> {
    if cfg.spawnPoint.Absent? then None
    else
      var index := if cfg.spawnPoint.Null? then None else Some(cfg.spawnPoint.value);
      var w := SpawnWalker(cfg.blueprintFound, index, mapSpawnPoints, cfg.spawned);
      if w.Ok? then Some(w.value.actor) else None
  }

  /** One pass of the vehicle loop. Whatever fails is caught; the vehicle stays
      registered once spawned, and later steps are skipped. */
  function VehicleStep(st: Executor, spawnPoints: seq<Transform>, cfg: VehicleConfig, leading: real)
    : (r: (Executor, seq<EngineCall>))
    ensures r.0.managed == st.managed
    ensures |r.0.registry| >= |st.registry| && r.0.registry[..|st.registry|] == st.registry
    ensures VehicleSpawned(spawnPoints, cfg).None? ==> r.0 == st && r.1 == []
    ensures VehicleSpawned(spawnPoints, cfg).Some? ==>
              && |r.0.registry| > |st.registry|
              && r.0.registry[|st.registry|] == VehicleSpawned(spawnPoints, cfg).value
              && (Autopilot(cfg.spawned.value) in r.1 <==> !cfg.attachSensors || cfg.sensors.Ok?)
    // The vehicle is registered, followed by its sensors when attaching them succeeded.
    ensures VehicleSpawned(spawnPoints, cfg).Some? && cfg.attachSensors && cfg.sensors.Ok? ==>
              r.0.registry == st.registry + [VehicleSpawned(spawnPoints, cfg).value] + cfg.sensors.value
    ensures VehicleSpawned(spawnPoints, cfg).Some? && !(cfg.attachSensors && cfg.sensors.Ok?) ==>
              r.0.registry == st.registry + [VehicleSpawned(spawnPoints, cfg).value]
  {
    var spawnPoint := SpawnPointAt(spawnPoints, cfg.spawnPoint);
    if spawnPoint.Err? || !cfg.modelFound || cfg.spawned.None? then (st, [])
    else
      var vehicle := cfg.spawned.value;
      var registered := st.(registry := st.registry + [vehicle]);
      if cfg.attachSensors && cfg.sensors.Err? then (registered, [])
      else
        var withSensors := if cfg.attachSensors then registered.(registry := registered.registry + cfg.sensors.value)
                           else registered;
        assert withSensors.registry[..|st.registry|] == st.registry;
        (withSensors, [Autopilot(vehicle), LeadingDistance(vehicle, leading), AssignRoute(vehicle)])
  }

  /** The speed a walker entry asks for, or the default. */
  function WalkerSpeed(cfg: WalkerConfig): real {
    if cfg.speed.Some? then cfg.speed.value else DefaultWalkerSpeed
  }

  /** A walker entry that spawns and names a route. */
  predicate Routed(mapSpawnPoints: seq<Transform>, cfg: WalkerConfig) {
    WalkerSpawned(mapSpawnPoints, cfg).Some? && cfg.goToPoint.Some?
  }

  /** The manager entry a routed walker entry becomes. */
  function ManagedTask(mapSpawnPoints: seq<Transform>, cfg: WalkerConfig): WalkerTask
    requires Routed(mapSpawnPoints, cfg)
  {
    WalkerTask(WalkerSpawned(mapSpawnPoints, cfg).value, cfg.goToPoint.value, 0, WalkerSpeed(cfg))
  }

  /** `t` is the manager entry of some walker entry that spawned with a route. */
  predicate FromRoutedEntry(t: WalkerTask, mapSpawnPoints: seq<Transform>, cfgs: seq<WalkerConfig>) {
    exists i :: 0 <= i < |cfgs| && Routed(mapSpawnPoints, cfgs[i]) && t == ManagedTask(mapSpawnPoints, cfgs[i])
  }

  /** Reference definition of what the walker loop hands to the manager: one entry per
      walker that spawns with a route, in configuration order. */
  function RoutedTasks(mapSpawnPoints: seq<Transform>, cfgs: seq<WalkerConfig>): seq<WalkerTask>
    decreases |cfgs|
  {
    if |cfgs| == 0 then []
    else (if Routed(mapSpawnPoints, cfgs[0]) then [ManagedTask(mapSpawnPoints, cfgs[0])] else [])
         + RoutedTasks(mapSpawnPoints, cfgs[1..])
  }

  /** One pass of the walker loop. A spawned walker is registered first; it is handed to
      the walker manager only when its entry has a route. */
  function WalkerStep(st: Executor, mapSpawnPoints: seq<Transform>, cfg: WalkerConfig): (r: Executor)
    ensures |r.registry| >= |st.registry| && r.registry[..|st.registry|] == st.registry
    ensures WalkerSpawned(mapSpawnPoints, cfg).None? ==> r == st
    ensures WalkerSpawned(mapSpawnPoints, cfg).Some? ==>
              && r.registry == st.registry + [WalkerSpawned(mapSpawnPoints, cfg).value]
              && (cfg.goToPoint.None? ==> r.managed == st.managed)
              && (cfg.goToPoint.Some? ==>
                    r.managed == st.managed + [WalkerTask(WalkerSpawned(mapSpawnPoints, cfg).value, cfg.goToPoint.value, 0,
                                                          WalkerSpeed(cfg))])
  {
    match WalkerSpawned(mapSpawnPoints, cfg)
    case None => st
    case Some(walker) =>
      var registered := st.(registry := st.registry + [walker]);
      match cfg.goToPoint
      case None => registered
      case Some(route) =>
        registered.(managed := AddWalker(st.managed, walker, route, WalkerSpeed(cfg)))
  }

  function RunVehicles(st: Executor, spawnPoints: seq<Transform>, cfgs: seq<VehicleConfig>, leading: real)
    : (r: (Executor, seq<EngineCall>))
    ensures r.0.managed == st.managed
    ensures |r.0.registry| >= |st.registry| && r.0.registry[..|st.registry|] == st.registry
    decreases |cfgs|
  {
    if |cfgs| == 0 then (st, [])
    else
      var (st1, calls1) := VehicleStep(st, spawnPoints, cfgs[0], leading);
      var (st2, calls2) := RunVehicles(st1, spawnPoints, cfgs[1..], leading);
      assert st2.registry[..|st.registry|] == st1.registry[..|st1.registry|][..|st.registry|];
      (st2, calls1 + calls2)
  }

  function RunWalkers(st: Executor, mapSpawnPoints: seq<Transform>, cfgs: seq<WalkerConfig>): (r: Executor)
    ensures |r.registry| >= |st.registry| && r.registry[..|st.registry|] == st.registry
    // The manager gains exactly the routed walkers, in order.
    ensures r.managed == st.managed + RoutedTasks(mapSpawnPoints, cfgs)
    decreases |cfgs|
  {
    if |cfgs| == 0 then st
    else
      var st1 := WalkerStep(st, mapSpawnPoints, cfgs[0]);
      var st2 := RunWalkers(st1, mapSpawnPoints, cfgs[1..]);
      assert st2.registry[..|st.registry|] == st1.registry[..|st1.registry|][..|st.registry|];
      var head := if Routed(mapSpawnPoints, cfgs[0]) then [ManagedTask(mapSpawnPoints, cfgs[0])] else [];
      assert st1.managed == st.managed + head;
      assert st2.managed == st.managed + (head + RoutedTasks(mapSpawnPoints, cfgs[1..]));
      st2
  }

  /** Every walker that spawns with a route is handed to the manager by the loop. */
  lemma {:induction false} RoutedTasksComplete(mapSpawnPoints: seq<Transform>, cfgs: seq<WalkerConfig>, i: int)
    requires 0 <= i < |cfgs| && Routed(mapSpawnPoints, cfgs[i])
    ensures ManagedTask(mapSpawnPoints, cfgs[i]) in RoutedTasks(mapSpawnPoints, cfgs)
    decreases |cfgs|
  {
    if i > 0 {
      assert cfgs[1..][i - 1] == cfgs[i];
      RoutedTasksComplete(mapSpawnPoints, cfgs[1..], i - 1);
    }
  }

  /** Every entry the loop hands to the manager comes from a walker that spawned with a
      route. */
  lemma {:induction false} RoutedTasksSound(mapSpawnPoints: seq<Transform>, cfgs: seq<WalkerConfig>, t: WalkerTask)
    ensures t in RoutedTasks(mapSpawnPoints, cfgs) ==> FromRoutedEntry(t, mapSpawnPoints, cfgs)
    decreases |cfgs|
  {
    if |cfgs| > 0 && t in RoutedTasks(mapSpawnPoints, cfgs) {
      if Routed(mapSpawnPoints, cfgs[0]) && t == ManagedTask(mapSpawnPoints, cfgs[0]) {
      } else {
        assert t in RoutedTasks(mapSpawnPoints, cfgs[1..]);
        RoutedTasksSound(mapSpawnPoints, cfgs[1..], t);
        var j :| 0 <= j < |cfgs| - 1 && Routed(mapSpawnPoints, cfgs[1..][j]) && t == ManagedTask(mapSpawnPoints, cfgs[1..][j]);
        assert cfgs[1..][j] == cfgs[j + 1];
      }
    }
  }

  /** A failure in one vehicle entry does not keep any other from being processed: every
      vehicle that spawns is in the registry after the loop. */
  lemma {:induction false} EverySpawnedVehicleRegistered(st: Executor, spawnPoints: seq<Transform>,
                                                          cfgs: seq<VehicleConfig>, leading: real, i: int)
    requires 0 <= i < |cfgs| && VehicleSpawned(spawnPoints, cfgs[i]).Some?
    ensures VehicleSpawned(spawnPoints, cfgs[i]).value in RunVehicles(st, spawnPoints, cfgs, leading).0.registry
    decreases |cfgs|
  {
    var (st1, _) := VehicleStep(st, spawnPoints, cfgs[0], leading);
    var r := RunVehicles(st, spawnPoints, cfgs, leading).0;
    assert r == RunVehicles(st1, spawnPoints, cfgs[1..], leading).0;
    if i == 0 {
      var v := VehicleSpawned(spawnPoints, cfgs[0]).value;
      assert st1.registry[|st.registry|] == v;
      assert r.registry[..|st1.registry|] == st1.registry;
      assert r.registry[|st.registry|] == v;
    } else {
      assert cfgs[1..][i - 1] == cfgs[i];
      EverySpawnedVehicleRegistered(st1, spawnPoints, cfgs[1..], leading, i - 1);
    }
  }

  /** Every walker that spawns is in the registry after the loop, whatever happens to the
      other entries. */
  lemma {:induction false} EverySpawnedWalkerRegistered(st: Executor, mapSpawnPoints: seq<Transform>,
                                                         cfgs: seq<WalkerConfig>, i: int)
    requires 0 <= i < |cfgs| && WalkerSpawned(mapSpawnPoints, cfgs[i]).Some?
    ensures WalkerSpawned(mapSpawnPoints, cfgs[i]).value in RunWalkers(st, mapSpawnPoints, cfgs).registry
    decreases |cfgs|
  {
    var st1 := WalkerStep(st, mapSpawnPoints, cfgs[0]);
    var r := RunWalkers(st, mapSpawnPoints, cfgs);
    assert r == RunWalkers(st1, mapSpawnPoints, cfgs[1..]);
    if i == 0 {
      var w := WalkerSpawned(mapSpawnPoints, cfgs[0]).value;
      assert st1.registry[|st.registry|] == w;
      assert r.registry[..|st1.registry|] == st1.registry;
      assert r.registry[|st.registry|] == w;
    } else {
      assert cfgs[1..][i - 1] == cfgs[i];
      EverySpawnedWalkerRegistered(st1, mapSpawnPoints, cfgs[1..], i - 1);
    }
  }

  /** A spawned walker is handed to the walker manager exactly when its entry has a
      route; without one it is registered but not managed. */
  lemma WalkerManagedIffRouted(st: Executor, mapSpawnPoints: seq<Transform>, cfg: WalkerConfig)
    requires WalkerSpawned(mapSpawnPoints, cfg).Some?
    ensures var r := WalkerStep(st, mapSpawnPoints, cfg);
            && WalkerSpawned(mapSpawnPoints, cfg).value in r.registry
            && (|r.managed| == |st.managed| + 1 <==> cfg.goToPoint.Some?)
  {
  }

  /** What the engine reports about each actor at cleanup time. */
  datatype Engine = Engine(alive: set<ActorId>, hasStop: set<ActorId>, stopFails: set<ActorId>,
                           destroyFails: set<ActorId>)

  /** What cleanup does for one actor that is alive: `stop` is called when the actor has
      it, and `destroy` follows unless that stop raised. */
  predicate TornDown(a: ActorId, calls: seq<EngineCall>, engine: Engine) {
    a in engine.alive ==>
      && (a in engine.hasStop ==> Stop(a) in calls)
      && (a !in engine.hasStop || a !in engine.stopFails ==> Destroy(a) in calls)
  }

  /** Every actor of `actors` is torn down by `calls`. */
  predicate AllTornDown(actors: seq<ActorId>, calls: seq<EngineCall>, engine: Engine) {
    forall a :: a in actors ==> TornDown(a, calls, engine)
  }

  /** Every destroy of an actor that has `stop` comes right after that actor's stop. */
  predicate StopsPrecedeDestroys(calls: seq<EngineCall>, hasStop: set<ActorId>) {
    forall i :: 0 <= i < |calls| && calls[i].Destroy? && calls[i].actor in hasStop ==>
      0 < i && calls[i - 1] == Stop(calls[i].actor)
  }

  /** Joining two call lists in which stops precede destroys keeps that order. */
  lemma JoinKeepsStopsFirst(head: seq<EngineCall>, rest: seq<EngineCall>, hasStop: set<ActorId>)
    requires StopsPrecedeDestroys(head, hasStop) && StopsPrecedeDestroys(rest, hasStop)
    ensures StopsPrecedeDestroys(head + rest, hasStop)
  {
    var all := head + rest;
    forall i | |head| <= i < |all| && all[i].Destroy? && all[i].actor in hasStop
      ensures 0 < i && all[i - 1] == Stop(all[i].actor)
    {
      assert all[i] == rest[i - |head|];
      assert 0 < i - |head|;
      assert all[i - 1] == rest[i - |head| - 1];
    }
  }

  /** cleanup: every registered actor that is alive is stopped (when it can be) and then
      destroyed. A failure is caught per actor; a failing stop skips that actor's
      destroy. A destroyed actor is no longer alive, so an actor registered twice is
      destroyed once. */
  function CleanupCalls(registry: seq<ActorId>, engine: Engine): (calls: seq<EngineCall>)
    ensures forall c :: c in calls ==> (c.Stop? || c.Destroy?) && c.actor in registry && c.actor in engine.alive
    ensures forall a :: a in registry && a in engine.alive ==> Stop(a) in calls || Destroy(a) in calls
    // Stop always comes before destroy, and a failing stop means no destroy.
    ensures StopsPrecedeDestroys(calls, engine.hasStop)
    ensures forall a :: Destroy(a) in calls ==> a !in engine.hasStop || a !in engine.stopFails
    ensures forall a :: Stop(a) in calls ==> a in engine.hasStop
    // A live actor with no stop, or whose stop succeeds, is destroyed.
    ensures AllTornDown(registry, calls, engine)
    decreases |registry|
  {
    if |registry| == 0 then []
    else
      var a := registry[0];
      assert forall v :: v in registry[1..] ==> v in registry;
      if a !in engine.alive then CleanupCalls(registry[1..], engine)
      else
        var stop := if a in engine.hasStop then [Stop(a)] else [];
        if a in engine.hasStop && a in engine.stopFails then
          var rest := CleanupCalls(registry[1..], engine);
          JoinKeepsStopsFirst(stop, rest, engine.hasStop);
          stop + rest
        else
          var after := if a in engine.destroyFails then engine else engine.(alive := engine.alive - {a});
          var rest := CleanupCalls(registry[1..], after);
          var head := stop + [Destroy(a)];
          assert StopsPrecedeDestroys(head, engine.hasStop);
          JoinKeepsStopsFirst(head, rest, engine.hasStop);
          DestroyStepTearsDown(registry, engine, after, head, rest);
          head + rest
  }

  /** A live first actor whose stop does not fail is torn down by its own calls; the
      others are torn down by the rest of the cleanup, run against the engine after it. */
  lemma DestroyStepTearsDown(registry: seq<ActorId>, engine: Engine, after: Engine,
                             head: seq<EngineCall>, rest: seq<EngineCall>)
    requires |registry| > 0 && registry[0] in engine.alive
    requires !(registry[0] in engine.hasStop && registry[0] in engine.stopFails)
    requires head == (if registry[0] in engine.hasStop then [Stop(registry[0])] else []) + [Destroy(registry[0])]
    requires after.hasStop == engine.hasStop && after.stopFails == engine.stopFails
    requires after.alive == engine.alive || after.alive == engine.alive - {registry[0]}
    requires AllTornDown(registry[1..], rest, after)
    ensures AllTornDown(registry, head + rest, engine)
  {
    var a := registry[0];
    forall x | x in registry ensures TornDown(x, head + rest, engine) {
      if x == a {
        assert Destroy(a) in head;
        assert a in engine.hasStop ==> Stop(a) in head;
      } else {
        assert x in registry[1..];
        assert TornDown(x, rest, after);
      }
    }
  }

  /** cleanup, on the executor: the calls it makes, and the registry emptied whatever
      happened. */
  function Cleanup(st: Executor, engine: Engine): (r: (Executor, seq<EngineCall>))
    ensures r.0.registry == [] && r.0.managed == st.managed
    ensures st.registry == [] ==> r.1 == []
    ensures forall c :: c in r.1 ==> (c.Stop? || c.Destroy?) && c.actor in st.registry
  {
    (st.(registry := []), CleanupCalls(st.registry, engine))
  }

  /** A second cleanup finds nothing to do. */
  lemma CleanupIdempotent(st: Executor, engine: Engine, later: Engine)
    ensures var once := Cleanup(st, engine).0;
            Cleanup(once, later) == (once, [])
  {
  }

  /** The outcome of execute: the executor afterwards, the calls made (the cleanup's
      calls included), the calls made by the cleanup alone when it ran, and the
      exception re-raised, if any. */
  datatype Execution = Execution(state: Executor, calls: seq<EngineCall>, cleanup: Option<seq<EngineCall>>,
                                 raised: Option<Failure>)

  /** The spectator set-up and the spawn-point check, the first part of execute that
      can raise. Sensors attached to the spectator are registered before the
      spawn-point check, so a failure of that check leaves them registered for the
      cleanup. */
  datatype Prepared = Prepared(state: Executor, calls: seq<EngineCall>, failure: Option<Failure>)

  function Prepare(st: Executor, spawnPoints: seq<Transform>, spectator: Option<SpectatorConfig>): (r: Prepared)
    ensures |spawnPoints| == 0 ==> r.failure.Some?
    ensures spectator.None? ==> r.state == st && r.calls == [] && (r.failure.Some? <==> |spawnPoints| == 0)
    ensures spectator.None? && |spawnPoints| == 0 ==> r.failure == Some(NoSpawnPoints)
    ensures r.state.managed == st.managed
    ensures |r.state.registry| >= |st.registry| && r.state.registry[..|st.registry|] == st.registry
    ensures forall c :: c in r.calls ==> c.MoveSpectator?
    // The spectator is moved once its spawn point is found; a failure of that lookup,
    // or of attaching the sensors, is what escapes.
    ensures spectator.Some? ==>
              var at := SpawnPointAt(spawnPoints, spectator.value.spawnPoint);
              && (at.Err? ==> r.failure == Some(at.failure) && r.state == st && r.calls == [])
              && (at.Ok? ==> r.calls == [MoveSpectator(at.value)])
              && (at.Ok? && spectator.value.attachSensors && spectator.value.sensors.Err? ==>
                    r.failure == Some(spectator.value.sensors.failure) && r.state == st)
              && (at.Ok? && !(spectator.value.attachSensors && spectator.value.sensors.Err?) ==> r.failure.None?)
    // Its sensors are registered before the spawn-point check.
    ensures spectator.Some? && SpawnPointAt(spawnPoints, spectator.value.spawnPoint).Ok? ==>
              r.state.registry == st.registry
                                  + (if spectator.value.attachSensors && spectator.value.sensors.Ok?
                                     then spectator.value.sensors.value else [])
  {
    var spectated :=
      if spectator.None? then Prepared(st, [], None)
      else
        var cfg := spectator.value;
        match SpawnPointAt(spawnPoints, cfg.spawnPoint)
        case Err(f) => Prepared(st, [], Some(f))
        case Ok(to) =>
          if !cfg.attachSensors then Prepared(st, [MoveSpectator(to)], None)
          else if cfg.sensors.Err? then Prepared(st, [MoveSpectator(to)], Some(cfg.sensors.failure))
          else Prepared(st.(registry := st.registry + cfg.sensors.value), [MoveSpectator(to)], None);
    if spectated.failure.Some? then spectated
    else if |spawnPoints| == 0 then spectated.(failure := Some(NoSpawnPoints))
    else spectated
  }

  /** The outermost handler of execute: cleanup runs on the state reached, and the
      exception is re-raised. */
  function Abort(state: Executor, calls: seq<EngineCall>, f: Failure, engine: Engine): (r: Execution)
    ensures r.raised == Some(f) && r.cleanup.Some?
    ensures r.state.registry == [] && r.state.managed == state.managed
    ensures r.calls == calls + r.cleanup.value
    ensures forall a :: a in state.registry && a in engine.alive ==>
              Stop(a) in r.cleanup.value || Destroy(a) in r.cleanup.value
    ensures AllTornDown(state.registry, r.cleanup.value, engine)
  {
    var (cleaned, cleanupCalls) := Cleanup(state, engine);
    Execution(cleaned, calls + cleanupCalls, Some(cleanupCalls), Some(f))
  }

  /** Every vehicle that a vehicle entry spawns is in `registry`. */
  predicate VehiclesRegistered(registry: seq<ActorId>, spawnPoints: seq<Transform>, cfgs: seq<VehicleConfig>) {
    forall i :: 0 <= i < |cfgs| && VehicleSpawned(spawnPoints, cfgs[i]).Some? ==>
      VehicleSpawned(spawnPoints, cfgs[i]).value in registry
  }

  /** Every walker that a walker entry spawns is in `registry`. */
  predicate WalkersRegistered(registry: seq<ActorId>, mapSpawnPoints: seq<Transform>, cfgs: seq<WalkerConfig>) {
    forall i :: 0 <= i < |cfgs| && WalkerSpawned(mapSpawnPoints, cfgs[i]).Some? ==>
      WalkerSpawned(mapSpawnPoints, cfgs[i]).value in registry
  }

  /** Every vehicle that a vehicle entry spawns is torn down by `calls`. */
  predicate VehiclesTornDown(calls: seq<EngineCall>, engine: Engine, spawnPoints: seq<Transform>, cfgs: seq<VehicleConfig>) {
    forall i :: 0 <= i < |cfgs| && VehicleSpawned(spawnPoints, cfgs[i]).Some? ==>
      TornDown(VehicleSpawned(spawnPoints, cfgs[i]).value, calls, engine)
  }

  /** Every walker that a walker entry spawns is torn down by `calls`. */
  predicate WalkersTornDown(calls: seq<EngineCall>, engine: Engine, mapSpawnPoints: seq<Transform>, cfgs: seq<WalkerConfig>) {
    forall i :: 0 <= i < |cfgs| && WalkerSpawned(mapSpawnPoints, cfgs[i]).Some? ==>
      TornDown(WalkerSpawned(mapSpawnPoints, cfgs[i]).value, calls, engine)
  }

  /** A configuration list: a missing one is empty. */
  function EntriesOf<T>(f: Field<seq<T>>): seq<T> {
    if f.Given? then f.value else []
  }

  /** The part of execute after the spawn-point check: the vehicle loop, the cross
      factor, the walker loop and the actor listing, each of which may end the run. */
  function RunScenario(prepared: Executor, calls: seq<EngineCall>, spawnPoints: seq<Transform>,
                       mapSpawnPoints: seq<Transform>, config: Config, faults: WorldFaults, engine: Engine)
    : (r: Execution)
    ensures r.cleanup.Some? <==> r.raised.Some?
    ensures r.raised.Some? ==> r.state.registry == []
    ensures r.raised.None? <==> && !config.vehicles.Null? && faults.crossFactor.None?
                                && !config.walkers.Null? && faults.actorListing.None?
    ensures config.vehicles.Null? ==> r.raised == Some(NotIterable) && r.state.managed == prepared.managed
    ensures !config.vehicles.Null? ==>
              && CrossFactor(PedestriansCrossFactor) in r.calls
              && (faults.crossFactor.Some? ==> r.raised == faults.crossFactor && r.state.managed == prepared.managed)
    ensures r.raised.Some? ==> AllTornDown(prepared.registry, r.cleanup.value, engine)
    // A failure after the vehicle loop tears down every vehicle that spawned, and one
    // after the walker loop every walker too.
    ensures r.raised.Some? && !config.vehicles.Null? ==>
              VehiclesTornDown(r.cleanup.value, engine, spawnPoints, EntriesOf(config.vehicles))
    ensures r.raised.Some? && !config.vehicles.Null? && faults.crossFactor.None? && !config.walkers.Null? ==>
              WalkersTornDown(r.cleanup.value, engine, mapSpawnPoints, EntriesOf(config.walkers))
    ensures r.raised.None? ==> |r.state.registry| >= |prepared.registry| && r.state.registry[..|prepared.registry|] == prepared.registry
    // A run that does not raise registers every vehicle and walker that spawned, and
    // hands the manager exactly the routed walkers.
    ensures r.raised.None? ==>
              && VehiclesRegistered(r.state.registry, spawnPoints, EntriesOf(config.vehicles))
              && WalkersRegistered(r.state.registry, mapSpawnPoints, EntriesOf(config.walkers))
              && r.state.managed == prepared.managed + RoutedTasks(mapSpawnPoints, EntriesOf(config.walkers))
  {
    if config.vehicles.Null? then Abort(prepared, calls, NotIterable, engine)
    else
      var leading := if config.leadingDistance.Some? then config.leadingDistance.value else DefaultLeadingDistance;
      var vehicles := EntriesOf(config.vehicles);
      var (st2, vehicleCalls) := RunVehicles(prepared, spawnPoints, vehicles, leading);
      assert forall a :: a in prepared.registry ==> a in st2.registry by {
        assert forall k :: 0 <= k < |prepared.registry| ==> st2.registry[k] == prepared.registry[k];
      }
      assert VehiclesRegistered(st2.registry, spawnPoints, vehicles) by {
        forall i | 0 <= i < |vehicles| && VehicleSpawned(spawnPoints, vehicles[i]).Some?
          ensures VehicleSpawned(spawnPoints, vehicles[i]).value in st2.registry
        {
          EverySpawnedVehicleRegistered(prepared, spawnPoints, vehicles, leading, i);
        }
      }
      var after := calls + vehicleCalls + [CrossFactor(PedestriansCrossFactor)];
      AfterVehicles(st2, after, mapSpawnPoints, config, faults, engine)
  }

  /** The part of execute after the vehicle loop: the cross factor and its tick, the
      walker loop, and the actor listing. */
  function AfterVehicles(st: Executor, calls: seq<EngineCall>, mapSpawnPoints: seq<Transform>, config: Config,
                         faults: WorldFaults, engine: Engine): (r: Execution)
    ensures r.cleanup.Some? <==> r.raised.Some?
    ensures r.raised.Some? ==> r.state.registry == []
    ensures r.raised.None? <==> faults.crossFactor.None? && !config.walkers.Null? && faults.actorListing.None?
    ensures faults.crossFactor.Some? ==> r.raised == faults.crossFactor && r.state.managed == st.managed
    ensures r.raised.Some? ==>
              forall a :: a in st.registry && a in engine.alive ==> Stop(a) in r.cleanup.value || Destroy(a) in r.cleanup.value
    ensures r.raised.None? ==> |r.state.registry| >= |st.registry| && r.state.registry[..|st.registry|] == st.registry
    ensures forall c :: c in calls ==> c in r.calls
    ensures r.raised.Some? ==> AllTornDown(st.registry, r.cleanup.value, engine)
    // A run that does not raise registers every walker that spawned and hands the
    // manager exactly the routed ones.
    ensures r.raised.None? ==> && (forall a :: a in st.registry ==> a in r.state.registry)
                               && WalkersRegistered(r.state.registry, mapSpawnPoints, EntriesOf(config.walkers))
                               && r.state.managed == st.managed + RoutedTasks(mapSpawnPoints, EntriesOf(config.walkers))
    // A failure of the actor listing cleans up the walkers the loop spawned too.
    ensures r.raised.Some? && faults.crossFactor.None? && !config.walkers.Null? ==>
              WalkersTornDown(r.cleanup.value, engine, mapSpawnPoints, EntriesOf(config.walkers))
  {
    if faults.crossFactor.Some? then Abort(st, calls, faults.crossFactor.value, engine)
    else if config.walkers.Null? then Abort(st, calls, NotIterable, engine)
    else
      var walkers := EntriesOf(config.walkers);
      var st3 := RunWalkers(st, mapSpawnPoints, walkers);
      assert forall a :: a in st.registry ==> a in st3.registry by {
        assert forall k :: 0 <= k < |st.registry| ==> st3.registry[k] == st.registry[k];
      }
      assert WalkersRegistered(st3.registry, mapSpawnPoints, walkers) by {
        forall i | 0 <= i < |walkers| && WalkerSpawned(mapSpawnPoints, walkers[i]).Some?
          ensures WalkerSpawned(mapSpawnPoints, walkers[i]).value in st3.registry
        {
          EverySpawnedWalkerRegistered(st, mapSpawnPoints, walkers, i);
        }
      }
      if faults.actorListing.Some? then Abort(st3, calls, faults.actorListing.value, engine)
      else Execution(st3, calls, None, None)
  }

  /** execute. `spawnPoints` is the list the executor was built with, used for the
      spectator and the vehicles; `mapSpawnPoints` is the map's own list, used by
      spawn_walker. Any exception that escapes the per-entry handlers is caught once at
      the outermost level, where cleanup runs and the exception is re-raised. */
  function Execute(st: Executor, spawnPoints: seq<Transform>, mapSpawnPoints: seq<Transform>, config: Config,
                   faults: WorldFaults, engine: Engine): (r: Execution)
    // Cleanup runs exactly when an exception escapes, and then it empties the registry.
    ensures r.cleanup.Some? <==> r.raised.Some?
    ensures r.raised.Some? ==> r.state.registry == []
    // What can escape: the spectator set-up or the spawn-point check, a null entry list,
    // the cross-factor call or its tick, and the actor listing.
    ensures r.raised.None? <==> && Prepare(st, spawnPoints, config.spectator).failure.None?
                                && !config.vehicles.Null? && faults.crossFactor.None?
                                && !config.walkers.Null? && faults.actorListing.None?
    ensures Prepare(st, spawnPoints, config.spectator).failure.Some? ==>
              r.raised == Prepare(st, spawnPoints, config.spectator).failure && r.state.managed == st.managed
    ensures Prepare(st, spawnPoints, config.spectator).failure.None? && config.vehicles.Null? ==>
              r.raised == Some(NotIterable) && r.state.managed == st.managed
    ensures Prepare(st, spawnPoints, config.spectator).failure.None? && !config.vehicles.Null? ==>
              && CrossFactor(PedestriansCrossFactor) in r.calls
              && (faults.crossFactor.Some? ==> r.raised == faults.crossFactor && r.state.managed == st.managed)
    // The cleanup tears down every live actor registered before the failure: the ones
    // registered before the run, the spectator's sensors, and what the loops spawned.
    ensures r.raised.Some? ==> AllTornDown(st.registry, r.cleanup.value, engine)
    ensures r.raised.Some? ==> AllTornDown(Prepare(st, spawnPoints, config.spectator).state.registry, r.cleanup.value, engine)
    ensures r.raised.Some? && Prepare(st, spawnPoints, config.spectator).failure.None? && !config.vehicles.Null? ==>
              VehiclesTornDown(r.cleanup.value, engine, spawnPoints, EntriesOf(config.vehicles))
    ensures r.raised.Some? && Prepare(st, spawnPoints, config.spectator).failure.None? && !config.vehicles.Null?
            && faults.crossFactor.None? && !config.walkers.Null? ==>
              WalkersTornDown(r.cleanup.value, engine, mapSpawnPoints, EntriesOf(config.walkers))
    // Without spawn points nothing is spawned: the run raises before the loops.
    ensures |spawnPoints| == 0 ==> r.raised.Some? && forall c :: c in r.calls ==> !c.Autopilot?
    // A run that does not raise only adds to the registry: every vehicle and walker that
    // spawned, and the manager gains exactly the routed walkers.
    ensures r.raised.None? ==> |r.state.registry| >= |st.registry| && r.state.registry[..|st.registry|] == st.registry
    ensures r.raised.None? ==>
              && VehiclesRegistered(r.state.registry, spawnPoints, EntriesOf(config.vehicles))
              && WalkersRegistered(r.state.registry, mapSpawnPoints, EntriesOf(config.walkers))
              && r.state.managed == st.managed + RoutedTasks(mapSpawnPoints, EntriesOf(config.walkers))
  {
    var prepared := Prepare(st, spawnPoints, config.spectator);
    assert forall a :: a in st.registry ==> a in prepared.state.registry by {
      assert forall k :: 0 <= k < |st.registry| ==> prepared.state.registry[k] == st.registry[k];
    }
    if prepared.failure.Some? then Abort(prepared.state, prepared.calls, prepared.failure.value, engine)
    else
      var r := RunScenario(prepared.state, prepared.calls, spawnPoints, mapSpawnPoints, config, faults, engine);
      assert r.raised.None? ==> r.state.registry[..|st.registry|] == r.state.registry[..|prepared.state.registry|][..|st.registry|];
      r
  }

  /** Entries appended after `before` by the walker loop each come from a walker that
      spawned with a route. */
  lemma AppendedFromRoutes(mapSpawnPoints: seq<Transform>, cfgs: seq<WalkerConfig>, before: seq<WalkerTask>,
                           managed: seq<WalkerTask>)
    ensures managed == before + RoutedTasks(mapSpawnPoints, cfgs) ==>
              forall k :: |before| <= k < |managed| ==> FromRoutedEntry(managed[k], mapSpawnPoints, cfgs)
  {
    if managed == before + RoutedTasks(mapSpawnPoints, cfgs) {
      forall k | |before| <= k < |managed|
        ensures FromRoutedEntry(managed[k], mapSpawnPoints, cfgs)
      {
        assert managed[k] in RoutedTasks(mapSpawnPoints, cfgs) by {
          assert managed[k] == RoutedTasks(mapSpawnPoints, cfgs)[k - |before|];
        }
        RoutedTasksSound(mapSpawnPoints, cfgs, managed[k]);
      }
    }
  }

  /** After a run that does not raise, a walker is in the manager's new entries exactly
      when it spawned from an entry with a route. */
  lemma ExecuteManagesRoutedWalkers(st: Executor, spawnPoints: seq<Transform>, mapSpawnPoints: seq<Transform>,
                                    config: Config, faults: WorldFaults, engine: Engine)
    ensures var r := Execute(st, spawnPoints, mapSpawnPoints, config, faults, engine);
            var walkers := EntriesOf(config.walkers);
            r.raised.None? ==>
              && (forall i :: 0 <= i < |walkers| && Routed(mapSpawnPoints, walkers[i]) ==>
                    ManagedTask(mapSpawnPoints, walkers[i]) in r.state.managed)
              && (forall k :: |st.managed| <= k < |r.state.managed| ==>
                    FromRoutedEntry(r.state.managed[k], mapSpawnPoints, walkers))
  {
    var r := Execute(st, spawnPoints, mapSpawnPoints, config, faults, engine);
    var walkers := EntriesOf(config.walkers);
    if r.raised.None? {
      forall i | 0 <= i < |walkers| && Routed(mapSpawnPoints, walkers[i])
        ensures ManagedTask(mapSpawnPoints, walkers[i]) in r.state.managed
      {
        RoutedTasksComplete(mapSpawnPoints, walkers, i);
      }
      AppendedFromRoutes(mapSpawnPoints, walkers, st.managed, r.state.managed);
    }
  }
}

=== FILE: tracked_maps.dfy ===
/** What the walker-tracking sensors share about their maps: entries keyed by walker
    id, dropped once they are older than 20 seconds, and read in the map's own
    iteration order. */
module TrackedMaps {
  import opened Geometry

  /** What a broadcaster passes on for one entry of the map it relays: the entry's key,
      its location and its timestamp. */
  datatype Report = Report(id: int, location: Vec3, timestamp: real)

  /** Entries older than this many seconds are dropped. */
  const StaleAfter: real := 20.0

  /** An entry stamped at `stamp` is stale at time `now`. */
  predicate IsStale(stamp: real, now: real) {
    now - stamp > StaleAfter
  }

  /** Reference definition of pruning: the entries that are not stale. */
  function FreshEntries<V>(m: map<int, V>, stamp: V -> real, now: real): map<int, V> {
    map k | k in m && !IsStale(stamp(m[k]), now) :: m[k]
  }

  /** The pruning step of PrePhysTick: one pass over the map, in its iteration order
      `order`, collects the ids of stale entries, and a second pass removes them. */
  method PruneStale<V>(m: map<int, V>, order: seq<int>, stamp: V -> real, now: real) returns (r: map<int, V>)
    requires Enumerates(order, m)
    ensures forall k :: k in r <==> k in m && !IsStale(stamp(m[k]), now)
    ensures forall k :: k in r ==> r[k] == m[k]
    ensures r == FreshEntries(m, stamp, now)
  {
    var toRemove: seq<int> := [];
    var j := 0;
    while j < |order|
      invariant 0 <= j <= |order|
      invariant forall k :: k in toRemove ==> k in m && IsStale(stamp(m[k]), now)
      invariant forall i :: 0 <= i < j && IsStale(stamp(m[order[i]]), now) ==> order[i] in toRemove
    {
      var id := order[j];
      if IsStale(stamp(m[id]), now) {
        toRemove := toRemove + [id];
      }
      j := j + 1;
    }
    r := m;
    var i := 0;
    while i < |toRemove|
      invariant 0 <= i <= |toRemove|
      invariant forall k :: k in r <==> k in m && k !in toRemove[..i]
      invariant forall k :: k in r ==> r[k] == m[k]
    {
      assert toRemove[..i + 1] == toRemove[..i] + [toRemove[i]];
      r := r - {toRemove[i]};
      i := i + 1;
    }
    assert toRemove[..i] == toRemove;
  }

  /** `order` lists every key of the map exactly once: an iteration order of the map. */
  predicate Enumerates<V>(order: seq<int>, m: map<int, V>) {
    && (forall i, j :: 0 <= i < j < |order| ==> order[i] != order[j])
    && (forall i :: 0 <= i < |order| ==> order[i] in m)
    && (forall k :: k in m ==> k in order)
  }

  /** The ids named by a list of reports. */
  function ReportedIds(reports: seq<Report>): set<int> {
    set i | 0 <= i < |reports| :: reports[i].id
  }

  /** The ids of a report list are the first report's id and the ids of the rest. */
  lemma ReportedIdsSplit(reports: seq<Report>)
    requires |reports| > 0
    ensures ReportedIds(reports) == {reports[0].id} + ReportedIds(reports[1..])
    ensures forall i :: 1 <= i < |reports| ==> reports[i] == reports[1..][i - 1]
  {
    forall k | k in ReportedIds(reports) ensures k in {reports[0].id} + ReportedIds(reports[1..]) {
      var i :| 0 <= i < |reports| && reports[i].id == k;
      if i > 0 { assert reports[1..][i - 1].id == k; }
    }
  }

  /** Some report names walker `k` with exactly this location and timestamp. */
  predicate Reported(reports: seq<Report>, k: int, location: Vec3, timestamp: real) {
    exists i :: 0 <= i < |reports| && reports[i] == Report(k, location, timestamp)
  }

  /** A report list is its first report followed by the rest. */
  lemma ReportedSplit(reports: seq<Report>, k: int, location: Vec3, timestamp: real)
    requires |reports| > 0
    ensures Reported(reports, k, location, timestamp) <==>
              reports[0] == Report(k, location, timestamp) || Reported(reports[1..], k, location, timestamp)
  {
    if Reported(reports[1..], k, location, timestamp) {
      var i :| 0 <= i < |reports[1..]| && reports[1..][i] == Report(k, location, timestamp);
      assert reports[i + 1] == Report(k, location, timestamp);
    }
    if reports[0] != Report(k, location, timestamp) && Reported(reports, k, location, timestamp) {
      var i :| 0 <= i < |reports| && reports[i] == Report(k, location, timestamp);
      assert reports[1..][i - 1] == Report(k, location, timestamp);
    }
  }

  /** The reports a broadcaster sends for a map: one per entry, in the map's iteration
      order, each with the entry's key, location and timestamp. */
  function Snapshot<V>(m: map<int, V>, order: seq<int>, location: V -> Vec3, stamp: V -> real): (r: seq<Report>)
    requires Enumerates(order, m)
    ensures |r| == |m|
    ensures forall i :: 0 <= i < |r| ==>
              r[i].id in m && r[i].location == location(m[r[i].id]) && r[i].timestamp == stamp(m[r[i].id])
    ensures ReportedIds(r) == m.Keys
  {
    EnumerationLength(order, m);
    var r := seq(|order|, i requires 0 <= i < |order| => Report(order[i], location(m[order[i]]), stamp(m[order[i]])));
    assert ReportedIds(r) == m.Keys by {
      forall k | k in m ensures k in ReportedIds(r) {
        var i :| 0 <= i < |order| && order[i] == k;
        assert r[i].id == k;
      }
      forall k | k in ReportedIds(r) ensures k in m {
        var i :| 0 <= i < |r| && r[i].id == k;
        assert order[i] == k;
      }
    }
    r
  }

  /** A report of a snapshot carries the location and timestamp of the entry it names. */
  lemma ReportedInSnapshot<V>(m: map<int, V>, order: seq<int>, location: V -> Vec3, stamp: V -> real,
                              k: int, l: Vec3, t: real)
    requires Enumerates(order, m)
    ensures Reported(Snapshot(m, order, location, stamp), k, l, t) ==> k in m && l == location(m[k]) && t == stamp(m[k])
  {
    var reports := Snapshot(m, order, location, stamp);
    if Reported(reports, k, l, t) {
      var i :| 0 <= i < |reports| && reports[i] == Report(k, l, t);
    }
  }

  /** An iteration order has exactly as many elements as the map has entries. */
  lemma EnumerationLength<V>(order: seq<int>, m: map<int, V>)
    requires Enumerates(order, m)
    ensures |order| == |m|
  {
    var keys := set i | 0 <= i < |order| :: order[i];
    forall k | k in m ensures k in keys {
      var i :| 0 <= i < |order| && order[i] == k;
    }
    assert keys == m.Keys;
    DistinctCardinality(order);
  }

  /** A sequence without repetitions has as many distinct elements as it is long. */
  lemma {:induction false} DistinctCardinality(s: seq<int>)
    requires forall i, j :: 0 <= i < j < |s| ==> s[i] != s[j]
    ensures |set i | 0 <= i < |s| :: s[i]| == |s|
  {
    if |s| > 0 {
      var tail := s[1..];
      DistinctCardinality(tail);
      var whole := set i | 0 <= i < |s| :: s[i];
      var rest := set i | 0 <= i < |tail| :: tail[i];
      assert whole == rest + {s[0]} by {
        forall x | x in whole ensures x in rest + {s[0]} {
          var i :| 0 <= i < |s| && s[i] == x;
          if i > 0 { assert tail[i - 1] == x; }
        }
      }
      assert s[0] !in rest;
    }
  }
}

=== FILE: v2v_concluded.dfy ===
/** The V2V broadcaster of ConcludedSensor/V2VBroadcast.cpp. Once a second it copies
    every entry of its own vehicle's walker map into the maps of the sensors of nearby
    vehicles, through the flagged UpdateWalkerData of WDS_withLogs with the flag false. */
module V2VConcluded {
  import opened Geometry
  import opened Errors
  import opened TrackedMaps
  import opened FlaggedWalkerDetection
  import opened V2VTopology

  /** SetOwner: the owner is always recorded; for a valid owner the broadcaster then walks
      the owner's attached actors and keeps the last valid walker-detection sensor, and
      keeps its previous sensor when there is none. */
  method SetOwner(b: Broadcaster, newOwner: Option<Vehicle>) returns (r: Broadcaster)
    ensures newOwner.None? ==> r.owner == None
    ensures newOwner.Some? ==> r.owner == Some(newOwner.value.id)
    ensures r.radius == b.radius && r.sphereRadius == b.sphereRadius && r.timerRunning == b.timerRunning
    ensures newOwner.None? || !newOwner.value.valid ==> r.sensor == b.sensor
    ensures newOwner.Some? && newOwner.value.valid ==>
      forall i :: LastValidSensorAt(newOwner.value.attached, i) ==> r.sensor == Some(newOwner.value.attached[i].sensor)
    ensures newOwner.Some? && (forall i :: 0 <= i < |newOwner.value.attached| ==> !IsValidSensor(newOwner.value.attached[i])) ==>
      r.sensor == b.sensor
  {
    r := b.(owner := if newOwner.Some? then Some(newOwner.value.id) else None);
    if newOwner.None? || !newOwner.value.valid {
      return;
    }
    var attached := newOwner.value.attached;
    ghost var last := -1;
    for i := 0 to |attached|
      invariant -1 <= last < i
      invariant r.owner == Some(newOwner.value.id)
      invariant r.radius == b.radius && r.sphereRadius == b.sphereRadius && r.timerRunning == b.timerRunning
      invariant last == -1 ==> r.sensor == b.sensor && forall j :: 0 <= j < i ==> !IsValidSensor(attached[j])
      invariant last >= 0 ==> IsValidSensor(attached[last]) && r.sensor == Some(attached[last].sensor)
      invariant forall j :: last < j < i ==> !IsValidSensor(attached[j])
    {
      if IsValidSensor(attached[i]) {
        r := r.(sensor := Some(attached[i].sensor));
        last := i;
      }
    }
  }

  /** BeginPlay: the broadcast timer starts whether or not there is an owner. */
  function BeginPlay(b: Broadcaster): (r: Broadcaster)
    ensures r.timerRunning
    ensures r.owner == b.owner && r.sensor == b.sensor && r.radius == b.radius && r.sphereRadius == b.sphereRadius
  {
    b.(timerRunning := true)
  }

  /** The walker maps of all detection sensors in the world. */
  type World = map<SensorId, FlaggedMap>

  /** Relay the same reports into each target sensor in turn. */
  function RelayToAll(world: World, targets: seq<SensorId>, reports: seq<Report>): (r: World)
    requires forall i :: 0 <= i < |targets| ==> targets[i] in world
    ensures r.Keys == world.Keys
    ensures forall s :: s in world && s !in targets ==> r[s] == world[s]
    ensures forall s :: s in world ==> ReceivedFrom(world[s], r[s], reports)
    ensures forall s :: s in targets ==> Covers(r[s], reports)
    decreases |targets|
  {
    if targets == [] then
      world
    else
      var t := targets[0];
      var next := world[t := Relay(world[t], reports)];
      var r := RelayToAll(next, targets[1..], reports);
      assert forall s :: s in targets <==> s == t || s in targets[1..];
      RelayIntoOne(world, t, reports, r);
      r
  }

  /** Relaying into sensor `t` first and then into others keeps every sensor's map
      received from the reports, and leaves `t` covering them. */
  lemma RelayIntoOne(world: World, t: SensorId, reports: seq<Report>, r: World)
    requires t in world
    requires r.Keys == world.Keys
    requires forall s :: s in world ==> ReceivedFrom(world[t := Relay(world[t], reports)][s], r[s], reports)
    ensures forall s :: s in world ==> ReceivedFrom(world[s], r[s], reports)
    ensures Covers(r[t], reports)
  {
    var next := world[t := Relay(world[t], reports)];
    RelayExtends(world[t], reports);
    forall s | s in world ensures ReceivedFrom(world[s], r[s], reports) {
      ReceivedFromTransitive(world[s], next[s], r[s], reports);
    }
    CoversExtended(next[t], r[t], reports);
  }

  /** A sensor whose map already holds every report at least as new is left as it is,
      however often the reports reach it. */
  lemma {:induction false} RelayToAllKeepsUpToDate(world: World, targets: seq<SensorId>, reports: seq<Report>, s: SensorId)
    requires forall i :: 0 <= i < |targets| ==> targets[i] in world
    requires s in world
    requires forall i :: 0 <= i < |reports| ==> reports[i].id in world[s] && reports[i].timestamp <= world[s][reports[i].id].timestamp
    ensures RelayToAll(world, targets, reports)[s] == world[s]
    decreases |targets|
  {
    if targets != [] {
      var t := targets[0];
      var next := world[t := Relay(world[t], reports)];
      if t == s {
        RelayOfOlderIsIdentity(world[s], reports);
      }
      assert next[s] == world[s];
      RelayToAllKeepsUpToDate(next, targets[1..], reports, s);
    }
  }

  /** A world whose every map received the snapshot of `sender` took entries only from `sender`. */
  lemma WorldGainsFromSnapshot(world: World, r: World, sender: FlaggedMap, order: seq<int>)
    requires Enumerates(order, sender)
    requires world.Keys <= r.Keys
    requires forall s :: s in world ==> ReceivedFrom(world[s], r[s], Snapshot(sender, order, Location, Stamp))
    ensures forall s :: s in world ==> GainsOnlyFrom(world[s], r[s], sender)
  {
    forall s | s in world ensures GainsOnlyFrom(world[s], r[s], sender) {
      GainsFromSnapshot(world[s], r[s], sender, order);
    }
  }

  /** What sending the snapshot of `sender` to `targets` does to the world: the sender's own
      map and the maps of sensors not targeted stay as they are, every map is extended and
      gains entries only from the sender, and every target covers the snapshot. */
  lemma RelayToAllOutcome(world: World, targets: seq<SensorId>, sender: SensorId, order: seq<int>)
    requires forall i :: 0 <= i < |targets| ==> targets[i] in world
    requires sender in world && Enumerates(order, world[sender])
    ensures var reports := Snapshot(world[sender], order, Location, Stamp);
      var r := RelayToAll(world, targets, reports);
      && r.Keys == world.Keys
      && r[sender] == world[sender]
      && (forall s :: s in world && s !in targets ==> r[s] == world[s])
      && (forall s :: s in world ==> Extends(world[s], r[s]))
      && (forall s :: s in targets ==> Covers(r[s], reports))
      && (forall s :: s in world ==> GainsOnlyFrom(world[s], r[s], world[sender]))
  {
    var reports := Snapshot(world[sender], order, Location, Stamp);
    RelayToAllKeepsUpToDate(world, targets, reports, sender);
    WorldGainsFromSnapshot(world, RelayToAll(world, targets, reports), world[sender], order);
  }

  /** The sender's map is set and not empty, so PeriodicBroadcast goes past its early returns. */
  predicate Sends(b: Broadcaster, world: World) {
    b.sensor.Some? && b.sensor.value in world && |world[b.sensor.value]| > 0
  }

  /** Every broadcaster on a recipient vehicle has its sensor set to a sensor of the world;
      the source dereferences it without a check. */
  predicate TargetsResolvable(b: Broadcaster, world: World, nearby: seq<Vehicle>) {
    forall t :: t in Targets(Recipients(nearby, b.owner)) ==> t.Some? && t.value in world
  }

  /** PeriodicBroadcast. `nearby` lists the vehicles overlapping the broadcast sphere and
      `order` the iteration order of the sender's map. */
  function PeriodicBroadcast(b: Broadcaster, world: World, nearby: seq<Vehicle>, order: seq<int>): (r: World)
    requires b.sensor.Some? ==> b.sensor.value in world && Enumerates(order, world[b.sensor.value])
    requires Sends(b, world) ==> TargetsResolvable(b, world, nearby)
    ensures b.sensor.None? ==> r == world
    ensures b.sensor.Some? && |world[b.sensor.value]| == 0 ==> r == world
    ensures r.Keys == world.Keys
    ensures b.sensor.Some? ==> r[b.sensor.value] == world[b.sensor.value]
    ensures forall s :: s in world && Some(s) !in Targets(Recipients(nearby, b.owner)) ==> r[s] == world[s]
    ensures forall s :: s in world ==> Extends(world[s], r[s])
    ensures Sends(b, world) ==> forall s :: Some(s) in Targets(Recipients(nearby, b.owner)) ==>
      s in r && Covers(r[s], Snapshot(world[b.sensor.value], order, Location, Stamp))
    ensures b.sensor.Some? ==> forall s :: s in world ==> GainsOnlyFrom(world[s], r[s], world[b.sensor.value])
  {
    if !Sends(b, world) then
      world
    else
      var sender := b.sensor.value;
      var reports := Snapshot(world[sender], order, Location, Stamp);
      var targets := Resolved(Targets(Recipients(nearby, b.owner)));
      RelayToAllOutcome(world, targets, sender, order);
      RelayToAll(world, targets, reports)
  }

  /** After a broadcast, every sensor of a broadcaster on an overlapping vehicle other than
      the owner holds every walker of the sender's map, at least as recent as the sender's. */
  lemma BroadcastReachesRecipients(b: Broadcaster, world: World, nearby: seq<Vehicle>, order: seq<int>,
                                   v: Vehicle, s: SensorId)
    requires b.sensor.Some? && b.sensor.value in world && Enumerates(order, world[b.sensor.value])
    requires Sends(b, world) ==> TargetsResolvable(b, world, nearby)
    requires v in nearby && Some(v.id) != b.owner && BroadcastActor(Some(s)) in v.attached
    ensures Sends(b, world) ==> s in world
    ensures forall k :: k in world[b.sensor.value] ==>
      k in PeriodicBroadcast(b, world, nearby, order)[s]
      && world[b.sensor.value][k].timestamp <= PeriodicBroadcast(b, world, nearby, order)[s][k].timestamp
  {
    var sender := b.sensor.value;
    if Sends(b, world) {
      RecipientTargeted(nearby, b.owner, v, Some(s));
      var r := PeriodicBroadcast(b, world, nearby, order);
      CoversSnapshot(world[sender], order, r[s]);
    }
  }
}

=== FILE: v2v_root.dfy ===
/** The V2V broadcaster of the repository root (V2VBroadcast.cpp). It finds its sensor in
    BeginPlay rather than SetOwner, and relays through the three-argument UpdateWalkerData
    of ConcludedSensor/WalkerDetectionSensor.cpp. */
module V2VRoot {
  import opened Geometry
  import opened Errors
  import opened TrackedMaps
  import opened WalkerDetection
  import opened V2VTopology

  /** SetOwner only records the owner. */
  function SetOwner(b: Broadcaster, newOwner: Option<ActorId>): (r: Broadcaster)
    ensures r.owner == newOwner
    ensures r.sensor == b.sensor && r.radius == b.radius && r.sphereRadius == b.sphereRadius
      && r.timerRunning == b.timerRunning
  {
    b.(owner := newOwner)
  }

  /** SetWalkerDetectionSensor: the sensor is replaced, unset included. */
  function SetWalkerDetectionSensor(b: Broadcaster, sensor: Option<SensorId>): (r: Broadcaster)
    ensures r.sensor == sensor
    ensures r.owner == b.owner && r.radius == b.radius && r.sphereRadius == b.sphereRadius
      && r.timerRunning == b.timerRunning
  {
    b.(sensor := sensor)
  }

  /** BeginPlay: without an owner, return before anything else, timer included. With one,
      take the first walker-detection sensor among the owner's attached actors (keeping the
      current sensor when there is none) and start the broadcast timer. */
  method BeginPlay(b: Broadcaster, ownerAttached: seq<Attached>) returns (r: Broadcaster)
    ensures b.owner.None? ==> r == b
    ensures b.owner.Some? ==> r.timerRunning
    ensures r.owner == b.owner && r.radius == b.radius && r.sphereRadius == b.sphereRadius
    ensures b.owner.Some? ==> forall i :: FirstSensorAt(ownerAttached, i) ==> r.sensor == Some(ownerAttached[i].sensor)
    ensures (forall i :: 0 <= i < |ownerAttached| ==> !ownerAttached[i].DetectionSensor?) ==> r.sensor == b.sensor
  {
    r := b;
    if b.owner.None? {
      return;
    }
    var i := 0;
    while i < |ownerAttached|
      invariant 0 <= i <= |ownerAttached|
      invariant r == b
      invariant forall j :: 0 <= j < i ==> !ownerAttached[j].DetectionSensor?
    {
      if ownerAttached[i].DetectionSensor? {
        r := SetWalkerDetectionSensor(r, Some(ownerAttached[i].sensor));
        assert FirstSensorAt(ownerAttached, i);
        break;
      }
      i := i + 1;
    }
    r := r.(timerRunning := true);
  }

  /** The walker maps of all detection sensors in the world. */
  type World = map<SensorId, Tracked>

  /** Merge the same reports into each target sensor in turn. */
  function MergeToAll(world: World, targets: seq<SensorId>, reports: seq<Report>): (r: World)
    requires forall i :: 0 <= i < |targets| ==> targets[i] in world
    ensures r.Keys == world.Keys
    ensures forall s :: s in world && s !in targets ==> r[s] == world[s]
    ensures forall s :: s in world ==> ReceivedFrom(world[s], r[s], reports)
    ensures forall s :: s in targets ==> Covers(r[s], reports)
    decreases |targets|
  {
    if targets == [] then
      world
    else
      var t := targets[0];
      var next := world[t := Merge(world[t], reports)];
      var r := MergeToAll(next, targets[1..], reports);
      assert forall s :: s in targets <==> s == t || s in targets[1..];
      MergeIntoOne(world, t, reports, r);
      r
  }

  /** Merging into sensor `t` first and then into others keeps every sensor's map received
      from the reports, and leaves `t` covering them. */
  lemma MergeIntoOne(world: World, t: SensorId, reports: seq<Report>, r: World)
    requires t in world
    requires r.Keys == world.Keys
    requires forall s :: s in world ==> ReceivedFrom(world[t := Merge(world[t], reports)][s], r[s], reports)
    ensures forall s :: s in world ==> ReceivedFrom(world[s], r[s], reports)
    ensures Covers(r[t], reports)
  {
    var next := world[t := Merge(world[t], reports)];
    MergeExtends(world[t], reports);
    forall s | s in world ensures ReceivedFrom(world[s], r[s], reports) {
      ReceivedFromTransitive(world[s], next[s], r[s], reports);
    }
    CoversExtended(next[t], r[t], reports);
  }

  /** A sensor whose map already holds every report at least as new is left as it is,
      however often the reports reach it. */
  lemma {:induction false} MergeToAllKeepsUpToDate(world: World, targets: seq<SensorId>, reports: seq<Report>, s: SensorId)
    requires forall i :: 0 <= i < |targets| ==> targets[i] in world
    requires s in world
    requires forall i :: 0 <= i < |reports| ==> reports[i].id in world[s] && reports[i].timestamp <= world[s][reports[i].id].timestamp
    ensures MergeToAll(world, targets, reports)[s] == world[s]
    decreases |targets|
  {
    if targets != [] {
      var t := targets[0];
      var next := world[t := Merge(world[t], reports)];
      if t == s {
        MergeOfOlderIsIdentity(world[s], reports);
      }
      assert next[s] == world[s];
      MergeToAllKeepsUpToDate(next, targets[1..], reports, s);
    }
  }

  /** A world whose every map received the snapshot of `sender` took entries only from `sender`. */
  lemma WorldGainsFromSnapshot(world: World, r: World, sender: Tracked, order: seq<int>)
    requires Enumerates(order, sender)
    requires world.Keys <= r.Keys
    requires forall s :: s in world ==> ReceivedFrom(world[s], r[s], Snapshot(sender, order, Location, Stamp))
    ensures forall s :: s in world ==> GainsOnlyFrom(world[s], r[s], sender)
  {
    forall s | s in world ensures GainsOnlyFrom(world[s], r[s], sender) {
      GainsFromSnapshot(world[s], r[s], sender, order);
    }
  }

  /** What sending the snapshot of `sender` to `targets` does to the world: the sender's own
      map and the maps of sensors not targeted stay as they are, every map is extended and
      gains entries only from the sender, and every target covers the snapshot. */
  lemma MergeToAllOutcome(world: World, targets: seq<SensorId>, sender: SensorId, order: seq<int>)
    requires forall i :: 0 <= i < |targets| ==> targets[i] in world
    requires sender in world && Enumerates(order, world[sender])
    ensures var reports := Snapshot(world[sender], order, Location, Stamp);
      var r := MergeToAll(world, targets, reports);
      && r.Keys == world.Keys
      && r[sender] == world[sender]
      && (forall s :: s in world && s !in targets ==> r[s] == world[s])
      && (forall s :: s in world ==> Extends(world[s], r[s]))
      && (forall s :: s in targets ==> Covers(r[s], reports))
      && (forall s :: s in world ==> GainsOnlyFrom(world[s], r[s], world[sender]))
  {
    var reports := Snapshot(world[sender], order, Location, Stamp);
    MergeToAllKeepsUpToDate(world, targets, reports, sender);
    WorldGainsFromSnapshot(world, MergeToAll(world, targets, reports), world[sender], order);
  }

  /** The sender's map is set and not empty, so PeriodicBroadcast goes past its early returns. */
  predicate Sends(b: Broadcaster, world: World) {
    b.sensor.Some? && b.sensor.value in world && |world[b.sensor.value]| > 0
  }

  /** Every broadcaster on a recipient vehicle has its sensor set to a sensor of the world;
      the source dereferences it without a check. */
  predicate TargetsResolvable(b: Broadcaster, world: World, nearby: seq<Vehicle>) {
    forall t :: t in Targets(Recipients(nearby, b.owner)) ==> t.Some? && t.value in world
  }

  /** PeriodicBroadcast. `nearby` lists the vehicles overlapping the broadcast sphere and
      `order` the iteration order of the sender's map. */
  function PeriodicBroadcast(b: Broadcaster, world: World, nearby: seq<Vehicle>, order: seq<int>): (r: World)
    requires b.sensor.Some? ==> b.sensor.value in world && Enumerates(order, world[b.sensor.value])
    requires Sends(b, world) ==> TargetsResolvable(b, world, nearby)
    ensures b.sensor.None? ==> r == world
    ensures b.sensor.Some? && |world[b.sensor.value]| == 0 ==> r == world
    ensures r.Keys == world.Keys
    ensures b.sensor.Some? ==> r[b.sensor.value] == world[b.sensor.value]
    ensures forall s :: s in world && Some(s) !in Targets(Recipients(nearby, b.owner)) ==> r[s] == world[s]
    ensures forall s :: s in world ==> Extends(world[s], r[s])
    ensures Sends(b, world) ==> forall s :: Some(s) in Targets(Recipients(nearby, b.owner)) ==>
      s in r && Covers(r[s], Snapshot(world[b.sensor.value], order, Location, Stamp))
    ensures b.sensor.Some? ==> forall s :: s in world ==> GainsOnlyFrom(world[s], r[s], world[b.sensor.value])
  {
    if !Sends(b, world) then
      world
    else
      var sender := b.sensor.value;
      var reports := Snapshot(world[sender], order, Location, Stamp);
      var targets := Resolved(Targets(Recipients(nearby, b.owner)));
      MergeToAllOutcome(world, targets, sender, order);
      MergeToAll(world, targets, reports)
  }

  /** After a broadcast, every sensor of a broadcaster on an overlapping vehicle other than
      the owner holds every walker of the sender's map, at least as recent as the sender's. */
  lemma BroadcastReachesRecipients(b: Broadcaster, world: World, nearby: seq<Vehicle>, order: seq<int>,
                                   v: Vehicle, s: SensorId)
    requires b.sensor.Some? && b.sensor.value in world && Enumerates(order, world[b.sensor.value])
    requires Sends(b, world) ==> TargetsResolvable(b, world, nearby)
    requires v in nearby && Some(v.id) != b.owner && BroadcastActor(Some(s)) in v.attached
    ensures Sends(b, world) ==> s in world
    ensures forall k :: k in world[b.sensor.value] ==>
      k in PeriodicBroadcast(b, world, nearby, order)[s]
      && world[b.sensor.value][k].timestamp <= PeriodicBroadcast(b, world, nearby, order)[s][k].timestamp
  {
    var sender := b.sensor.value;
    if Sends(b, world) {
      RecipientTargeted(nearby, b.owner, v, Some(s));
      var r := PeriodicBroadcast(b, world, nearby, order);
      CoversSnapshot(world[sender], order, r[s]);
    }
  }
}

=== FILE: v2v_topology.dfy ===
/** What both V2V broadcasters (ConcludedSensor/V2VBroadcast.cpp and V2VBroadcast.cpp)
    share: the actors attached to a vehicle as the broadcaster sees them, the radius
    settings, and who receives a broadcast. */
module V2VTopology {
  import opened Geometry
  import opened Errors

  /** Walker-detection sensors are identified by an id of their own. */
  type SensorId = int

  /** An actor attached to a vehicle, as far as the broadcaster can tell it apart: a
      walker-detection sensor (and whether the engine still counts it as valid), another
      broadcaster (with the sensor it relays into, which may be unset), or anything else. */
  datatype Attached =
    | DetectionSensor(sensor: SensorId, valid: bool)
    | BroadcastActor(target: Option<SensorId>)
    | OtherActor

  /** A vehicle: its actor id, whether the engine counts it as valid, and its attached
      actors in the order the engine lists them. */
  datatype Vehicle = Vehicle(id: ActorId, valid: bool, attached: seq<Attached>)

  /** The broadcast radius a new broadcaster starts with and the attribute's default. */
  const DefaultBroadcastRadius: real := 1000.0

  /** A broadcaster: its owner, the sensor whose map it relays, the radius field, the
      radius of its overlap sphere, and whether its one-second broadcast timer runs. */
  datatype Broadcaster = Broadcaster(owner: Option<ActorId>, sensor: Option<SensorId>, radius: real,
                                     sphereRadius: real, timerRunning: bool)

  /** The radius field and the overlap sphere agree. */
  predicate RadiusConsistent(b: Broadcaster) {
    b.radius == b.sphereRadius
  }

  /** Set: read `broadcast_radius` (default 1000) and size the sphere to it. */
  function Configure(b: Broadcaster, radiusAttribute: Option<real>): (r: Broadcaster)
    ensures RadiusConsistent(r)
    ensures radiusAttribute.Some? ==> r.radius == radiusAttribute.value
    ensures radiusAttribute.None? ==> r.radius == DefaultBroadcastRadius
    ensures r.owner == b.owner && r.sensor == b.sensor && r.timerRunning == b.timerRunning
  {
    var radius := if radiusAttribute.Some? then radiusAttribute.value else DefaultBroadcastRadius;
    b.(radius := radius, sphereRadius := radius)
  }

  /** SetBroadcastRadius: the field and the sphere both take the new radius. */
  function SetBroadcastRadius(b: Broadcaster, radius: real): (r: Broadcaster)
    ensures r.radius == radius && r.sphereRadius == radius
    ensures RadiusConsistent(r)
    ensures r.owner == b.owner && r.sensor == b.sensor && r.timerRunning == b.timerRunning
  {
    b.(radius := radius, sphereRadius := radius)
  }

  /** Only the last radius set counts, whatever came before. */
  lemma LastRadiusWins(b: Broadcaster, first: real, second: real)
    ensures SetBroadcastRadius(SetBroadcastRadius(b, first), second) == SetBroadcastRadius(b, second)
    ensures SetBroadcastRadius(Configure(b, Some(first)), second) == SetBroadcastRadius(b, second)
  {
  }

  /** The overlapping vehicles without the broadcaster's owner, in the same order. */
  function Recipients(nearby: seq<Vehicle>, owner: Option<ActorId>): (r: seq<Vehicle>)
    ensures forall v :: v in r <==> v in nearby && Some(v.id) != owner
    ensures |r| <= |nearby|
    decreases |nearby|
  {
    if nearby == [] then
      []
    else
      var rest := Recipients(nearby[1..], owner);
      assert forall v :: v in nearby <==> v == nearby[0] || v in nearby[1..];
      if Some(nearby[0].id) == owner then rest else [nearby[0]] + rest
  }

  /** The sensors of the broadcasters attached to one vehicle, in attachment order;
      an unset sensor appears as None. */
  function TargetsOf(attached: seq<Attached>): (r: seq<Option<SensorId>>)
    ensures forall t :: t in r <==> BroadcastActor(t) in attached
    decreases |attached|
  {
    if attached == [] then
      []
    else
      var rest := TargetsOf(attached[1..]);
      assert forall a :: a in attached <==> a == attached[0] || a in attached[1..];
      if attached[0].BroadcastActor? then [attached[0].target] + rest else rest
  }

  /** The sensors a broadcast reaches: those of every broadcaster attached to every
      recipient vehicle, vehicle by vehicle. */
  function Targets(recipients: seq<Vehicle>): (r: seq<Option<SensorId>>)
    ensures forall t :: t in r <==> exists v :: v in recipients && BroadcastActor(t) in v.attached
    decreases |recipients|
  {
    if recipients == [] then
      []
    else
      var first := TargetsOf(recipients[0].attached);
      var rest := Targets(recipients[1..]);
      assert forall v :: v in recipients <==> v == recipients[0] || v in recipients[1..];
      first + rest
  }

  /** The sensors of a list of broadcaster targets that are all set, in the same order. */
  function Resolved(targets: seq<Option<SensorId>>): (r: seq<SensorId>)
    requires forall i :: 0 <= i < |targets| ==> targets[i].Some?
    ensures |r| == |targets|
    ensures forall s :: s in r <==> Some(s) in targets
  {
    var r := seq(|targets|, i requires 0 <= i < |targets| => targets[i].value);
    assert forall s :: Some(s) in targets ==> s in r by {
      forall s | Some(s) in targets ensures s in r {
        var i :| 0 <= i < |targets| && targets[i] == Some(s);
        assert r[i] == s;
      }
    }
    r
  }

  /** A broadcaster on an overlapping vehicle other than the owner is a target. */
  lemma RecipientTargeted(nearby: seq<Vehicle>, owner: Option<ActorId>, v: Vehicle, t: Option<SensorId>)
    requires v in nearby && Some(v.id) != owner && BroadcastActor(t) in v.attached
    ensures t in Targets(Recipients(nearby, owner))
  {
    assert v in Recipients(nearby, owner);
  }

  /** The owner's broadcasters are reached only through some other overlapping vehicle
      that carries them too. */
  lemma OwnerNotTargeted(nearby: seq<Vehicle>, owner: ActorId, t: Option<SensorId>)
    requires t in Targets(Recipients(nearby, Some(owner)))
    ensures exists v :: v in nearby && v.id != owner && BroadcastActor(t) in v.attached
  {
    var v :| v in Recipients(nearby, Some(owner)) && BroadcastActor(t) in v.attached;
  }

  /** An attached actor that the ConcludedSensor broadcaster takes as its sensor: valid
      and a walker-detection sensor. */
  predicate IsValidSensor(a: Attached) {
    a.DetectionSensor? && a.valid
  }

  /** Position `i` holds the last valid walker-detection sensor of the list. */
  predicate LastValidSensorAt(attached: seq<Attached>, i: int) {
    0 <= i < |attached| && IsValidSensor(attached[i])
    && forall j :: i < j < |attached| ==> !IsValidSensor(attached[j])
  }

  /** Position `i` holds the first walker-detection sensor of the list, valid or not. */
  predicate FirstSensorAt(attached: seq<Attached>, i: int) {
    0 <= i < |attached| && attached[i].DetectionSensor?
    && forall j :: 0 <= j < i ==> !attached[j].DetectionSensor?
  }

  /** With a single walker-detection sensor attached, and that one valid, both variants
      pick it. */
  lemma SelectionsAgreeOnOneSensor(attached: seq<Attached>, i: int)
    requires 0 <= i < |attached| && IsValidSensor(attached[i])
    requires forall j :: 0 <= j < |attached| && j != i ==> !attached[j].DetectionSensor?
    ensures LastValidSensorAt(attached, i) && FirstSensorAt(attached, i)
  {
  }
}

=== FILE: walker_detection.dfy ===
/** The walker-tracking sensor of ConcludedSensor/WalkerDetectionSensor.cpp: a rotating
    line trace records the walkers it hits in a map keyed by walker id, with a
    timestamp-guarded upsert, and entries older than 20 seconds are pruned on every tick. */
module WalkerDetection {
  import opened Geometry
  import opened Errors
  import opened TrackedMaps

  /** One tracked walker: its id, where it was last seen and when. */
  datatype SharedWalkerData = SharedWalkerData(walkerId: int, location: Vec3, timestamp: real)

  type Tracked = map<int, SharedWalkerData>

  /** Every entry is stored under its own walker id. */
  predicate KeyedById(m: Tracked) {
    forall k :: k in m ==> m[k].walkerId == k
  }

  /** UpdateWalkerData: store the datum when the id is new or the timestamp is strictly
      newer than the stored one; otherwise keep the map as it is. */
  function UpdateWalkerData(m: Tracked, id: int, location: Vec3, timestamp: real): (r: Tracked)
    ensures r.Keys == m.Keys + {id}
    ensures forall k :: k in m && k != id ==> r[k] == m[k]
    ensures id !in m ==> r[id] == SharedWalkerData(id, location, timestamp)
    ensures id in m && timestamp > m[id].timestamp ==> r[id] == SharedWalkerData(id, location, timestamp)
    ensures id in m && timestamp <= m[id].timestamp ==> r == m
    ensures forall k :: k in m ==> m[k].timestamp <= r[k].timestamp
    ensures timestamp <= r[id].timestamp
    ensures KeyedById(m) ==> KeyedById(r)
  {
    if id !in m || timestamp > m[id].timestamp then
      m[id := SharedWalkerData(id, location, timestamp)]
    else
      m
  }

  /** `after` extends `before`: no entry is lost and no timestamp goes back. */
  predicate Extends(before: Tracked, after: Tracked) {
    && before.Keys <= after.Keys
    && (forall k :: k in before ==> before[k].timestamp <= after[k].timestamp)
  }

  lemma ExtendsTransitive(a: Tracked, b: Tracked, c: Tracked)
    requires Extends(a, b) && Extends(b, c)
    ensures Extends(a, c)
  {
  }

  /** `m` holds every reported walker, at least as recent as the report. */
  predicate Covers(m: Tracked, reports: seq<Report>) {
    forall i :: 0 <= i < |reports| ==> reports[i].id in m && reports[i].timestamp <= m[reports[i].id].timestamp
  }

  lemma CoversExtended(a: Tracked, b: Tracked, reports: seq<Report>)
    requires Covers(a, reports) && Extends(a, b)
    ensures Covers(b, reports)
  {
  }

  /** A map that covers the snapshot of `m` holds every walker of `m`, at least as recent. */
  lemma CoversSnapshot(m: Tracked, order: seq<int>, r: Tracked)
    requires Enumerates(order, m)
    requires Covers(r, Snapshot(m, order, Location, Stamp))
    ensures forall k :: k in m ==> k in r && m[k].timestamp <= r[k].timestamp
  {
    var reports := Snapshot(m, order, Location, Stamp);
    forall k | k in m ensures k in r && m[k].timestamp <= r[k].timestamp {
      assert k in ReportedIds(reports);
      var i :| 0 <= i < |reports| && reports[i].id == k;
    }
  }

  /** Every entry of `after` is the entry `before` held, or a report's location and
      timestamp stored under the reported id. */
  predicate EntriesFrom(before: Tracked, after: Tracked, reports: seq<Report>) {
    forall k :: k in after ==>
      || (k in before && after[k] == before[k])
      || (after[k].walkerId == k && Reported(reports, k, after[k].location, after[k].timestamp))
  }

  lemma EntriesFromTransitive(a: Tracked, b: Tracked, c: Tracked, reports: seq<Report>)
    requires EntriesFrom(a, b, reports) && EntriesFrom(b, c, reports)
    ensures EntriesFrom(a, c, reports)
  {
  }

  /** `after` is `before` having received `reports`: it extends `before`, gains only
      reported walkers, keeps the entry of every walker no report names, and every entry
      it changed holds a report's location and timestamp. */
  predicate ReceivedFrom(before: Tracked, after: Tracked, reports: seq<Report>) {
    && Extends(before, after)
    && after.Keys <= before.Keys + ReportedIds(reports)
    && (forall k :: k in before && k !in ReportedIds(reports) ==> k in after && after[k] == before[k])
    && EntriesFrom(before, after, reports)
  }

  lemma ReceivedFromTransitive(a: Tracked, b: Tracked, c: Tracked, reports: seq<Report>)
    requires ReceivedFrom(a, b, reports) && ReceivedFrom(b, c, reports)
    ensures ReceivedFrom(a, c, reports)
  {
    ExtendsTransitive(a, b, c);
    EntriesFromTransitive(a, b, c, reports);
  }

  /** `after` differs from `before` only by entries taken from `sender`: it gains no walker
      `sender` lacks, keeps every entry of a walker `sender` lacks, and each entry it does
      not keep is the sender's location and timestamp under the walker's id. */
  predicate GainsOnlyFrom(before: Tracked, after: Tracked, sender: Tracked) {
    && after.Keys <= before.Keys + sender.Keys
    && (forall k :: k in before && k !in sender ==> k in after && after[k] == before[k])
    && (forall k :: k in after ==>
         || (k in before && after[k] == before[k])
         || (k in sender && after[k] == SharedWalkerData(k, sender[k].location, sender[k].timestamp)))
  }

  /** A map that took entries only from the snapshot of `sender` took them only from `sender`. */
  lemma GainsFromSnapshot(before: Tracked, after: Tracked, sender: Tracked, order: seq<int>)
    requires Enumerates(order, sender)
    requires ReceivedFrom(before, after, Snapshot(sender, order, Location, Stamp))
    ensures GainsOnlyFrom(before, after, sender)
  {
    forall k | k in after
      ensures (k in before && after[k] == before[k])
        || (k in sender && after[k] == SharedWalkerData(k, sender[k].location, sender[k].timestamp))
    {
      ReportedInSnapshot(sender, order, Location, Stamp, k, after[k].location, after[k].timestamp);
    }
  }

  /** A receiver applying UpdateWalkerData once per report, in order. */
  function Merge(m: Tracked, reports: seq<Report>): (r: Tracked)
    ensures r.Keys == m.Keys + ReportedIds(reports)
    ensures forall k :: k in m && k !in ReportedIds(reports) ==> r[k] == m[k]
    ensures forall k :: k in m ==> m[k].timestamp <= r[k].timestamp
    ensures forall i :: 0 <= i < |reports| ==> reports[i].timestamp <= r[reports[i].id].timestamp
    ensures EntriesFrom(m, r, reports)
    ensures KeyedById(m) ==> KeyedById(r)
    decreases |reports|
  {
    if reports == [] then
      m
    else
      var head := reports[0];
      var rest := Merge(UpdateWalkerData(m, head.id, head.location, head.timestamp), reports[1..]);
      MergeStep(m, reports, rest);
      rest
  }

  /** One merge step: what merging the remaining reports into the first report's update
      guarantees carries over to the whole list. */
  lemma MergeStep(m: Tracked, reports: seq<Report>, rest: Tracked)
    requires |reports| > 0
    requires var first := UpdateWalkerData(m, reports[0].id, reports[0].location, reports[0].timestamp);
      && rest.Keys == first.Keys + ReportedIds(reports[1..])
      && (forall k :: k in first && k !in ReportedIds(reports[1..]) ==> rest[k] == first[k])
      && (forall k :: k in first ==> first[k].timestamp <= rest[k].timestamp)
      && (forall i :: 0 <= i < |reports[1..]| ==> reports[1..][i].timestamp <= rest[reports[1..][i].id].timestamp)
      && EntriesFrom(first, rest, reports[1..])
      && (KeyedById(first) ==> KeyedById(rest))
    ensures rest.Keys == m.Keys + ReportedIds(reports)
    ensures forall k :: k in m && k !in ReportedIds(reports) ==> rest[k] == m[k]
    ensures forall k :: k in m ==> m[k].timestamp <= rest[k].timestamp
    ensures forall i :: 0 <= i < |reports| ==> reports[i].timestamp <= rest[reports[i].id].timestamp
    ensures EntriesFrom(m, rest, reports)
    ensures KeyedById(m) ==> KeyedById(rest)
  {
    ReportedIdsSplit(reports);
    MergeStepEntries(m, reports, rest);
  }

  /** One merge step: entries that come from the first report's update or from the
      remaining reports come from the whole list. */
  lemma MergeStepEntries(m: Tracked, reports: seq<Report>, rest: Tracked)
    requires |reports| > 0
    requires EntriesFrom(UpdateWalkerData(m, reports[0].id, reports[0].location, reports[0].timestamp), rest, reports[1..])
    ensures EntriesFrom(m, rest, reports)
  {
    forall k | k in rest
      ensures (k in m && rest[k] == m[k]) || (rest[k].walkerId == k && Reported(reports, k, rest[k].location, rest[k].timestamp))
    {
      ReportedSplit(reports, k, rest[k].location, rest[k].timestamp);
    }
  }

  /** Merging extends the receiver's map and leaves it covering every report. */
  lemma MergeExtends(m: Tracked, reports: seq<Report>)
    ensures Extends(m, Merge(m, reports)) && Covers(Merge(m, reports), reports)
    ensures ReceivedFrom(m, Merge(m, reports), reports)
  {
  }

  /** Reports that are nowhere newer than what the receiver holds change nothing. */
  lemma {:induction false} MergeOfOlderIsIdentity(m: Tracked, reports: seq<Report>)
    requires forall i :: 0 <= i < |reports| ==> reports[i].id in m && reports[i].timestamp <= m[reports[i].id].timestamp
    ensures Merge(m, reports) == m
    decreases |reports|
  {
    if reports != [] {
      var head := reports[0];
      assert UpdateWalkerData(m, head.id, head.location, head.timestamp) == m;
      assert forall i :: 0 <= i < |reports[1..]| ==> reports[1..][i] == reports[i + 1];
      MergeOfOlderIsIdentity(m, reports[1..]);
    }
  }

  /** A sensor that receives its own map back keeps it as it is. */
  lemma MergeIntoItselfIsIdentity(m: Tracked, order: seq<int>)
    requires Enumerates(order, m)
    ensures Merge(m, Snapshot(m, order, Location, Stamp)) == m
  {
    MergeOfOlderIsIdentity(m, Snapshot(m, order, Location, Stamp));
  }

  /** The sweep turns by 360 degrees per second of simulated time. */
  const DegreesPerSecond: real := 360.0

  /** The angle step of PerformLineTrace: advance, and restart at 0 (not wrap) once a
      full turn is reached. */
  function StepAngle(angle: real, deltaSeconds: real): (r: real)
    ensures angle + deltaSeconds * DegreesPerSecond < 360.0 ==> r == angle + deltaSeconds * DegreesPerSecond
    ensures angle + deltaSeconds * DegreesPerSecond >= 360.0 ==> r == 0.0
    ensures 0.0 <= angle < 360.0 && 0.0 <= deltaSeconds ==> 0.0 <= r < 360.0
  {
    var next := angle + deltaSeconds * DegreesPerSecond;
    if next >= 360.0 then 0.0 else next
  }

  /** Applying the angle step tick after tick, starting from `angle`. */
  function Sweep(angle: real, deltas: seq<real>): real
    decreases |deltas|
  {
    if deltas == [] then angle else Sweep(StepAngle(angle, deltas[0]), deltas[1..])
  }

  /** Whatever the tick lengths, the sweep angle stays within one turn. */
  lemma {:induction false} SweepStaysInOneTurn(angle: real, deltas: seq<real>)
    requires 0.0 <= angle < 360.0
    requires forall i :: 0 <= i < |deltas| ==> 0.0 <= deltas[i]
    ensures 0.0 <= Sweep(angle, deltas) < 360.0
    decreases |deltas|
  {
    if deltas != [] {
      assert forall i :: 0 <= i < |deltas[1..]| ==> deltas[1..][i] == deltas[i + 1];
      SweepStaysInOneTurn(StepAngle(angle, deltas[0]), deltas[1..]);
    }
  }

  /** What the line trace of one tick returned: the actor hit (absent when the hit has
      no actor), whether that actor is a walker, its unique id and the impact point. */
  datatype TraceHit = TraceHit(actor: Option<int>, isWalker: bool, impactPoint: Vec3)

  /** The sensor's state: its map, the current sweep angle and the trace range. */
  datatype Sensor = Sensor(tracked: Tracked, angle: real, traceRange: real)

  /** A new sensor: nothing tracked, the sweep at 0 degrees, a 1000-unit trace. */
  const Initial: Sensor := Sensor(map[], 0.0, 1000.0)

  /** The stamp of a tracked entry, for pruning. */
  function Stamp(d: SharedWalkerData): real {
    d.timestamp
  }

  /** The location of a tracked entry, as a broadcaster reads it. */
  function Location(d: SharedWalkerData): Vec3 {
    d.location
  }

  /** The trace hit an actor, and that actor is a walker. */
  predicate HitsWalker(hit: Option<TraceHit>) {
    hit.Some? && hit.value.actor.Some? && hit.value.isWalker
  }

  /** The map after the line trace: a hit on a walker is recorded at the current time. */
  function RecordHit(m: Tracked, hit: Option<TraceHit>, now: real): Tracked {
    if HitsWalker(hit) then
      UpdateWalkerData(m, hit.value.actor.value, hit.value.impactPoint, now)
    else
      m
  }

  /** PrePhysTick: the line trace (which may record a walker and turns the sweep), then
      pruning of the entries older than 20 seconds, both at the same world time `now`. */
  function PrePhysTick(s: Sensor, hit: Option<TraceHit>, deltaSeconds: real, now: real): (r: Sensor)
    ensures r.angle == StepAngle(s.angle, deltaSeconds) && r.traceRange == s.traceRange
    ensures forall k :: k in r.tracked ==> !IsStale(r.tracked[k].timestamp, now)
    ensures forall k :: k in r.tracked ==> k in s.tracked || (hit.Some? && hit.value.actor == Some(k) && hit.value.isWalker)
    ensures forall k :: k in s.tracked && !IsStale(s.tracked[k].timestamp, now) ==>
      k in r.tracked && s.tracked[k].timestamp <= r.tracked[k].timestamp
    ensures hit.Some? && hit.value.actor.Some? && hit.value.isWalker ==>
      hit.value.actor.value in r.tracked && now <= r.tracked[hit.value.actor.value].timestamp
    ensures forall k :: !(HitsWalker(hit) && k == hit.value.actor.value) ==>
      (k in r.tracked <==> k in s.tracked && !IsStale(s.tracked[k].timestamp, now))
    ensures forall k :: k in r.tracked && !(HitsWalker(hit) && k == hit.value.actor.value) ==>
      r.tracked[k] == s.tracked[k]
    ensures HitsWalker(hit) && (hit.value.actor.value !in s.tracked || s.tracked[hit.value.actor.value].timestamp < now) ==>
      r.tracked[hit.value.actor.value] == SharedWalkerData(hit.value.actor.value, hit.value.impactPoint, now)
    ensures HitsWalker(hit) && hit.value.actor.value in s.tracked && now <= s.tracked[hit.value.actor.value].timestamp ==>
      r.tracked[hit.value.actor.value] == s.tracked[hit.value.actor.value]
    ensures hit.None? || hit.value.actor.None? || !hit.value.isWalker ==>
      r.tracked == FreshEntries(s.tracked, Stamp, now)
    ensures KeyedById(s.tracked) ==> KeyedById(r.tracked)
  {
    var recorded := RecordHit(s.tracked, hit, now);
    Sensor(FreshEntries(recorded, Stamp, now), StepAngle(s.angle, deltaSeconds), s.traceRange)
  }

  /** GetTrackedWalkerLocationsInWorld: the stored location of every entry, in the map's
      iteration order. */
  function WorldLocations(m: Tracked, order: seq<int>): (r: seq<Vec3>)
    requires Enumerates(order, m)
    ensures |r| == |m|
    ensures |r| == |order| && forall i :: 0 <= i < |r| ==> r[i] == m[order[i]].location
    ensures forall k :: k in m ==> m[k].location in r
  {
    EnumerationLength(order, m);
    var r := seq(|order|, i requires 0 <= i < |order| => m[order[i]].location);
    assert forall k :: k in m ==> m[k].location in r by {
      forall k | k in m ensures m[k].location in r {
        var i :| 0 <= i < |order| && order[i] == k;
        assert r[i] == m[k].location;
      }
    }
    r
  }

  /** GetTrackedWalkerLocations: without an owner, nothing; otherwise each stored location
      relative to the owner's location, in the map's iteration order. */
  function RelativeLocations(m: Tracked, order: seq<int>, owner: Option<Vec3>): (r: seq<Vec3>)
    requires Enumerates(order, m)
    ensures owner.None? ==> r == []
    ensures owner.Some? ==> |r| == |m|
  {
    if owner.None? then
      []
    else
      EnumerationLength(order, m);
      seq(|order|, i requires 0 <= i < |order| => Sub(m[order[i]].location, owner.value))
  }

  /** With an owner, the relative locations are the world locations shifted by the owner's
      location, position by position. */
  lemma RelativeIsWorldMinusOwner(m: Tracked, order: seq<int>, owner: Vec3)
    requires Enumerates(order, m)
    ensures |RelativeLocations(m, order, Some(owner))| == |WorldLocations(m, order)|
    ensures forall i :: 0 <= i < |WorldLocations(m, order)| ==>
      RelativeLocations(m, order, Some(owner))[i] == Sub(WorldLocations(m, order)[i], owner)

  {
    var relative := RelativeLocations(m, order, Some(owner));
    var world := WorldLocations(m, order);
    forall i | 0 <= i < |world|
      ensures relative[i] == Sub(world[i], owner)
    {
      assert world[i] == m[order[i]].location;
      assert relative[i] == Sub(m[order[i]].location, owner);
    }
  }
}

=== FILE: walker_detection_flagged.dfy ===
/** The walker-tracking sensor of WDS_withLogs/WalkerDetectionSensor.cpp: the same map as
    the ConcludedSensor variant, but each entry also carries a flag saying whether this
    sensor's own vehicle detected the walker, and an update ORs that flag in. */
module FlaggedWalkerDetection {
  import opened Geometry
  import opened Errors
  import opened TrackedMaps

  /** One tracked walker: its id, where and when it was last seen, and whether the own
      vehicle's trace ever saw it. */
  datatype FlaggedWalkerData = FlaggedWalkerData(walkerId: int, location: Vec3, timestamp: real, detectedByOwnVehicle: bool)

  type FlaggedMap = map<int, FlaggedWalkerData>

  /** UpdateWalkerData with the own-detection flag: a new id is inserted with the given
      flag; a strictly newer timestamp replaces location and timestamp and ORs the flag;
      anything else is ignored. */
  function UpdateWalkerData(m: FlaggedMap, id: int, location: Vec3, timestamp: real, detected: bool): (r: FlaggedMap)
    ensures r.Keys == m.Keys + {id}
    ensures forall k :: k in m && k != id ==> r[k] == m[k]
    ensures id !in m ==> r[id] == FlaggedWalkerData(id, location, timestamp, detected)
    ensures id in m && timestamp > m[id].timestamp ==>
      r[id].location == location && r[id].timestamp == timestamp
      && r[id].detectedByOwnVehicle == (m[id].detectedByOwnVehicle || detected)
    ensures id in m && timestamp <= m[id].timestamp ==> r == m
    ensures forall k :: k in m ==> r[k].walkerId == m[k].walkerId
    ensures forall k :: k in m ==> m[k].timestamp <= r[k].timestamp
    ensures forall k :: k in m && m[k].detectedByOwnVehicle ==> r[k].detectedByOwnVehicle
    ensures !detected ==> forall k :: k in r && r[k].detectedByOwnVehicle ==> k in m && m[k].detectedByOwnVehicle
    ensures timestamp <= r[id].timestamp
  {
    if id !in m then
      m[id := FlaggedWalkerData(id, location, timestamp, detected)]
    else if timestamp > m[id].timestamp then
      var old_ := m[id];
      m[id := old_.(location := location, timestamp := timestamp, detectedByOwnVehicle := old_.detectedByOwnVehicle || detected)]
    else
      m
  }

  /** `after` extends `before`: no entry is lost, no timestamp goes back, and the flags
      are exactly those `before` had. */
  predicate Extends(before: FlaggedMap, after: FlaggedMap) {
    && before.Keys <= after.Keys
    && (forall k :: k in before ==> before[k].timestamp <= after[k].timestamp)
    && (forall k :: k in after ==> (after[k].detectedByOwnVehicle <==> k in before && before[k].detectedByOwnVehicle))
  }

  lemma ExtendsTransitive(a: FlaggedMap, b: FlaggedMap, c: FlaggedMap)
    requires Extends(a, b) && Extends(b, c)
    ensures Extends(a, c)
  {
  }

  /** `m` holds every reported walker, at least as recent as the report. */
  predicate Covers(m: FlaggedMap, reports: seq<Report>) {
    forall i :: 0 <= i < |reports| ==> reports[i].id in m && reports[i].timestamp <= m[reports[i].id].timestamp
  }

  lemma CoversExtended(a: FlaggedMap, b: FlaggedMap, reports: seq<Report>)
    requires Covers(a, reports) && Extends(a, b)
    ensures Covers(b, reports)
  {
  }

  /** A map that covers the snapshot of `m` holds every walker of `m`, at least as recent. */
  lemma CoversSnapshot(m: FlaggedMap, order: seq<int>, r: FlaggedMap)
    requires Enumerates(order, m)
    requires Covers(r, Snapshot(m, order, Location, Stamp))
    ensures forall k :: k in m ==> k in r && m[k].timestamp <= r[k].timestamp
  {
    var reports := Snapshot(m, order, Location, Stamp);
    forall k | k in m ensures k in r && m[k].timestamp <= r[k].timestamp {
      assert k in ReportedIds(reports);
      var i :| 0 <= i < |reports| && reports[i].id == k;
    }
  }

  /** Every entry of `after` is the entry `before` held, or carries the location and
      timestamp a report gave for its id. */
  predicate EntriesFrom(before: FlaggedMap, after: FlaggedMap, reports: seq<Report>) {
    forall k :: k in after ==>
      (k in before && after[k] == before[k]) || Reported(reports, k, after[k].location, after[k].timestamp)
  }

  lemma EntriesFromTransitive(a: FlaggedMap, b: FlaggedMap, c: FlaggedMap, reports: seq<Report>)
    requires EntriesFrom(a, b, reports) && EntriesFrom(b, c, reports)
    ensures EntriesFrom(a, c, reports)
  {
  }

  /** `after` is `before` having received `reports`: it extends `before`, gains only
      reported walkers, keeps the entry of every walker no report names, and every entry
      it changed holds a report's location and timestamp. */
  predicate ReceivedFrom(before: FlaggedMap, after: FlaggedMap, reports: seq<Report>) {
    && Extends(before, after)
    && after.Keys <= before.Keys + ReportedIds(reports)
    && (forall k :: k in before && k !in ReportedIds(reports) ==> k in after && after[k] == before[k])
    && EntriesFrom(before, after, reports)
  }

  lemma ReceivedFromTransitive(a: FlaggedMap, b: FlaggedMap, c: FlaggedMap, reports: seq<Report>)
    requires ReceivedFrom(a, b, reports) && ReceivedFrom(b, c, reports)
    ensures ReceivedFrom(a, c, reports)
  {
    ExtendsTransitive(a, b, c);
    EntriesFromTransitive(a, b, c, reports);
  }

  /** `after` differs from `before` only by entries taken from `sender`: it gains no walker
      `sender` lacks, keeps every entry of a walker `sender` lacks, and each entry it does
      not keep holds the sender's location and timestamp for that walker. */
  predicate GainsOnlyFrom(before: FlaggedMap, after: FlaggedMap, sender: FlaggedMap) {
    && after.Keys <= before.Keys + sender.Keys
    && (forall k :: k in before && k !in sender ==> k in after && after[k] == before[k])
    && (forall k :: k in after ==>
         || (k in before && after[k] == before[k])
         || (k in sender && after[k].location == sender[k].location && after[k].timestamp == sender[k].timestamp))
  }

  /** A map that took entries only from the snapshot of `sender` took them only from `sender`. */
  lemma GainsFromSnapshot(before: FlaggedMap, after: FlaggedMap, sender: FlaggedMap, order: seq<int>)
    requires Enumerates(order, sender)
    requires ReceivedFrom(before, after, Snapshot(sender, order, Location, Stamp))
    ensures GainsOnlyFrom(before, after, sender)
  {
    forall k | k in after
      ensures (k in before && after[k] == before[k])
        || (k in sender && after[k].location == sender[k].location && after[k].timestamp == sender[k].timestamp)
    {
      ReportedInSnapshot(sender, order, Location, Stamp, k, after[k].location, after[k].timestamp);
    }
  }

  /** A receiver applying the flagged UpdateWalkerData once per report, in order, with
      the flag false: relayed data was not seen by the receiver's own vehicle. */
  function Relay(m: FlaggedMap, reports: seq<Report>): (r: FlaggedMap)
    ensures r.Keys == m.Keys + ReportedIds(reports)
    ensures forall k :: k in m && k !in ReportedIds(reports) ==> r[k] == m[k]
    ensures forall k :: k in m ==> m[k].timestamp <= r[k].timestamp
    ensures forall k :: k in m ==> r[k].walkerId == m[k].walkerId
    ensures forall i :: 0 <= i < |reports| ==> reports[i].timestamp <= r[reports[i].id].timestamp
    ensures forall k :: k in r ==> (r[k].detectedByOwnVehicle <==> k in m && m[k].detectedByOwnVehicle)
    ensures EntriesFrom(m, r, reports)
    decreases |reports|
  {
    if reports == [] then
      m
    else
      var head := reports[0];
      var rest := Relay(UpdateWalkerData(m, head.id, head.location, head.timestamp, false), reports[1..]);
      RelayStep(m, reports, rest);
      rest
  }

  /** One relay step: what relaying the remaining reports into the first report's update
      guarantees carries over to the whole list. */
  lemma RelayStep(m: FlaggedMap, reports: seq<Report>, rest: FlaggedMap)
    requires |reports| > 0
    requires var first := UpdateWalkerData(m, reports[0].id, reports[0].location, reports[0].timestamp, false);
      && rest.Keys == first.Keys + ReportedIds(reports[1..])
      && (forall k :: k in first && k !in ReportedIds(reports[1..]) ==> rest[k] == first[k])
      && (forall k :: k in first ==> first[k].timestamp <= rest[k].timestamp)
      && (forall k :: k in first ==> rest[k].walkerId == first[k].walkerId)
      && (forall i :: 0 <= i < |reports[1..]| ==> reports[1..][i].timestamp <= rest[reports[1..][i].id].timestamp)
      && (forall k :: k in rest ==> (rest[k].detectedByOwnVehicle <==> k in first && first[k].detectedByOwnVehicle))
      && EntriesFrom(first, rest, reports[1..])
    ensures rest.Keys == m.Keys + ReportedIds(reports)
    ensures forall k :: k in m && k !in ReportedIds(reports) ==> rest[k] == m[k]
    ensures forall k :: k in m ==> m[k].timestamp <= rest[k].timestamp
    ensures forall k :: k in m ==> rest[k].walkerId == m[k].walkerId
    ensures forall i :: 0 <= i < |reports| ==> reports[i].timestamp <= rest[reports[i].id].timestamp
    ensures forall k :: k in rest ==> (rest[k].detectedByOwnVehicle <==> k in m && m[k].detectedByOwnVehicle)
    ensures EntriesFrom(m, rest, reports)
  {
    ReportedIdsSplit(reports);
    RelayStepEntries(m, reports, rest);
  }

  /** One relay step: entries that come from the first report's update or from the
      remaining reports come from the whole list. */
  lemma RelayStepEntries(m: FlaggedMap, reports: seq<Report>, rest: FlaggedMap)
    requires |reports| > 0
    requires EntriesFrom(UpdateWalkerData(m, reports[0].id, reports[0].location, reports[0].timestamp, false), rest, reports[1..])
    ensures EntriesFrom(m, rest, reports)
  {
    forall k | k in rest
      ensures (k in m && rest[k] == m[k]) || Reported(reports, k, rest[k].location, rest[k].timestamp)
    {
      ReportedSplit(reports, k, rest[k].location, rest[k].timestamp);
    }
  }

  /** Relaying extends the receiver's map and leaves it covering every report. */
  lemma RelayExtends(m: FlaggedMap, reports: seq<Report>)
    ensures Extends(m, Relay(m, reports)) && Covers(Relay(m, reports), reports)
    ensures ReceivedFrom(m, Relay(m, reports), reports)
  {
  }

  /** Reports that are nowhere newer than what the receiver holds change nothing. */
  lemma {:induction false} RelayOfOlderIsIdentity(m: FlaggedMap, reports: seq<Report>)
    requires forall i :: 0 <= i < |reports| ==> reports[i].id in m && reports[i].timestamp <= m[reports[i].id].timestamp
    ensures Relay(m, reports) == m
    decreases |reports|
  {
    if reports != [] {
      var head := reports[0];
      assert UpdateWalkerData(m, head.id, head.location, head.timestamp, false) == m;
      assert forall i :: 0 <= i < |reports[1..]| ==> reports[1..][i] == reports[i + 1];
      RelayOfOlderIsIdentity(m, reports[1..]);
    }
  }

  /** A sensor that receives its own map back keeps it as it is. */
  lemma RelayIntoItselfIsIdentity(m: FlaggedMap, order: seq<int>)
    requires Enumerates(order, m)
    ensures Relay(m, Snapshot(m, order, Location, Stamp)) == m
  {
    RelayOfOlderIsIdentity(m, Snapshot(m, order, Location, Stamp));
  }

  /** What the line trace of one tick returned: the actor hit (absent when the hit has
      no actor), whether that actor is a walker, its unique id and the impact point. */
  datatype TraceHit = TraceHit(actor: Option<int>, isWalker: bool, impactPoint: Vec3)

  /** A hit on a walker, as PerformLineTrace tests it. */
  predicate HitsWalker(hit: Option<TraceHit>) {
    hit.Some? && hit.value.actor.Some? && hit.value.isWalker
  }

  function Stamp(d: FlaggedWalkerData): real {
    d.timestamp
  }

  /** The location of a tracked entry, as a broadcaster reads it. */
  function Location(d: FlaggedWalkerData): Vec3 {
    d.location
  }

  /** The map after one PrePhysTick: the trace records a walker it hits with the flag set,
      then the entries older than 20 seconds at time `now` are pruned. The sweep angle is
      the same as in the ConcludedSensor variant and is not repeated here. */
  function PrePhysTick(m: FlaggedMap, hit: Option<TraceHit>, now: real): (r: FlaggedMap)
    ensures forall k :: k in r ==> !IsStale(r[k].timestamp, now)
    ensures forall k :: k in r ==> k in m || (HitsWalker(hit) && k == hit.value.actor.value)
    ensures forall k :: k in m && !IsStale(m[k].timestamp, now) ==> k in r && m[k].timestamp <= r[k].timestamp
    ensures forall k :: k in m && k in r && m[k].detectedByOwnVehicle ==> r[k].detectedByOwnVehicle
    ensures forall k :: k in r && r[k].detectedByOwnVehicle ==>
      (k in m && m[k].detectedByOwnVehicle) || (HitsWalker(hit) && k == hit.value.actor.value)
    ensures HitsWalker(hit) ==> hit.value.actor.value in r
    ensures forall k :: !(HitsWalker(hit) && k == hit.value.actor.value) ==>
      (k in r <==> k in m && !IsStale(m[k].timestamp, now))
    ensures forall k :: k in r && !(HitsWalker(hit) && k == hit.value.actor.value) ==> r[k] == m[k]
    ensures HitsWalker(hit) && (hit.value.actor.value !in m || m[hit.value.actor.value].timestamp < now) ==>
      && r[hit.value.actor.value].detectedByOwnVehicle
      && r[hit.value.actor.value].location == hit.value.impactPoint
      && r[hit.value.actor.value].timestamp == now
    ensures HitsWalker(hit) && hit.value.actor.value !in m ==>
      r[hit.value.actor.value] == FlaggedWalkerData(hit.value.actor.value, hit.value.impactPoint, now, true)
    ensures HitsWalker(hit) && hit.value.actor.value in m && now <= m[hit.value.actor.value].timestamp ==>
      r[hit.value.actor.value] == m[hit.value.actor.value]
    ensures !HitsWalker(hit) ==> r == FreshEntries(m, Stamp, now)
  {
    var recorded :=
      if HitsWalker(hit) then UpdateWalkerData(m, hit.value.actor.value, hit.value.impactPoint, now, true) else m;
    FreshEntries(recorded, Stamp, now)
  }

  /** GetDetectedByOwnVehicleFlags: the flag of every entry, in the map's iteration order. */
  function DetectedFlags(m: FlaggedMap, order: seq<int>): (r: seq<bool>)
    requires Enumerates(order, m)
    ensures |r| == |m| == |order|
    ensures forall i :: 0 <= i < |r| ==> r[i] == m[order[i]].detectedByOwnVehicle
    ensures (true in r) <==> exists k :: k in m && m[k].detectedByOwnVehicle
  {
    EnumerationLength(order, m);
    var r := seq(|order|, i requires 0 <= i < |order| => m[order[i]].detectedByOwnVehicle);
    assert (exists k :: k in m && m[k].detectedByOwnVehicle) ==> true in r by {
      if exists k :: k in m && m[k].detectedByOwnVehicle {
        var k :| k in m && m[k].detectedByOwnVehicle;
        var i :| 0 <= i < |order| && order[i] == k;
        assert r[i];
      }
    }
    r
  }

  /** Relaying reports leaves every position of the flags list as it was for the entries
      the receiver already had, and false for the entries it adds. */
  lemma RelayLeavesFlags(m: FlaggedMap, reports: seq<Report>, order: seq<int>)
    requires Enumerates(order, Relay(m, reports))
    ensures forall i :: 0 <= i < |order| ==>
      DetectedFlags(Relay(m, reports), order)[i] == (order[i] in m && m[order[i]].detectedByOwnVehicle)
  {
    var r := Relay(m, reports);
    var flags := DetectedFlags(r, order);
    forall i | 0 <= i < |order|
      ensures flags[i] == (order[i] in m && m[order[i]].detectedByOwnVehicle)
    {
      assert flags[i] == r[order[i]].detectedByOwnVehicle;
    }
  }
}

=== FILE: walker_route_manager.dfy ===
/** The per-tick route state machine of WalkerManager
    (ScenarioTown02Maker/utils/walker_route_manager.py). */
module WalkerRouteManager {
  import opened Geometry
  import opened Errors
  import opened WalkerUtils

  /** A walker counts as having reached its target within this distance, in metres. */
  const ArrivalThreshold: real := 2.0

  /** One managed walker: its actor, its route of spawn indices, the position of the
      next target in the route, and its walking speed. */
  datatype WalkerTask = WalkerTask(walker: ActorId, route: seq<int>, cursor: nat, speed: real)

  /** A motion command sent to one walker. */
  datatype Command = Command(walker: ActorId, control: WalkerControl)

  /** The cursor never runs past the end of the route. */
  predicate CursorInRange(t: WalkerTask) {
    t.cursor <= |t.route|
  }

  predicate AllCursorsInRange(tasks: seq<WalkerTask>) {
    forall i :: 0 <= i < |tasks| ==> CursorInRange(tasks[i])
  }

  /** add_walker: append one entry that starts at the beginning of its route. The route
      is stored as given, even when it is empty. */
  function AddWalker(tasks: seq<WalkerTask>, walker: ActorId, route: seq<int>, speed: real): (r: seq<WalkerTask>)
    ensures |r| == |tasks| + 1
    ensures r[..|tasks|] == tasks
    ensures r[|tasks|].walker == walker && r[|tasks|].route == route && r[|tasks|].speed == speed
    ensures r[|tasks|].cursor == 0
    ensures AllCursorsInRange(tasks) ==> AllCursorsInRange(r)
  {
    tasks + [WalkerTask(walker, route, 0, speed)]
  }

  /** The arrival test: the Euclidean distance to the target is at most the threshold. */
  predicate Arrived(position: Vec3, target: Vec3, sqrt: real -> real) {
    sqrt(DistSq(position, target)) <= ArrivalThreshold
  }

  /** The arrival test needs no square root: it holds exactly when the squared distance
      is at most 4. */
  lemma ArrivedIffWithinSquaredThreshold(position: Vec3, target: Vec3, sqrt: real -> real)
    requires IsSqrt(sqrt)
    ensures Arrived(position, target, sqrt) <==> DistSq(position, target) <= 4.0
  {
    DistSqNonNegative(position, target);
    WithinThreshold(DistSq(position, target), sqrt);
  }

  lemma WithinThreshold(x: real, sqrt: real -> real)
    requires IsSqrt(sqrt) && 0.0 <= x
    ensures sqrt(x) <= ArrivalThreshold <==> x <= 4.0
  {
    assert Sq(ArrivalThreshold) == 4.0;
    SqrtAtMost(sqrt, x, ArrivalThreshold);
  }

  /** What one entry contributes to a tick: its new state, the command it was sent
      (if any), and whether it is marked for removal. */
  datatype StepOutcome = StepOutcome(task: WalkerTask, control: Option<WalkerControl>, remove: bool)

  /** The body of the loop of update_walkers for one entry. `position` is the walker's
      current location as the engine reports it. */
  function StepTask(t: WalkerTask, spawnPoints: seq<Transform>, position: Vec3, sqrt: real -> real): (r: Result<StepOutcome>)
    // Only the route lookup and the steering call can raise.
    ensures r.Err? ==> t.cursor < |t.route|
    ensures t.cursor < |t.route| ==>
              (r.Err? && ClassOf(r.failure) == IndexError <==>
                 !(-|spawnPoints| <= t.route[t.cursor] < |spawnPoints|))
    ensures r.Err? ==> ClassOf(r.failure) in {IndexError, ValueError}
    // A target inside the list never raises: the step either advances or steers.
    ensures t.cursor < |t.route| && 0 <= t.route[t.cursor] < |spawnPoints| ==> r.Ok?
    // The steering call refuses a negative index that the lookup accepted, and only
    // when the walker has not yet arrived at the point that lookup found.
    ensures t.cursor < |t.route| && -|spawnPoints| <= t.route[t.cursor] < 0 ==>
              (r.Err? <==> !Arrived(position, GetWalkerLocation(spawnPoints, t.route[t.cursor]).value.location, sqrt))
    ensures r.Err? && ClassOf(r.failure) == ValueError ==>
              && -|spawnPoints| <= t.route[t.cursor] < 0
              && r.failure == RouteIndexOutOfRange(t.route[t.cursor])
    ensures r.Ok? ==> && r.value.task.walker == t.walker && r.value.task.route == t.route
                      && r.value.task.speed == t.speed
    // The cursor advances by exactly one on arrival and otherwise stays put.
    ensures r.Ok? ==> r.value.task.cursor == t.cursor || r.value.task.cursor == t.cursor + 1
    ensures r.Ok? && t.cursor < |t.route| ==>
              (r.value.task.cursor == t.cursor + 1 <==>
                 Arrived(position, GetWalkerLocation(spawnPoints, t.route[t.cursor]).value.location, sqrt))
    ensures r.Ok? && t.cursor >= |t.route| ==> r.value.task == t && r.value.remove && r.value.control.None?
    // A command is sent only to a walker that is still short of its target.
    ensures r.Ok? && r.value.control.Some? ==> && t.cursor < |t.route| && r.value.task.cursor == t.cursor
                                                && r.value.control.value.speed == t.speed
    // The command heads from the walker's position towards the ground-level target.
    ensures r.Ok? && r.value.control.Some? ==>
              && 0 <= t.route[t.cursor] < |spawnPoints| && !r.value.control.value.jump
              && r.value.control.value.direction
                 == Direction(Sub(GroundDestination(spawnPoints, t.route[t.cursor]), position), sqrt)
    ensures r.Ok? && t.cursor < |t.route| && r.value.task.cursor == t.cursor ==> r.value.control.Some?
    // An entry leaves once its cursor has passed the last point.
    ensures r.Ok? ==> (r.value.remove <==> r.value.task.cursor >= |t.route|)
    ensures r.Ok? && CursorInRange(t) ==> CursorInRange(r.value.task)
  {
    if t.cursor < |t.route| then
      var targetIndex := t.route[t.cursor];
      var target :- GetWalkerLocation(spawnPoints, targetIndex);
      if Arrived(position, target.location, sqrt) then
        var advanced := t.(cursor := t.cursor + 1);
        Ok(StepOutcome(advanced, None, advanced.cursor >= |t.route|))
      else
        var control :- WalkerGoToLocation(Some(t.walker), ListOf(spawnPoints), position, IntIndex(targetIndex), t.speed, sqrt);
        Ok(StepOutcome(t, Some(control), false))
    else
      Ok(StepOutcome(t, None, true))
  }

  /** The first loop of update_walkers: every entry is stepped in order. An exception
      ends the loop and leaves the entries not yet visited as they were; the cursors
      already advanced stay advanced, because the entries are updated in place.
      `stepped` counts the entries the loop got through without raising. */
  datatype Sweep = Sweep(tasks: seq<WalkerTask>, controls: seq<Command>, toRemove: seq<ActorId>,
                         failure: Option<Failure>, stepped: nat)

  /** The loop body applied to entry `i`, at the walker's reported location. */
  function StepAt(tasks: seq<WalkerTask>, i: int, spawnPoints: seq<Transform>, locate: ActorId -> Vec3,
                  sqrt: real -> real): Result<StepOutcome>
    requires 0 <= i < |tasks|
  {
    StepTask(tasks[i], spawnPoints, locate(tasks[i].walker), sqrt)
  }

  function SweepTasks(tasks: seq<WalkerTask>, spawnPoints: seq<Transform>, locate: ActorId -> Vec3,
                      sqrt: real -> real): (r: Sweep)
    ensures |r.tasks| == |tasks|
    ensures forall i :: 0 <= i < |tasks| ==>
              && r.tasks[i].walker == tasks[i].walker && r.tasks[i].route == tasks[i].route
              && r.tasks[i].speed == tasks[i].speed
              && tasks[i].cursor <= r.tasks[i].cursor <= tasks[i].cursor + 1
    ensures AllCursorsInRange(tasks) ==> AllCursorsInRange(r.tasks)
    ensures r.failure.Some? ==> ClassOf(r.failure.value) in {IndexError, ValueError}
    // The loop visits a prefix of the entries; it is the whole list unless a step raised.
    ensures r.stepped <= |tasks|
    ensures r.failure.None? <==> r.stepped == |tasks|
    decreases |tasks|
  {
    if |tasks| == 0 then Sweep([], [], [], None, 0)
    else
      var head := tasks[0];
      var step := StepTask(head, spawnPoints, locate(head.walker), sqrt);
      if step.Err? then Sweep(tasks, [], [], Some(step.failure), 0)
      else
        assert && step.value.task.walker == head.walker && step.value.task.route == head.route
               && step.value.task.speed == head.speed
               && head.cursor <= step.value.task.cursor <= head.cursor + 1
               && (CursorInRange(head) ==> CursorInRange(step.value.task));
        var rest := SweepTasks(tasks[1..], spawnPoints, locate, sqrt);
        var sent := if step.value.control.Some? then [Command(head.walker, step.value.control.value)] else [];
        var leaving := if step.value.remove then [head.walker] else [];
        var r := Sweep([step.value.task] + rest.tasks, sent + rest.controls, leaving + rest.toRemove, rest.failure,
                       rest.stepped + 1);
        SweepFrameCons(tasks, step.value.task, rest.tasks);
        r
  }

  /** The per-entry frame of the sweep carries over from the rest of the list to the
      whole list when the first entry keeps it too. */
  lemma SweepFrameCons(tasks: seq<WalkerTask>, first: WalkerTask, rest: seq<WalkerTask>)
    requires |tasks| > 0 && |rest| == |tasks| - 1
    requires && first.walker == tasks[0].walker && first.route == tasks[0].route && first.speed == tasks[0].speed
             && tasks[0].cursor <= first.cursor <= tasks[0].cursor + 1
             && (CursorInRange(tasks[0]) ==> CursorInRange(first))
    requires forall i :: 0 <= i < |rest| ==>
               && rest[i].walker == tasks[1..][i].walker && rest[i].route == tasks[1..][i].route
               && rest[i].speed == tasks[1..][i].speed
               && tasks[1..][i].cursor <= rest[i].cursor <= tasks[1..][i].cursor + 1
    requires AllCursorsInRange(tasks[1..]) ==> AllCursorsInRange(rest)
    ensures forall i :: 0 <= i < |tasks| ==>
              && ([first] + rest)[i].walker == tasks[i].walker && ([first] + rest)[i].route == tasks[i].route
              && ([first] + rest)[i].speed == tasks[i].speed
              && tasks[i].cursor <= ([first] + rest)[i].cursor <= tasks[i].cursor + 1
    ensures AllCursorsInRange(tasks) ==> AllCursorsInRange([first] + rest)
  {
    var all := [first] + rest;
    assert forall i :: 1 <= i < |tasks| ==> all[i] == rest[i - 1] && tasks[i] == tasks[1..][i - 1];
    if AllCursorsInRange(tasks) {
      assert forall i :: 0 <= i < |tasks[1..]| ==> CursorInRange(tasks[1..][i]) by {
        forall i | 0 <= i < |tasks[1..]| ensures CursorInRange(tasks[1..][i]) {
          assert tasks[1..][i] == tasks[i + 1];
        }
      }
    }
  }

  /** The loop stops at the first entry whose step raises, and raises that failure;
      every entry before it stepped without raising. */
  lemma {:induction false} SweepStopsAtFirstFailure(tasks: seq<WalkerTask>, spawnPoints: seq<Transform>,
                                                    locate: ActorId -> Vec3, sqrt: real -> real)
    ensures var r := SweepTasks(tasks, spawnPoints, locate, sqrt);
            forall i :: 0 <= i < r.stepped ==> StepAt(tasks, i, spawnPoints, locate, sqrt).Ok?
    ensures var r := SweepTasks(tasks, spawnPoints, locate, sqrt);
            r.failure.Some? ==> && r.stepped < |tasks|
                                && StepAt(tasks, r.stepped, spawnPoints, locate, sqrt).Err?
                                && r.failure.value == StepAt(tasks, r.stepped, spawnPoints, locate, sqrt).failure
    decreases |tasks|
  {
    if |tasks| > 0 {
      var r := SweepTasks(tasks, spawnPoints, locate, sqrt);
      var step := StepAt(tasks, 0, spawnPoints, locate, sqrt);
      if step.Ok? {
        var rest := SweepTasks(tasks[1..], spawnPoints, locate, sqrt);
        SweepStopsAtFirstFailure(tasks[1..], spawnPoints, locate, sqrt);
        assert r.stepped == rest.stepped + 1 && r.failure == rest.failure;
        forall i | 1 <= i < |tasks|
          ensures StepAt(tasks, i, spawnPoints, locate, sqrt) == StepAt(tasks[1..], i - 1, spawnPoints, locate, sqrt)
        {
          assert tasks[i] == tasks[1..][i - 1];
        }
      } else {
        assert r == Sweep(tasks, [], [], Some(step.failure), 0);
      }
    }
  }

  /** Entries the loop got through hold their stepped state; the entries from the
      failing one on are left as they were. */
  lemma {:induction false} SweepStepsVisitedEntries(tasks: seq<WalkerTask>, spawnPoints: seq<Transform>,
                                                    locate: ActorId -> Vec3, sqrt: real -> real)
    ensures var r := SweepTasks(tasks, spawnPoints, locate, sqrt);
            forall i :: 0 <= i < r.stepped ==>
              && StepAt(tasks, i, spawnPoints, locate, sqrt).Ok?
              && r.tasks[i] == StepAt(tasks, i, spawnPoints, locate, sqrt).value.task
    ensures var r := SweepTasks(tasks, spawnPoints, locate, sqrt);
            forall i :: r.stepped <= i < |tasks| ==> r.tasks[i] == tasks[i]
    decreases |tasks|
  {
    if |tasks| > 0 && StepAt(tasks, 0, spawnPoints, locate, sqrt).Ok? {
      var r := SweepTasks(tasks, spawnPoints, locate, sqrt);
      var rest := SweepTasks(tasks[1..], spawnPoints, locate, sqrt);
      SweepStepsVisitedEntries(tasks[1..], spawnPoints, locate, sqrt);
      assert r.stepped == rest.stepped + 1;
      forall i | 1 <= i < |tasks|
        ensures && r.tasks[i] == rest.tasks[i - 1]
                && StepAt(tasks, i, spawnPoints, locate, sqrt) == StepAt(tasks[1..], i - 1, spawnPoints, locate, sqrt)
      {
        assert tasks[i] == tasks[1..][i - 1];
      }
    }
  }

  /** Every visited entry whose step produced a command has it sent, addressed to the
      entry's walker. */
  lemma {:induction false} SweepSendsStepCommands(tasks: seq<WalkerTask>, spawnPoints: seq<Transform>,
                                                  locate: ActorId -> Vec3, sqrt: real -> real)
    ensures var r := SweepTasks(tasks, spawnPoints, locate, sqrt);
            forall i :: 0 <= i < r.stepped && StepAt(tasks, i, spawnPoints, locate, sqrt).Ok?
                        && StepAt(tasks, i, spawnPoints, locate, sqrt).value.control.Some? ==>
              Command(tasks[i].walker, StepAt(tasks, i, spawnPoints, locate, sqrt).value.control.value) in r.controls
    decreases |tasks|
  {
    var r := SweepTasks(tasks, spawnPoints, locate, sqrt);
    if |tasks| > 0 && StepAt(tasks, 0, spawnPoints, locate, sqrt).Ok? {
      var step := StepAt(tasks, 0, spawnPoints, locate, sqrt);
      var rest := SweepTasks(tasks[1..], spawnPoints, locate, sqrt);
      SweepSendsStepCommands(tasks[1..], spawnPoints, locate, sqrt);
      var sent := if step.value.control.Some? then [Command(tasks[0].walker, step.value.control.value)] else [];
      assert r.controls == sent + rest.controls && r.stepped == rest.stepped + 1;
      forall i | 1 <= i < r.stepped && StepAt(tasks, i, spawnPoints, locate, sqrt).Ok?
                 && StepAt(tasks, i, spawnPoints, locate, sqrt).value.control.Some?
        ensures Command(tasks[i].walker, StepAt(tasks, i, spawnPoints, locate, sqrt).value.control.value) in r.controls
      {
        assert tasks[i] == tasks[1..][i - 1];
        assert StepAt(tasks, i, spawnPoints, locate, sqrt) == StepAt(tasks[1..], i - 1, spawnPoints, locate, sqrt);
      }
    }
  }

  /** Every command a pass sends comes from the step of a visited entry, addressed to
      that entry's walker. */
  lemma {:induction false} SweepCommandsComeFromSteps(tasks: seq<WalkerTask>, spawnPoints: seq<Transform>,
                                                      locate: ActorId -> Vec3, sqrt: real -> real)
    ensures var r := SweepTasks(tasks, spawnPoints, locate, sqrt);
            forall c :: c in r.controls ==>
              exists i :: && 0 <= i < r.stepped && tasks[i].walker == c.walker
                          && StepAt(tasks, i, spawnPoints, locate, sqrt).Ok?
                          && StepAt(tasks, i, spawnPoints, locate, sqrt).value.control == Some(c.control)
    decreases |tasks|
  {
    var r := SweepTasks(tasks, spawnPoints, locate, sqrt);
    if |tasks| > 0 && StepAt(tasks, 0, spawnPoints, locate, sqrt).Ok? {
      var step := StepAt(tasks, 0, spawnPoints, locate, sqrt);
      var rest := SweepTasks(tasks[1..], spawnPoints, locate, sqrt);
      SweepCommandsComeFromSteps(tasks[1..], spawnPoints, locate, sqrt);
      var sent := if step.value.control.Some? then [Command(tasks[0].walker, step.value.control.value)] else [];
      assert r.controls == sent + rest.controls && r.stepped == rest.stepped + 1;
      forall c | c in r.controls
        ensures exists i :: && 0 <= i < r.stepped && tasks[i].walker == c.walker
                            && StepAt(tasks, i, spawnPoints, locate, sqrt).Ok?
                            && StepAt(tasks, i, spawnPoints, locate, sqrt).value.control == Some(c.control)
      {
        if c !in sent {
          var j :| && 0 <= j < rest.stepped && tasks[1..][j].walker == c.walker
                   && StepAt(tasks[1..], j, spawnPoints, locate, sqrt).Ok?
                   && StepAt(tasks[1..], j, spawnPoints, locate, sqrt).value.control == Some(c.control);
          assert tasks[j + 1] == tasks[1..][j];
          assert StepAt(tasks, j + 1, spawnPoints, locate, sqrt) == StepAt(tasks[1..], j, spawnPoints, locate, sqrt);
        }
      }
    }
  }

  /** Every walker marked for removal belongs to an entry that has finished its route. */
  lemma {:induction false} SweepMarksOnlyFinished(tasks: seq<WalkerTask>, spawnPoints: seq<Transform>,
                                                  locate: ActorId -> Vec3, sqrt: real -> real, w: ActorId)
    ensures var r := SweepTasks(tasks, spawnPoints, locate, sqrt);
            w in r.toRemove ==>
              exists i :: 0 <= i < |tasks| && tasks[i].walker == w && r.tasks[i].cursor >= |r.tasks[i].route|
    decreases |tasks|
  {
    var r := SweepTasks(tasks, spawnPoints, locate, sqrt);
    if w in r.toRemove {
      var step := StepTask(tasks[0], spawnPoints, locate(tasks[0].walker), sqrt);
      var rest := SweepTasks(tasks[1..], spawnPoints, locate, sqrt);
      assert step.Ok?;
      var leaving := if step.value.remove then [tasks[0].walker] else [];
      assert r.toRemove == leaving + rest.toRemove && r.tasks[1..] == rest.tasks;
      if step.value.remove && w == tasks[0].walker {
        assert r.tasks[0] == step.value.task;
      } else {
        assert w in rest.toRemove;
        SweepMarksOnlyFinished(tasks[1..], spawnPoints, locate, sqrt, w);
        var j :| 0 <= j < |tasks| - 1 && tasks[1..][j].walker == w && rest.tasks[j].cursor >= |rest.tasks[j].route|;
        assert r.tasks[j + 1] == rest.tasks[j] && tasks[j + 1] == tasks[1..][j];
      }
    }
  }

  /** After a full pass, every entry that has finished its route is marked for removal. */
  lemma {:induction false} SweepMarksAllFinished(tasks: seq<WalkerTask>, spawnPoints: seq<Transform>,
                                                 locate: ActorId -> Vec3, sqrt: real -> real, i: int)
    requires 0 <= i < |tasks|
    ensures var r := SweepTasks(tasks, spawnPoints, locate, sqrt);
            r.failure.None? && r.tasks[i].cursor >= |tasks[i].route| ==> tasks[i].walker in r.toRemove
    decreases |tasks|
  {
    var r := SweepTasks(tasks, spawnPoints, locate, sqrt);
    var step := StepTask(tasks[0], spawnPoints, locate(tasks[0].walker), sqrt);
    var rest := SweepTasks(tasks[1..], spawnPoints, locate, sqrt);
    if i > 0 && r.failure.None? && r.tasks[i].cursor >= |tasks[i].route| {
      assert r.tasks[i] == rest.tasks[i - 1];
      SweepMarksAllFinished(tasks[1..], spawnPoints, locate, sqrt, i - 1);
    }
  }

  /** The second loop of update_walkers: each walker marked for removal is destroyed if
      it is alive. A failing destroy is reported and swallowed, and leaves the walker
      alive; a successful one leaves it dead, so a walker listed twice is destroyed
      once. The result lists every destroy attempt in order. */
  function Teardown(toRemove: seq<ActorId>, alive: set<ActorId>, destroyFails: set<ActorId>): (attempts: seq<ActorId>)
    ensures forall w :: w in attempts ==> w in toRemove && w in alive
    ensures forall w :: w in toRemove && w in alive ==> w in attempts
    ensures forall w :: w !in destroyFails ==> multiset(attempts)[w] <= 1
    decreases |toRemove|
  {
    if |toRemove| == 0 then []
    else
      var w := toRemove[0];
      if w in alive then
        var after := if w in destroyFails then alive else alive - {w};
        var rest := Teardown(toRemove[1..], after, destroyFails);
        assert forall v :: v in toRemove[1..] ==> v in toRemove;
        [w] + rest
      else
        var rest := Teardown(toRemove[1..], alive, destroyFails);
        assert forall v :: v in toRemove[1..] ==> v in toRemove;
        rest
  }

  /** The final list comprehension: drop every entry whose walker was marked, by walker
      identity, keeping the others in order. */
  function RemoveWalkers(tasks: seq<WalkerTask>, removed: set<ActorId>): (r: seq<WalkerTask>)
    ensures forall t :: t in r <==> t in tasks && t.walker !in removed
    ensures |r| <= |tasks|
    decreases |tasks|
  {
    if |tasks| == 0 then []
    else if tasks[0].walker in removed then RemoveWalkers(tasks[1..], removed)
    else [tasks[0]] + RemoveWalkers(tasks[1..], removed)
  }

  /** `a` can be obtained from `b` by deleting elements. */
  predicate IsSubsequence<T(==)>(a: seq<T>, b: seq<T>)
    decreases |b|
  {
    if |a| == 0 then true
    else if |b| == 0 then false
    else if a[0] == b[0] then IsSubsequence(a[1..], b[1..])
    else IsSubsequence(a, b[1..])
  }

  /** The surviving entries keep their relative order. */
  lemma {:induction false} RemoveWalkersKeepsOrder(tasks: seq<WalkerTask>, removed: set<ActorId>)
    ensures IsSubsequence(RemoveWalkers(tasks, removed), tasks)
    decreases |tasks|
  {
    if |tasks| > 0 {
      RemoveWalkersKeepsOrder(tasks[1..], removed);
      var r := RemoveWalkers(tasks, removed);
      if tasks[0].walker !in removed {
        assert r[0] == tasks[0] && r[1..] == RemoveWalkers(tasks[1..], removed);
      } else {
        SkipHead(r, tasks);
      }
    }
  }

  /** A subsequence of the tail is a subsequence of the whole. */
  lemma {:induction false} SkipHead<T>(a: seq<T>, b: seq<T>)
    requires |b| > 0 && IsSubsequence(a, b[1..])
    ensures IsSubsequence(a, b)
    decreases |b|, 1
  {
    if |a| > 0 && a[0] == b[0] {
      DropFirst(a, b[1..]);
    }
  }

  /** Dropping the first element of a subsequence keeps it a subsequence. */
  lemma {:induction false} DropFirst<T>(a: seq<T>, c: seq<T>)
    requires |a| > 0 && IsSubsequence(a, c)
    ensures IsSubsequence(a[1..], c)
    decreases |c|, 2
  {
    if a[0] != c[0] {
      DropFirst(a, c[1..]);
    }
    SkipHead(a[1..], c);
  }

  /** After a full pass, the entries whose walkers were not marked have not finished
      their routes, and each descends from an entry of the list before the pass. */
  lemma SurvivorsUnfinished(tasks: seq<WalkerTask>, spawnPoints: seq<Transform>, locate: ActorId -> Vec3,
                            sqrt: real -> real)
    ensures var sweep := SweepTasks(tasks, spawnPoints, locate, sqrt);
            sweep.failure.None? ==>
              forall t :: t in RemoveWalkers(sweep.tasks, set w | w in sweep.toRemove) ==>
                && t.cursor < |t.route|
                && exists i :: && 0 <= i < |tasks| && tasks[i].walker == t.walker && tasks[i].route == t.route
                               && tasks[i].speed == t.speed && tasks[i].cursor <= t.cursor
  {
    var sweep := SweepTasks(tasks, spawnPoints, locate, sqrt);
    var removed := set w | w in sweep.toRemove;
    if sweep.failure.None? {
      forall t | t in RemoveWalkers(sweep.tasks, removed)
        ensures && t.cursor < |t.route|
                && exists i :: && 0 <= i < |tasks| && tasks[i].walker == t.walker && tasks[i].route == t.route
                               && tasks[i].speed == t.speed && tasks[i].cursor <= t.cursor
      {
        var i :| 0 <= i < |sweep.tasks| && sweep.tasks[i] == t;
        if t.cursor >= |t.route| {
          SweepMarksAllFinished(tasks, spawnPoints, locate, sqrt, i);
          assert false;
        }
      }
    }
  }

  /** The outcome of one call of update_walkers: the entries afterwards, the motion
      commands sent, the destroy attempts, and the exception that escaped, if any. */
  datatype Tick = Tick(tasks: seq<WalkerTask>, controls: seq<Command>, destroyed: seq<ActorId>,
                       raised: Option<Failure>)

  /** update_walkers. `locate` gives each walker's current location, `alive` the walkers
      the engine still holds, `destroyFails` those whose destroy raises. */
  function UpdateWalkers(tasks: seq<WalkerTask>, spawnPoints: seq<Transform>, locate: ActorId -> Vec3,
                         alive: set<ActorId>, destroyFails: set<ActorId>, sqrt: real -> real): (r: Tick)
    // An exception from the first loop escapes before anything is destroyed or removed.
    ensures r.raised.Some? ==> |r.tasks| == |tasks| && r.destroyed == []
    ensures r.raised.Some? ==> ClassOf(r.raised.value) in {IndexError, ValueError}
    // Entries that stay keep their walker, route and speed, and their order.
    ensures forall t :: t in r.tasks ==>
              exists i :: 0 <= i < |tasks| && tasks[i].walker == t.walker && tasks[i].route == t.route
                          && tasks[i].speed == t.speed && tasks[i].cursor <= t.cursor
    ensures AllCursorsInRange(tasks) ==> AllCursorsInRange(r.tasks)
    // After a full pass no surviving entry has finished its route.
    ensures r.raised.None? ==> forall t :: t in r.tasks ==> t.cursor < |t.route|
    // Only walkers that were alive are destroyed.
    ensures forall w :: w in r.destroyed ==> w in alive
    // The commands of the first loop are sent whether or not it raises, and what
    // escapes is the first loop's exception.
    ensures r.controls == SweepTasks(tasks, spawnPoints, locate, sqrt).controls
    ensures r.raised == SweepTasks(tasks, spawnPoints, locate, sqrt).failure
    ensures r.raised.Some? ==> r.tasks == SweepTasks(tasks, spawnPoints, locate, sqrt).tasks
    // After a full pass an entry stays exactly when its walker was not marked, and the
    // survivors keep their order.
    ensures r.raised.None? ==>
              forall t :: t in r.tasks <==> && t in SweepTasks(tasks, spawnPoints, locate, sqrt).tasks
                                            && t.walker !in SweepTasks(tasks, spawnPoints, locate, sqrt).toRemove
    ensures r.raised.None? ==> IsSubsequence(r.tasks, SweepTasks(tasks, spawnPoints, locate, sqrt).tasks)
    // Exactly the marked walkers that are alive are destroyed, each at most once
    // unless its destroy raises.
    ensures r.raised.None? ==>
              forall w :: w in r.destroyed <==> w in SweepTasks(tasks, spawnPoints, locate, sqrt).toRemove && w in alive
    ensures forall w :: w !in destroyFails ==> multiset(r.destroyed)[w] <= 1
  {
    var sweep := SweepTasks(tasks, spawnPoints, locate, sqrt);
    if sweep.failure.Some? then
      Tick(sweep.tasks, sweep.controls, [], sweep.failure)
    else
      var removed := set w | w in sweep.toRemove;
      var kept := RemoveWalkers(sweep.tasks, removed);
      SurvivorsUnfinished(tasks, spawnPoints, locate, sqrt);
      RemoveWalkersKeepsOrder(sweep.tasks, removed);
      Tick(kept, sweep.controls, Teardown(sweep.toRemove, alive, destroyFails), None)
  }

  /** Updating an empty manager does nothing. */
  lemma UpdateEmptyIsNoop(spawnPoints: seq<Transform>, locate: ActorId -> Vec3, alive: set<ActorId>,
                          destroyFails: set<ActorId>, sqrt: real -> real)
    ensures UpdateWalkers([], spawnPoints, locate, alive, destroyFails, sqrt) == Tick([], [], [], None)
  {
  }

  /** An entry with an empty route is removed, and its walker destroyed if alive, on the
      very next update that does not raise. */
  lemma EmptyRouteLeavesAtOnce(tasks: seq<WalkerTask>, walker: ActorId, speed: real, spawnPoints: seq<Transform>,
                               locate: ActorId -> Vec3, alive: set<ActorId>, destroyFails: set<ActorId>,
                               sqrt: real -> real)
    ensures var r := UpdateWalkers(AddWalker(tasks, walker, [], speed), spawnPoints, locate, alive, destroyFails, sqrt);
            r.raised.None? ==>
              && (forall t :: t in r.tasks ==> t.walker != walker)
              && (walker in alive ==> walker in r.destroyed)
  {
    var all := AddWalker(tasks, walker, [], speed);
    var sweep := SweepTasks(all, spawnPoints, locate, sqrt);
    if sweep.failure.None? {
      var i := |tasks|;
      assert all[i].walker == walker && all[i].route == [];
      SweepMarksAllFinished(all, spawnPoints, locate, sqrt, i);
      assert walker in set w | w in sweep.toRemove;
    }
  }
}

=== FILE: walker_utils.dfy ===
/** Sidewalk zones, spawn-index validation, walker spawning and walker steering
    (ScenarioTown02Maker/utils/walker_utils.py). */
module WalkerUtils {
  import opened Geometry
  import opened Errors

  // Spawn indices of Town02 grouped by the side of the road their sidewalk lies on.
  // The scripts only ever test membership in these lists, so they are kept as sets.
  const LeftSidewalk: set<int> := {27, 94, 25, 29, 31, 86, 33, 35, 60, 70, 58, 84, 62, 64, 66, 68, 50, 48, 88, 54, 39, 37, 91, 43, 45, 47}
  const RightSidewalk: set<int> := {28, 95, 26, 30, 32, 34, 36, 61, 71, 59, 63, 83, 65, 67, 69, 57, 49, 89, 55, 38, 40, 92, 42, 90, 44, 46}
  const TopSidewalk: set<int> := {23, 21, 19, 13, 15, 80, 82, 76, 78, 72, 74, 11, 9, 85, 7, 5, 99, 97, 3}
  const BottomSidewalk: set<int> := {24, 22, 18, 14, 93, 16, 81, 0, 77, 79, 73, 75, 12, 10, 8, 6, 96, 100, 98, 4}
  // Spawn indices a walker may never be spawned at.
  const UnavailableSpawnIndexes: set<int> := {1, 2, 17, 20, 41, 42, 51, 52, 53, 56, 87}

  /** The largest spawn index a walker may use, fixed whatever the map. */
  const MaxWalkerSpawnIndex: int := 100

  const LeftOffset: Vec3 := Vec3(0.0, -4.0, 0.0)
  const RightOffset: Vec3 := Vec3(0.0, 4.0, 0.0)
  const TopOffset: Vec3 := Vec3(4.0, 0.0, 0.0)
  const BottomOffset: Vec3 := Vec3(-4.0, 0.0, 0.0)

  predicate InSomeZone(index: int) {
    index in LeftSidewalk || index in RightSidewalk || index in TopSidewalk || index in BottomSidewalk
  }

  /** get_walker_offset_for_index: the zones are looked up in the order left, right, top, bottom. */
  function WalkerOffset(index: int): (o: Vec3)
    ensures o.z == 0.0
    ensures o == Zero <==> !InSomeZone(index)
    ensures index < 0 ==> o == Zero
  {
    if index in LeftSidewalk then LeftOffset
    else if index in RightSidewalk then RightOffset
    else if index in TopSidewalk then TopOffset
    else if index in BottomSidewalk then BottomOffset
    else Zero
  }

  lemma LeftRightDisjoint() ensures LeftSidewalk !! RightSidewalk {}
  lemma LeftTopDisjoint() ensures LeftSidewalk !! TopSidewalk {}
  lemma LeftBottomDisjoint() ensures LeftSidewalk !! BottomSidewalk {}
  lemma RightTopDisjoint() ensures RightSidewalk !! TopSidewalk {}
  lemma RightBottomDisjoint() ensures RightSidewalk !! BottomSidewalk {}
  lemma TopBottomDisjoint() ensures TopSidewalk !! BottomSidewalk {}

  /** The four sidewalk tables share no index. */
  lemma ZonesDisjoint()
    ensures LeftSidewalk !! RightSidewalk && LeftSidewalk !! TopSidewalk && LeftSidewalk !! BottomSidewalk
    ensures RightSidewalk !! TopSidewalk && RightSidewalk !! BottomSidewalk
    ensures TopSidewalk !! BottomSidewalk
  {
    LeftRightDisjoint();
    LeftTopDisjoint();
    LeftBottomDisjoint();
    RightTopDisjoint();
    RightBottomDisjoint();
    TopBottomDisjoint();
  }

  /** Because the tables are disjoint, the priority order of the lookup never decides
      the offset: membership in a table alone determines it. */
  lemma OffsetByZone(index: int)
    ensures index in LeftSidewalk ==> WalkerOffset(index) == LeftOffset
    ensures index in RightSidewalk ==> WalkerOffset(index) == RightOffset
    ensures index in TopSidewalk ==> WalkerOffset(index) == TopOffset
    ensures index in BottomSidewalk ==> WalkerOffset(index) == BottomOffset
  {
    ZonesDisjoint();
  }

  /** Python list subscription: a negative index counts from the end. */
  function PyIndex<T>(s: seq<T>, i: int): T
    requires -|s| <= i < |s|
  {
    if i < 0 then s[|s| + i] else s[i]
  }

  /** get_walker_location_from_index: the spawn point shifted by the sidewalk offset.
      Only `index >= len` is checked explicitly; a negative index goes through
      Python's subscript, which wraps from the end or raises IndexError. */
  function GetWalkerLocation(spawnPoints: seq<Transform>, index: int): (r: Result<Transform>)
    ensures r.Ok? <==> -|spawnPoints| <= index < |spawnPoints|
    ensures r.Err? ==> ClassOf(r.failure) == IndexError
    ensures 0 <= index < |spawnPoints| ==>
              && r.value.rotation == spawnPoints[index].rotation
              && Sub(r.value.location, spawnPoints[index].location) == WalkerOffset(index)
    ensures -|spawnPoints| <= index < 0 ==> r.value == spawnPoints[|spawnPoints| + index]
  {
    if index >= |spawnPoints| then Err(IndexOutOfRange(index))
    else if index < -|spawnPoints| then Err(IndexOutOfRange(index))
    else
      var t := PyIndex(spawnPoints, index);
      var offset := WalkerOffset(index);
      Ok(Transform(Vec3(t.location.x + offset.x, t.location.y + offset.y, t.location.z + offset.z), t.rotation))
  }

  /** is_valid_walker_spawn_index. An accepted index is in range, is not one of the
      unavailable ones, and always falls in a sidewalk zone, so the zone tables cover
      every index the validity check lets through. */
  function IsValidWalkerSpawnIndex(index: int): (ok: bool)
    ensures ok ==> 0 <= index <= MaxWalkerSpawnIndex
    ensures index in UnavailableSpawnIndexes ==> !ok
    ensures ok ==> InSomeZone(index) && WalkerOffset(index) != Zero
    ensures 0 <= index <= MaxWalkerSpawnIndex && !ok ==> index in UnavailableSpawnIndexes
  {
    if index < 0 || index > MaxWalkerSpawnIndex then false
    else index !in UnavailableSpawnIndexes
  }

  /** Validity ignores the zone tables: index 42 is unavailable yet still carries the
      right-sidewalk offset. */
  lemma UnavailableIndexKeepsOffset()
    ensures !IsValidWalkerSpawnIndex(42)
    ensures 42 in RightSidewalk && WalkerOffset(42) == RightOffset
  {
  }

  /** Every valid walker spawn index lies in exactly one sidewalk zone, so it always
      receives a non-zero offset. */
  lemma ValidIndexHasZone(index: int)
    requires IsValidWalkerSpawnIndex(index)
    ensures InSomeZone(index)
    ensures WalkerOffset(index) != Zero
  {
  }

  datatype SpawnedWalker = SpawnedWalker(actor: ActorId, at: Transform)

  /** spawn_walker. `blueprintFound` is the blueprint-library lookup, `spawnPoints` the map's
      spawn points, `spawned` the engine's answer to the spawn request, consulted only
      once every check has passed. */
  function SpawnWalker(blueprintFound: bool, index: Option<int>, spawnPoints: seq<Transform>,
                       spawned: Option<ActorId>): (r: Result<SpawnedWalker>)
    ensures !blueprintFound ==> r == Err(BlueprintMissing)
    ensures blueprintFound && index.None? ==> r == Err(SpawnIndexMissing)
    ensures blueprintFound && index.Some? && !IsValidWalkerSpawnIndex(index.value) ==>
              r == Err(SpawnIndexInvalid(index.value))
    ensures blueprintFound && index.Some? && IsValidWalkerSpawnIndex(index.value) && |spawnPoints| == 0 ==>
              r == Err(NoSpawnPoints)
    ensures r.Ok? <==> && blueprintFound && index.Some? && IsValidWalkerSpawnIndex(index.value)
                       && index.value < |spawnPoints| && spawned.Some?
    ensures r.Ok? ==> && r.value.actor == spawned.value
                      && r.value.at.rotation == spawnPoints[index.value].rotation
                      && Sub(r.value.at.location, spawnPoints[index.value].location) == WalkerOffset(index.value)
  {
    if !blueprintFound then Err(BlueprintMissing)
    else if index.None? then Err(SpawnIndexMissing)
    else if !IsValidWalkerSpawnIndex(index.value) then Err(SpawnIndexInvalid(index.value))
    else if |spawnPoints| == 0 then Err(NoSpawnPoints)
    else
      var transform :- GetWalkerLocation(spawnPoints, index.value);
      if spawned.None? then Err(SpawnRejected)
      else Ok(SpawnedWalker(spawned.value, transform))
  }

  /** Every check of spawn_walker happens before the engine is asked to spawn: when a
      check fails, the engine's answer does not influence the outcome. */
  lemma ValidationPrecedesSpawn(blueprintFound: bool, index: Option<int>, spawnPoints: seq<Transform>,
                                a: Option<ActorId>, b: Option<ActorId>)
    requires SpawnWalker(blueprintFound, index, spawnPoints, a).Err?
    requires SpawnWalker(blueprintFound, index, spawnPoints, a).failure != SpawnRejected
    ensures SpawnWalker(blueprintFound, index, spawnPoints, b) == SpawnWalker(blueprintFound, index, spawnPoints, a)
  {
  }

  /** The upper bound on walker spawn indices does not depend on how many spawn points
      the map has. */
  lemma SpawnBoundIgnoresMap(index: int, spawnPoints: seq<Transform>, spawned: Option<ActorId>)
    requires index > MaxWalkerSpawnIndex
    ensures SpawnWalker(true, Some(index), spawnPoints, spawned) == Err(SpawnIndexInvalid(index))
  {
  }

  /** The route-index argument of walker_go_to_location as Python sees it. */
  datatype IndexArg = NoIndex | IntIndex(i: int) | NonIntIndex

  /** The spawn-points argument: a list, or some other value. */
  datatype SpawnPointsArg = ListOf(items: seq<Transform>) | NotAList

  /** carla.WalkerControl(direction, speed, jump). */
  datatype WalkerControl = WalkerControl(direction: Vec3, speed: real, jump: bool)

  /** Where a walker is steered to: the offset spawn point, at ground level. */
  function GroundDestination(spawnPoints: seq<Transform>, index: int): Vec3
    requires 0 <= index < |spawnPoints|
  {
    var p := spawnPoints[index].location;
    var o := WalkerOffset(index);
    Vec3(p.x + o.x, p.y + o.y, 0.0)
  }

  /** walker_go_to_location: validate the arguments in the order the script does, then
      steer the walker towards the ground-level destination at the given speed, without
      jumping. */
  function WalkerGoToLocation(walker: Option<ActorId>, spawnPoints: SpawnPointsArg, from: Vec3,
                              index: IndexArg, speed: real, sqrt: real -> real): (r: Result<WalkerControl>)
    ensures r.Ok? <==> && walker.Some? && index.IntIndex? && spawnPoints.ListOf?
                       && 0 <= index.i < |spawnPoints.items|
    ensures r.Err? ==> ClassOf(r.failure) == ValueError
    ensures walker.None? || index.NoIndex? ==> r == Err(WalkerMissing)
    ensures walker.Some? && index.NonIntIndex? ==> r == Err(RouteIndexNotInt)
    ensures r.Ok? ==> && r.value.speed == speed && !r.value.jump
                      && r.value.direction == Direction(Sub(GroundDestination(spawnPoints.items, index.i), from), sqrt)
  {
    if walker.None? || index.NoIndex? then Err(WalkerMissing)
    else if index.NonIntIndex? then Err(RouteIndexNotInt)
    else if spawnPoints.NotAList? || |spawnPoints.items| == 0 then Err(SpawnPointsNotList)
    else if index.i < 0 || index.i >= |spawnPoints.items| then Err(RouteIndexOutOfRange(index.i))
    else
      var destination := GetWalkerLocation(spawnPoints.items, index.i).value.location.(z := 0.0);
      var movement := Sub(destination, from);
      var magnitude := sqrt(NormSq(movement));
      var direction := if magnitude > 0.0 then Div(movement, magnitude) else Zero;
      Ok(WalkerControl(direction, speed, false))
  }

  /** A walker sent to a spawn point stands still exactly when it already stands on the
      ground-level destination; otherwise it is steered along a unit vector that, scaled
      by the remaining distance, reaches the destination. */
  lemma GoToLocationSteersToDestination(walker: ActorId, spawnPoints: seq<Transform>, from: Vec3,
                                        index: int, speed: real, sqrt: real -> real)
    requires IsSqrt(sqrt)
    requires 0 <= index < |spawnPoints|
    ensures var r := WalkerGoToLocation(Some(walker), ListOf(spawnPoints), from, IntIndex(index), speed, sqrt);
            var dest := GroundDestination(spawnPoints, index);
            && r.Ok?
            && (r.value.direction == Zero <==> from == dest)
            && (from != dest ==> && NormSq(r.value.direction) == 1.0
                                 && Scale(r.value.direction, sqrt(DistSq(dest, from))) == Sub(dest, from))
  {
    var dest := GroundDestination(spawnPoints, index);
    DirectionZero(Sub(dest, from), sqrt);
    if from != dest {
      DirectionUnit(Sub(dest, from), sqrt);
    }
  }
}
